=== FILE: README.md ===
# Smart Bike Tracker firmware: modem, GPS and SMS core in Dafny

This project models the ESP32 firmware of a bike tracker that talks to a
SIM7070G cellular/GNSS modem over a UART. It covers:

- **AT transactions and the modem lifecycle** (`mcu/bike_tracker_esp32/sim7070g.cpp`
  and the later revision `mcu/test_codes/Test/sim7070g.cpp`): `sendATCommand`,
  start-up liveness, restart, registration polling, readiness, GNSS power,
  `readResponse`, the one-shot initialisation flag, and switching the radio
  off and on.
- **GPS handling** (`gps_handler.cpp`): parsing the `AT+CGNSINF` report,
  querying the receiver, the fix-acquisition retry loop, the last fix kept in
  flash, the `geo:` URI, and the 50-slot circular history log with its JSON
  export.
- **SMS** (`sms_handler.cpp`): the guarded text-mode send, the two-message
  pair, location and disconnect alerts, the message composers, and the 32-bit
  `millis()` throttle.

Modelling choices:

- **The serial link.** Each waiting operation consumes one `Window`:
  - `stale` holds the bytes buffered before the operation started;
  - `rx` holds the bytes that arrive within its time budget, and running out
    of `rx` is a timeout;
  - every write is appended to a log (`AtLink.Link.sent`).

  Retry loops become recursive functions over the window script. Their
  contracts say which reply positions decide the outcome, off-by-one shapes
  included.
- **Flash** (`Preferences`) is a map of namespaces to typed key/value maps.
  A getter returns its default on a missing key or a key of another type.
- **Numbers.** `unsigned long` is a 32-bit `u32` with explicit wrap-around
  (`Scalars.Wrap32`). C's truncating `%` is `Scalars.CRem`. C `int` values
  (the log cursor, the history count, `maxPoints`, entry indices) are
  unbounded integers, so signed overflow, undefined in C, is not modelled.
  Floats are opaque bit patterns.
- **NUL characters.** `String +=` stores a NUL read from the UART and counts
  it in `length()`, but `indexOf` (`strstr`, `strchr`) and comparison with a
  literal (`strcmp`) stop at the first NUL. Every search for a reply token
  and every coordinate comparison in the model looks only at the text before
  the first NUL (`Text.Visible`); trimming, substrings and lengths see the
  whole buffer.
- **Parameters.** `String::toFloat`, `String(f, 6)` and every `millis()`
  reading are passed in.

Where the project's documentation and the code differ, the model follows the code:

- The history log stores no split hi/lo timestamps and no speed.
- The JSON export has no paging and does not skip zero entries.
- `acquireGPSFix` does not switch the radio back on afterwards.
- `getGPSHistoryJSON` bounds its loop with the count mirrored in flash, while
  `getGPSLogEntry` checks the count in RAM. The model keeps both, so a log
  whose RAM cursor was never reloaded lists nothing and still reports the
  flash count.
- `sendSMSPair` does not stamp the last-send time when the second prompt is
  missing: it cancels and returns true before `updateLastSMSTime`
  (`sms_handler.cpp:231-237`). The time is stamped only after the second
  body has been written.
- The main revision's `initializeSIM7070G` has no one-shot flag and runs
  the whole handshake on every call. Only the later revision short-circuits
  a repeated call.
- `enableRF` waits up to 10 s for the acknowledgement of `AT+CFUN=1`, not 5 s.
- The SMS composers only switch GNSS power off before sending. They do not
  switch the radio on first, and they do not switch it off afterwards.

## Model

| member | source | states |
|---|---|---|
| AtLink.SendATCommand | mcu/bike_tracker_esp32/sim7070g.cpp:64-96 | success exactly when some received prefix contains the expected token before its first NUL and no shorter prefix contained `ERROR` before its first NUL; buffered bytes are dropped, the command is logged, and one reply window is consumed |
| AtLink.ScanDecides | mcu/bike_tracker_esp32/sim7070g.cpp:77-95 | the character-by-character receive loop (token test first, `ERROR` second, give up at end of input) decides exactly that acceptance condition |
| AtLink.ErrorFirstFails | mcu/bike_tracker_esp32/sim7070g.cpp:83-90 | an `ERROR` completed before the expected token, with no NUL ahead of it, fails the transaction, whatever arrives afterwards |
| AtLink.LeadingNulNeverAccepted | mcu/bike_tracker_esp32/sim7070g.cpp:77-95 | a reply that starts with NUL is never accepted, whatever follows: the transaction times out |
| Text.NulEndsSearch | mcu/bike_tracker_esp32/sim7070g.cpp:83 | a substring search never looks past the first NUL: the text contains a token exactly when its part before the NUL does |
| AtLink.ClearSerialBuffer | mcu/bike_tracker_esp32/sim7070g.cpp:160-164 | the next operation starts with nothing stale and the same incoming bytes; later windows and the log are unchanged |
| Sim7070g.ProbeLoopOutcome | mcu/bike_tracker_esp32/sim7070g.cpp:24-33 | the `AT` probe loop ends below its bound exactly when one of the first `bound` probes is answered |
| Sim7070g.ProbeLoopTraffic | mcu/bike_tracker_esp32/sim7070g.cpp:24-28 | the loop stops at the first answered probe, or after `bound + 1` probes; it logs exactly that many `AT` commands and consumes that many windows |
| Sim7070g.InitializeSIM7070G | mcu/bike_tracker_esp32/sim7070g.cpp:16-59 | start-up succeeds exactly when one of the first five probes is answered; on failure exactly six probes were sent; later replies (restart, readiness, CSQ, SMS configuration) never change the result |
| Sim7070g.RegistrationLoopOutcome | mcu/bike_tracker_esp32/sim7070g.cpp:104-119 | registration is reported exactly when one of the `2 * rounds` query replies matches the token asked at its position (home at even, roaming at odd) |
| Sim7070g.RegistrationLoopTraffic | mcu/bike_tracker_esp32/sim7070g.cpp:104-119 | on failure exactly two `AT+CREG?` queries per round are appended; on success at most that many plus the operator query; the log only grows |
| Sim7070g.SilentRegistrationLoopTraffic | mcu/test_codes/Test/sim7070g.cpp:246-255 | without the operator query the polling loop appends only `AT+CREG?` queries, at most two per round |
| Sim7070g.RegistrationRoundFails | mcu/bike_tracker_esp32/sim7070g.cpp:105-116 | a failed round consumes its two replies: registration among the remaining replies is registration among the original ones |
| Sim7070g.CheckNetworkRegistration | mcu/bike_tracker_esp32/sim7070g.cpp:101-120 | registered exactly when one of the first 60 replies reports home or roaming registration at its position; on failure exactly 60 queries were sent |
| Sim7070g.IsModuleReady | mcu/bike_tracker_esp32/sim7070g.cpp:125-127 | ready exactly when the next reply accepts `OK`; one `AT` with a 1 s budget is sent |
| Sim7070g.EnableGNSSPower | mcu/bike_tracker_esp32/sim7070g.cpp:132-141 | result exactly the acceptance of `OK` for `AT+CGNSPWR=1`, which is the one command sent |
| Sim7070g.DisableGNSSPower | mcu/bike_tracker_esp32/sim7070g.cpp:146-155 | result exactly the acceptance of `OK` for `AT+CGNSPWR=0`, which is the one command sent |
| Sim7070g.ResetModule | mcu/bike_tracker_esp32/sim7070g.cpp:193-209 | success exactly when the restart is acknowledged and one of the next ten probes is answered; an unacknowledged restart sends nothing more |
| Sim7070g.ReadResponse | mcu/bike_tracker_esp32/sim7070g.cpp:169-187 | returns a prefix of buffered-then-arriving bytes: the shortest complete one (non-empty and holding `OK` or `ERROR` before its first NUL), or everything on timeout; nothing is sent |
| Sim7070g.ReadLoopSpec | mcu/bike_tracker_esp32/sim7070g.cpp:173-184 | the polling loop stops at the first complete prefix and at no earlier one |
| Sim7070gTestRevision.InitializeSIM7070G | mcu/test_codes/Test/sim7070g.cpp:13-66 | with the flag set it succeeds and sends nothing; otherwise it succeeds exactly when one of five probes is answered, and the flag is set exactly when it succeeds |
| Sim7070gTestRevision.SecondInitializeIsSilent | mcu/test_codes/Test/sim7070g.cpp:26-31 | after a successful first initialisation, a second one succeeds without sending anything |
| Sim7070gTestRevision.FailedInitializeRetries | mcu/test_codes/Test/sim7070g.cpp:18-48 | a failed initialisation leaves the flag clear, so the next call runs the liveness check again on the following replies |
| Sim7070gTestRevision.IsSIM7070GInitialized | mcu/test_codes/Test/sim7070g.cpp:18-20 | reports the one-shot flag, which is clear after a failed initialisation (FailedInitializeRetries) and set after a successful one (InitializeSIM7070G) |
| Sim7070gTestRevision.DisableRF | mcu/test_codes/Test/sim7070g.cpp:222-232 | result exactly the acceptance of `OK` for the single `AT+CFUN=0` |
| Sim7070gTestRevision.EnableRF | mcu/test_codes/Test/sim7070g.cpp:238-260 | the result is the `AT+CFUN=1` acknowledgement, whatever polling says; polling follows only an acknowledged switch-on and sends nothing but `AT+CREG?`, at most 20 of them, and all 20 when none of their replies reports registration |
| GpsFix.CoordinatesValidWithoutNul | mcu/bike_tracker_esp32/gps_handler.cpp:120-122 | for coordinates without NUL the `String` comparisons are plain: valid exactly when both are non-empty and neither is `0.000000` |
| GpsFix.FormatGeoURI | mcu/bike_tracker_esp32/gps_handler.cpp:177-181 | empty exactly for an invalid fix; otherwise scheme, latitude, comma and longitude |
| GpsFix.GeoURIRoundTrip | mcu/bike_tracker_esp32/gps_handler.cpp:177-181 | a maps reader recovers the latitude and longitude of a valid fix from its URI; an invalid fix yields no URI |
| GnssParse.TokenizeIsFields | mcu/bike_tracker_esp32/gps_handler.cpp:98-109 | the tokenizer loop yields the first (at most 22) trimmed pieces between commas and line breaks, empty pieces included |
| GnssParse.TokenizeLoopSpec | mcu/bike_tracker_esp32/gps_handler.cpp:102-109 | from any state meeting the loop invariant (fields filled so far are the trimmed leading pieces, the open field is delimiter-free) the loop ends with the trimmed pieces |
| GnssParse.FixTokenHasColon | mcu/bike_tracker_esp32/gps_handler.cpp:86-92 | a response with the fix token always has a colon, so the second early return never fires |
| GnssParse.ColonBeforeNul | mcu/bike_tracker_esp32/gps_handler.cpp:86-92 | once the fix token is found before the first NUL, the colon search, which also stops there, finds the first colon of the whole response |
| GnssParse.ParseGNSSData | mcu/bike_tracker_esp32/gps_handler.cpp:84-129 | without `+CGNSINF: 1,1` before the first NUL the record is untouched and the result is false; otherwise the result equals the new validity flag and holds exactly when both coordinates are non-empty and compare (up to their first NUL) unequal to `0.000000` and to the empty string; the acquisition time is never touched |
| GnssParse.ParseTakesFields | mcu/bike_tracker_esp32/gps_handler.cpp:91-117 | with the fix token present, date-time, latitude, longitude, altitude, speed and course are fields 2 to 7 of the trimmed text after the first colon, each empty when the reply has fewer fields |
| GnssParse.SplitJoin | mcu/bike_tracker_esp32/gps_handler.cpp:102-108 | comma-joined delimiter-free fields split back into the same fields |
| GnssParse.ParseReport | mcu/bike_tracker_esp32/gps_handler.cpp:84-129 | for a well-formed fix report (an echoed command without colon or NUL and trailing lines allowed), fields 2..7 become the record's date, coordinates, altitude, speed and course, and the fix is valid exactly when the coordinates are |
| GpsAcquire.ReplyToSpec | mcu/bike_tracker_esp32/gps_handler.cpp:63-77 | the poll succeeds exactly when `OK` arrives before any NUL, and the response is then the shortest prefix that contains it; on timeout it is everything received |
| GpsAcquire.RequestGNSSInfo | mcu/bike_tracker_esp32/gps_handler.cpp:58-78 | flushes, logs exactly `AT+CGNSINF\r\n`, and returns the poll of the next window's fresh bytes, which succeeds exactly when `OK` arrives before any NUL |
| GpsAcquire.FixLoop | mcu/bike_tracker_esp32/gps_handler.cpp:32-50 | a reported fix is valid with usable coordinates, is stamped with the fix time, and is what was saved to flash; without a fix the store and the record's time are unchanged |
| GpsAcquire.FixLoopOutcome | mcu/bike_tracker_esp32/gps_handler.cpp:35-50 | the loop reports a fix exactly when one of the replies within the remaining attempts yields one |
| GpsAcquire.FixLoopFindsFix | mcu/bike_tracker_esp32/gps_handler.cpp:35-45 | a reply with a fix within the remaining attempts makes the loop succeed |
| GpsAcquire.FixLoopReportsReply | mcu/bike_tracker_esp32/gps_handler.cpp:35-45 | a reported fix came from one of the replies to the remaining attempts |
| GpsAcquire.FixLoopStopsAtFirstFix | mcu/bike_tracker_esp32/gps_handler.cpp:35-47 | a successful loop stops at the first reply yielding a fix: that reply answered the last query sent |
| GpsAcquire.FixLoopTraffic | mcu/bike_tracker_esp32/gps_handler.cpp:35-50 | one query per attempt and nothing else; without a fix every attempt is used |
| GpsAcquire.AcquireGPSFix | mcu/bike_tracker_esp32/gps_handler.cpp:17-53 | the reset outcome is ignored; a refused GNSS power-on changes nothing; success exactly when one of the first `maxAttempts` replies after power-on yields a fix, and the saved record is then what loading returns |
| GpsAcquire.ZeroAttemptsNeverFix | mcu/bike_tracker_esp32/gps_handler.cpp:32-35 | with no attempts allowed no fix is reported |
| GpsAcquire.AcquireTraffic | mcu/bike_tracker_esp32/gps_handler.cpp:32-50 | after power-on only GNSS queries are sent, at most `maxAttempts`, and exactly that many on failure |
| GpsStore.SaveGPSData | mcu/bike_tracker_esp32/gps_handler.cpp:134-145 | the eight puts touch only the `gps-data` namespace and leave its other keys alone |
| GpsStore.LoadGPSData | mcu/bike_tracker_esp32/gps_handler.cpp:150-165 | the result is the loaded validity flag; a never-written namespace loads as an empty, invalid record |
| GpsStore.HasValidStoredGPS | mcu/bike_tracker_esp32/gps_handler.cpp:170-173 | the validity flag of the stored record, false when nothing was ever saved; after a save it equals the saved validity (LoadAfterSave) |
| GpsStore.LoadAfterSave | mcu/bike_tracker_esp32/gps_handler.cpp:134-173 | loading after saving returns the whole record and its validity, whatever the store held, and `hasValidStoredGPS` agrees |
| GpsStore.SaveOverwrites | mcu/bike_tracker_esp32/gps_handler.cpp:134-165 | a second save replaces the first completely |
| GpsLog.SlotKeysDistinct | mcu/bike_tracker_esp32/gps_handler.cpp:252-255 | keys of different fields or different slots never collide |
| GpsLog.AdvanceCursor | mcu/bike_tracker_esp32/gps_handler.cpp:263-269 | the index moves to the next slot modulo 50 and the count saturates at 50; the cursor discipline is preserved |
| GpsLog.AppendReadsBack | mcu/bike_tracker_esp32/gps_handler.cpp:257-274 | an append's slot reads back as the new entry, and the flash cursor reads back as the advanced cursor |
| GpsLog.AppendKeepsOtherSlots | mcu/bike_tracker_esp32/gps_handler.cpp:252-261 | an append leaves every other slot as it was |
| GpsLog.LogGPSPoint | mcu/bike_tracker_esp32/gps_handler.cpp:248-277 | the point is stored in the current slot, the cursor advances and is mirrored in flash, and no other slot or namespace changes |
| GpsLog.LogGPSData | mcu/bike_tracker_esp32/gps_handler.cpp:236-243 | an invalid fix is refused with no change; a valid one is logged with its converted coordinates |
| GpsLog.PhysicalSlot | mcu/bike_tracker_esp32/gps_handler.cpp:297-304 | for a disciplined cursor, logical entries map into the 50 slots, and the newest maps to the slot written last |
| GpsLog.GetGPSLogEntry | mcu/bike_tracker_esp32/gps_handler.cpp:292-320 | no entry exactly when the index is negative or at least the RAM count; before the buffer first fills, entry i is the record in slot i |
| GpsLog.ClearGPSHistory | mcu/bike_tracker_esp32/gps_handler.cpp:356-363 | the namespace is emptied and the cursor reset, no entry can be read, and other namespaces are unchanged |
| GpsLog.ClearedRepresentsNothing | mcu/bike_tracker_esp32/gps_handler.cpp:356-363 | a cleared log represents the empty history of appended points |
| GpsLog.AppendRepresents | mcu/bike_tracker_esp32/gps_handler.cpp:248-277 | appending keeps the log representing every point appended so far, the new point last: only the slot of the point leaving the 50-point window is overwritten |
| GpsLog.RestartRecoversCursor | mcu/bike_tracker_esp32/gps_handler.cpp:226-231 | for a log kept by the firmware, reloading the cursor from flash restores the RAM cursor, and the flash count equals it |
| GpsLog.InitGPSHistory | mcu/bike_tracker_esp32/gps_handler.cpp:226-231 | a fresh or cleared log restarts at `(0, 0)`, the count agrees with `getGPSHistoryCount`; after an append it reads back the advanced cursor (LogGPSPoint), and for a kept log it restores the RAM cursor (RestartRecoversCursor) |
| GpsLog.GetGPSHistoryCount | mcu/bike_tracker_esp32/gps_handler.cpp:282-287 | 0 for a fresh or cleared log; for a log the firmware kept it equals the RAM count (RestartRecoversCursor) |
| GpsLog.EntryIsRecentPoint | mcu/bike_tracker_esp32/gps_handler.cpp:292-320 | logical entry `i` is the `i`-th oldest of the last `count` points appended, and the last entry is the most recent point |
| GpsLog.CursorAfterAppends | mcu/bike_tracker_esp32/gps_handler.cpp:263-269 | after `n` appends to a cleared log the cursor is `(n mod 50, min(n, 50))` |
| GpsLog.OldestSlotWhenFull | mcu/bike_tracker_esp32/gps_handler.cpp:299-304 | once the buffer has wrapped, the oldest entry is in slot `n mod 50` and the newest in the slot written last |
| GpsHistoryJson.WindowStart | mcu/bike_tracker_esp32/gps_handler.cpp:328-332 | the first index listed is never negative, and for non-negative inputs it is `count - min(maxPoints, count)` |
| GpsHistoryJson.ListedStep | mcu/bike_tracker_esp32/gps_handler.cpp:334-346 | one loop step appends an existing entry (after a comma unless it is the first index) and ignores a refused one |
| GpsHistoryJson.RenderWindow | mcu/bike_tracker_esp32/gps_handler.cpp:334-346 | the loop produces the comma-joined objects of exactly the entries the getter yields in the window |
| GpsHistoryJson.GetGPSHistoryJSON | mcu/bike_tracker_esp32/gps_handler.cpp:325-351 | the document lists the entries from the window start to the flash count, in order, and reports that count |
| GpsHistoryJson.HistoryListsRecentPoints | mcu/bike_tracker_esp32/gps_handler.cpp:325-351 | for a log kept by the firmware, the listed entries are the most recent `min(maxPoints, count)` appended points, oldest first, and the count is `min(appended, 50)` |
| GpsHistoryJson.WindowIsSuffix | mcu/bike_tracker_esp32/gps_handler.cpp:329-336 | the window of the last `min(maxPoints, count)` logical entries is that suffix of the history; a negative `maxPoints` lists nothing (in unbounded arithmetic) |
| SmsText.FormatAlertMessage | mcu/bike_tracker_esp32/sms_handler.cpp:370-414 | the message starts with the `geo:` text followed by a blank line |
| SmsText.FormatSimpleLocationMessage | mcu/bike_tracker_esp32/sms_handler.cpp:419-439 | the message starts with the `geo:` text followed by a blank line |
| SmsText.FirstLineIsGeoURI | mcu/bike_tracker_esp32/sms_handler.cpp:373-378 | for coordinates without line breaks, the first line is exactly the fix's URI and reads back as its coordinates |
| SmsText.AlertMessageStartsWithGeoURI | mcu/bike_tracker_esp32/sms_handler.cpp:370-414 | the first line of an alert is the fix's geo URI |
| SmsText.SimpleMessageStartsWithGeoURI | mcu/bike_tracker_esp32/sms_handler.cpp:419-439 | the first line of a simple location message is the fix's geo URI |
| SmsText.AlertMessageNamesType | mcu/bike_tracker_esp32/sms_handler.cpp:380-401 | two alerts for the same fix are equal only for the same alert type; the out-of-range type has its own header |
| SmsText.AlertMessageLines | mcu/bike_tracker_esp32/sms_handler.cpp:370-414 | for coordinates without line breaks the alert reads, line by line: the URI, a blank line, the title of its alert type, a blank line, `Coordinates:`, `Lat: <latitude>`, `Lon: <longitude>`; the title is "Location Alert" exactly for a value outside the enumerators |
| SmsText.AlertTagIsTitle | mcu/bike_tracker_esp32/sms_handler.cpp:296-311 | each listed alert type adds a line holding its title; the out-of-range type adds nothing |
| SmsText.LocationInstructionsLines | mcu/bike_tracker_esp32/sms_handler.cpp:288-311 | for coordinates without line breaks the instructions read, line by line: the copy-and-paste hint, `Location: <latitude> <longitude>`, and the alert title unless the type is out of range |
| SmsText.DisconnectStatusLines | mcu/bike_tracker_esp32/sms_handler.cpp:335-348 | for coordinates without line breaks the status reads, line by line: the hint, `Location: <latitude>,<longitude>`, a blank line, `Device Status`, `User: Present` or `User: Away`, and `SMS Interval: <n> sec` whose digits read back as the interval |
| SmsText.TestMessageLines | mcu/bike_tracker_esp32/sms_handler.cpp:357-362 | the test text has three lines, the last `Time: <n> seconds since boot` whose digits read back as the clock in whole seconds |
| SmsText.SimpleMessageLines | mcu/bike_tracker_esp32/sms_handler.cpp:419-439 | for coordinates without line breaks the message reads, line by line: the URI, a blank line, `Bike Location`, a blank line, `Coordinates:`, `Lat: <latitude>`, `Lon: <longitude>` |
| SmsThrottle.UpdateLastSMSTime | mcu/bike_tracker_esp32/sms_handler.cpp:444-451 | the time is remembered in RAM and reads back from `sms-data`/`lastSMS`; nothing else in flash changes |
| SmsThrottle.ShouldSendSMS | mcu/bike_tracker_esp32/sms_handler.cpp:457-467 | a clock earlier than the last send resets it to 0; the result compares the elapsed time with the interval in 32-bit milliseconds |
| SmsThrottle.GetTimeSinceLastSMS | mcu/bike_tracker_esp32/sms_handler.cpp:472-481 | whole seconds since the last send (floor), or 0 when the clock reads earlier |
| SmsThrottle.ShouldSendAgreesWithElapsed | mcu/bike_tracker_esp32/sms_handler.cpp:457-481 | for intervals that fit in 32 bits as milliseconds, and no wrap, sending is allowed exactly when the elapsed whole seconds reach the interval |
| SmsThrottle.ClosedForOneInterval | mcu/bike_tracker_esp32/sms_handler.cpp:444-467 | right after a send the throttle stays closed until one full interval has elapsed |
| SmsThrottle.WrappedClockForgetsLastSend | mcu/bike_tracker_esp32/sms_handler.cpp:461-478 | after the clock wraps, the throttle measures from 0 and the elapsed-time reading is 0 |
| SmsThrottle.LongIntervalWraps | mcu/bike_tracker_esp32/sms_handler.cpp:458 | an interval of 4294968 s wraps to 704 ms in 32 bits |
| SmsSend.CmsErrorIsError | mcu/bike_tracker_esp32/sms_handler.cpp:99 | the `+CMS ERROR` half of the failure test never decides anything on its own |
| SmsSend.ConfirmScanDecides | mcu/bike_tracker_esp32/sms_handler.cpp:87-104 | the confirmation loop (success test before failure test, per character) decides exactly confirmed or rejected by the input's prefixes |
| SmsSend.AwaitConfirmation | mcu/bike_tracker_esp32/sms_handler.cpp:83-107 | the reply is confirmed or rejected exactly as its prefixes decide, searching each only up to its first NUL and reading buffered bytes first; nothing is sent |
| SmsSend.AwaitPrompt | mcu/bike_tracker_esp32/sms_handler.cpp:52-75 | the prompt is seen exactly when `>` arrives; the bytes after it stay buffered; without it, ESC is sent and the buffer is flushed |
| SmsSend.Handshake | mcu/bike_tracker_esp32/sms_handler.cpp:19-75 | a module that misses the readiness probe stops the send after ESC and one `AT` |
| SmsSend.HandshakeStages | mcu/bike_tracker_esp32/sms_handler.cpp:19-75 | each guard (ready, registered, text mode, prompt) is reached only when those before it passed |
| SmsSend.HandshakeExtends | mcu/bike_tracker_esp32/sms_handler.cpp:19-75 | the opening only appends to the log, and when the guards pass it has written the submission line |
| SmsSend.SendSMS | mcu/bike_tracker_esp32/sms_handler.cpp:19-108 | success exactly when every guard passes and the confirmation arrives; the body is written exactly when prompted; only success stamps the time |
| SmsSend.SecondMessage | mcu/bike_tracker_esp32/sms_handler.cpp:205-267 | always reports success; the second body is written exactly when its prompt arrives, and the time is stamped exactly then, whatever the confirmation says |
| SmsSend.SendSMSPair | mcu/bike_tracker_esp32/sms_handler.cpp:114-268 | the result is the first message's confirmation; at most the two bodies, in order; a failed pair stamps nothing, and the time is stamped exactly when both bodies were written |
| SmsSend.SendSMSAgreesWithPair | mcu/bike_tracker_esp32/sms_handler.cpp:19-268 | `sendSMS` and `sendSMSPair` succeed on the same replies |
| SmsSend.SilentModuleSendsNothing | mcu/bike_tracker_esp32/sms_handler.cpp:114-125 | with a silent module no body is written and nothing is stamped |
| SmsSend.SentKeepsPrefix | mcu/bike_tracker_esp32/sms_handler.cpp:114-268 | a pair only appends to the log |
| SmsSend.SendLocationSMS | mcu/bike_tracker_esp32/sms_handler.cpp:274-315 | nothing happens without a valid fix; otherwise GNSS power-off is sent first, the first body is the geo URI and the second the instructions with the alert line; success exactly when the first message is prompted and confirmed; the time is stamped exactly when both bodies were written |
| SmsSend.SendDisconnectSMS | mcu/bike_tracker_esp32/sms_handler.cpp:321-352 | nothing happens without a valid fix; otherwise GNSS power-off is sent first, the first body is the geo URI and the second the device status; success exactly when the first message is prompted and confirmed; the time is stamped exactly when both bodies were written |
| SmsSend.SendTestSMS | mcu/bike_tracker_esp32/sms_handler.cpp:357-365 | success exactly when the message is prompted and confirmed; the test text is written exactly when prompted, and the time is stamped exactly on success |

## Left out

- `calculateDistance` and `formatGoogleMapsLink` (gps_handler.cpp) work in floating point. The model does no float arithmetic.
- `String::toFloat` and `String(f, 6)` are parameters (`toFloat`, `formatFloat`), so the model states nothing about their digits.
- Delays and real time are not modelled. A wait is the window of bytes that arrive within its budget, and every `millis()` reading is a parameter.
- Byte timing within a window is not modelled. `requestGNSSInfo` drains all available bytes before it tests for `OK`, so its response can run past the first `OK`. GpsAcquire.RequestGNSSInfo: the response ends with the byte that completes the first `OK`.
- Bytes left in a window after `sendATCommand` returns are dropped, not carried into the next window. A transaction flushes before it writes, so this matters only for a read that does not flush. One such read exists: the wait for the `>` prompt right after `AT+CMGF=1` (`sms_handler.cpp:47-66`, `139-158`, `209-227`). That wait's window has an arbitrary `stale` part, so whatever the text-mode reply left behind is one of the inputs its contract covers.
- `readResponse` takes one arriving character per poll after the first poll.
- The UART set-up (`simSerial.begin`) and the serial debug output are left out.
- The accelerometer driver (`lsm6dsl_handler`) and the BLE protocol header are not part of this model.
- Flash wear, commit failures and the 15-character key limit of `Preferences` are left out.
- `sendNoLocationSMS` is declared in the header but has no implementation, so there is nothing to model.
- The test revision of sim7070g.cpp repeats `sendATCommand`, `checkNetworkRegistration`, `isModuleReady`, the GNSS power functions, `readResponse` and `resetModule` verbatim. They are modelled once, in `Sim7070g`.
- `MAX_SMS_RETRIES` and `SMS_RETRY_DELAY` (sms_handler.h) are never used by the code.
- Sim7070g.InitializeSIM7070G: the contract says nothing about the traffic after a successful liveness check, because those replies never change the result.
- SmsSend.Handshake: its own contract covers only the readiness branch. The other guards are stated in SmsSend.HandshakeStages.
- GpsHistoryJson.WindowIsSuffix: C `int` is unbounded in the model. For `maxPoints <= count - 2^31`, `count - pointsToSend` (gps_handler.cpp:332) overflows in C, which is undefined behaviour. With `maxPoints = INT_MIN` and `count = 5`, a wrapping target would list all five entries, while the model lists none. The same applies to GpsHistoryJson.WindowStart.
- GpsLog.AdvanceCursor: `logIndex + 1` (gps_handler.cpp:263) overflows in C when a corrupted flash cursor holds `INT_MAX`. The model's unbounded increment gives slot `(INT_MAX + 1) % 50` instead. Cursors that `logGPSPoint` itself writes stay below 50.
- AtLink.ErrorFirstFails: stated only when no NUL comes before the `ERROR`. Past a NUL the firmware's search never sees the `ERROR`, and the transaction times out instead (AtLink.LeadingNulNeverAccepted).
- GnssParse.ParseReport: stated for an echoed command without NUL, because a NUL there hides the fix token from the search.
- Every token the firmware searches for is a literal without NUL, so a NUL inside the searched-for text is not modelled.
- SmsThrottle.ShouldSendAgreesWithElapsed: stated only for intervals below 4294968 s. The callers pass a 16-bit interval, and longer intervals wrap, as SmsThrottle.LongIntervalWraps shows.

=== FILE: at_link.dfy ===
/**
 The serial link to the SIM7070G modem and the AT-command transaction
 (`sendATCommand`, sim7070g.cpp).

 The UART is modelled per operation. Every operation that waits for the modem
 consumes one `Window` of a script: `stale` holds the bytes already buffered
 when the operation starts (an operation that flushes the buffer first never
 sees them), `rx` the bytes that arrive within the operation's time budget.
 Running out of `rx` is a timeout. Once the script is exhausted the modem is
 silent. Everything written to the modem is recorded, in order, in `sent`.
 */
module AtLink {
  import opened Text

  /** Wait budgets in milliseconds, sim7070g.h. */
  const DEFAULT_TIMEOUT: nat := 2000
  const NETWORK_TIMEOUT: nat := 5000
  const SMS_TIMEOUT: nat := 30000
  const GPS_TIMEOUT: nat := 10000

  const ERROR_TOKEN: string := "ERROR"
  const CRLF: string := "\r\n"
  /** The escape byte that cancels a pending SMS prompt. */
  const ESC: char := 27 as char
  /** Ctrl-Z, which ends an SMS body. */
  const CTRL_Z: char := 26 as char

  datatype Window = Window(stale: string, rx: string)

  const SILENCE: Window := Window("", "")

  /** What the firmware writes: a `sendATCommand` transaction (the line, the
      token it waits for and its budget), or raw bytes written outside one. */
  datatype Tx =
    | Command(line: string, token: string, waitMs: nat)
    | Raw(bytes: string)

  datatype Link = Link(script: seq<Window>, sent: seq<Tx>)

  /** A result together with the link after producing it. */
  datatype Step<T> = Step(value: T, link: Link)

  /** The `j`-th window still to come. */
  function WindowAt(l: Link, j: nat): Window
  {
    if j < |l.script| then l.script[j] else SILENCE
  }

  /** Consume the next window. */
  function Advance(l: Link): (r: Link)
    ensures r.sent == l.sent
    ensures forall j: nat :: WindowAt(r, j) == WindowAt(l, j + 1)
  {
    if |l.script| > 0 then l.(script := l.script[1..]) else l
  }

  function Write(l: Link, bytes: string): (r: Link)
    ensures r.script == l.script
    ensures r.sent == l.sent + [Raw(bytes)]
  {
    l.(sent := l.sent + [Raw(bytes)])
  }

  /** Consume the next window, leaving `rest`, the bytes it delivered that
      were not read, buffered for the operation after it. */
  function Carry(l: Link, rest: string): (r: Link)
    ensures r.sent == l.sent
    ensures WindowAt(r, 0) == Window(rest + WindowAt(l, 1).stale, WindowAt(l, 1).rx)
    ensures forall j: nat :: j > 0 ==> WindowAt(r, j) == WindowAt(l, j + 1)
  {
    var next := WindowAt(l, 1);
    var later := if |l.script| > 1 then l.script[2..] else [];
    l.(script := [Window(rest + next.stale, next.rx)] + later)
  }

  /** `clearSerialBuffer`: whatever is buffered now is discarded, so the next
      operation starts with nothing stale. */
  function ClearSerialBuffer(l: Link): (r: Link)
    ensures r.sent == l.sent
    ensures WindowAt(r, 0).stale == "" && WindowAt(r, 0).rx == WindowAt(l, 0).rx
    ensures forall j: nat :: j > 0 ==> WindowAt(r, j) == WindowAt(l, j)
  {
    if |l.script| > 0 then l.(script := [l.script[0].(stale := "")] + l.script[1..]) else l
  }

  /** What `sendATCommand` promises about a reply: some received prefix
      contains the expected token, and no shorter prefix contained `ERROR`. */
  ghost predicate Accepts(expected: string, rx: string)
  {
    exists k :: 1 <= k <= |rx| && Contains(rx[..k], expected)
      && forall j :: 1 <= j < k ==> !Contains(rx[..j], ERROR_TOKEN)
  }

  /** The receive loop of `sendATCommand`: after each character, test the
      expected token first and `ERROR` second; give up when input ends. */
  function Scan(expected: string, rx: string, k: nat): bool
    requires 1 <= k
    decreases |rx| + 1 - k
  {
    if k > |rx| then false
    else if Contains(rx[..k], expected) then true
    else if Contains(rx[..k], ERROR_TOKEN) then false
    else Scan(expected, rx, k + 1)
  }

  /** The loop decides exactly `Accepts`, given that no earlier prefix
      decided anything. */
  lemma {:induction false} ScanDecides(expected: string, rx: string, k: nat)
    requires 1 <= k <= |rx| + 1
    requires forall j :: 1 <= j < k ==> !Contains(rx[..j], expected) && !Contains(rx[..j], ERROR_TOKEN)
    ensures Scan(expected, rx, k) <==> Accepts(expected, rx)
    decreases |rx| + 1 - k
  {
    if k <= |rx| && !Contains(rx[..k], expected) && !Contains(rx[..k], ERROR_TOKEN) {
      ScanDecides(expected, rx, k + 1);
    }
  }

  /** `sendATCommand(cmd, expected, timeout)`: drop what is buffered, send the
      line, then scan the reply. */
  function SendATCommand(l: Link, cmd: string, expected: string, timeout: nat): (r: Step<bool>)
    ensures r.value <==> Accepts(expected, WindowAt(l, 0).rx)
    ensures r.link.sent == l.sent + [Command(cmd, expected, timeout)]
    ensures forall j: nat :: WindowAt(r.link, j) == WindowAt(l, j + 1)
  {
    var w := WindowAt(l, 0);
    ScanDecides(expected, w.rx, 1);
    Step(Scan(expected, w.rx, 1), Advance(l).(sent := l.sent + [Command(cmd, expected, timeout)]))
  }

  /** An `ERROR` that completes, with no NUL ahead of it, before the expected
      token appears makes the transaction fail, however the reply continues. */
  lemma ErrorFirstFails(expected: string, before: string, after: string)
    requires '\0' !in before
    requires !Contains(before + ERROR_TOKEN, expected)
    ensures !Accepts(expected, before + ERROR_TOKEN + after)
  {
    var rx := before + ERROR_TOKEN + after;
    var e := |before| + |ERROR_TOKEN|;
    assert rx[..e] == before + ERROR_TOKEN + "";
    ContainsInfix(before, ERROR_TOKEN, "");
    assert (before + ERROR_TOKEN)[..e] == before + ERROR_TOKEN;
    forall k | 1 <= k <= e
      ensures !Contains(rx[..k], expected)
    {
      assert rx[..k] == (before + ERROR_TOKEN)[..k];
      if Contains(rx[..k], expected) {
        ContainsGrows(before + ERROR_TOKEN, expected, k, e);
      }
    }
  }

  /** A reply whose first character is NUL is never accepted: every search
      of the buffer stops at once, so the transaction times out. */
  lemma LeadingNulNeverAccepted(expected: string, rest: string)
    requires |expected| > 0
    ensures !Accepts(expected, "\0" + rest)
  {
    var rx := "\0" + rest;
    forall k | 1 <= k <= |rx|
      ensures !Contains(rx[..k], expected)
    {
      assert rx[..k] == "" + "\0" + rest[..k - 1];
      NulEndsSearch("", rest[..k - 1], expected);
    }
  }
}

=== FILE: flash.dfy ===
/**
 The ESP32 `Preferences` key-value store: named namespaces, each a map from
 key to a typed scalar. A getter returns the caller's default when the key is
 missing or holds a value of another type; `clear` empties one namespace.
 Flash wear, commit failures and the 15-character key limit are not modelled.
 */
module Flash {
  import opened Scalars

  datatype Value =
    | StringValue(s: string)
    | BoolValue(b: bool)
    | ULongValue(u: u32)
    | IntValue(i: int)
    | FloatValue(f: Float32)
    | UCharValue(c: u8)

  type Namespace = map<string, Value>
  type Store = map<string, Namespace>

  /** The keys of `ns`; a namespace never written reads as empty. */
  function Entries(st: Store, ns: string): Namespace
  {
    if ns in st then st[ns] else map[]
  }

  /** `begin(ns); put…(key, v); end()`. */
  function Put(st: Store, ns: string, key: string, v: Value): (r: Store)
    ensures Entries(r, ns) == Entries(st, ns)[key := v]
    ensures forall other :: other != ns ==> Entries(r, other) == Entries(st, other)
  {
    st[ns := Entries(st, ns)[key := v]]
  }

  /** `begin(ns); clear(); end()`. */
  function Clear(st: Store, ns: string): (r: Store)
    ensures Entries(r, ns) == map[]
    ensures forall other :: other != ns ==> Entries(r, other) == Entries(st, other)
  {
    st[ns := map[]]
  }

  function GetString(st: Store, ns: string, key: string, default: string): string
  {
    var m := Entries(st, ns);
    if key in m && m[key].StringValue? then m[key].s else default
  }

  function GetBool(st: Store, ns: string, key: string, default: bool): bool
  {
    var m := Entries(st, ns);
    if key in m && m[key].BoolValue? then m[key].b else default
  }

  function GetULong(st: Store, ns: string, key: string, default: u32): u32
  {
    var m := Entries(st, ns);
    if key in m && m[key].ULongValue? then m[key].u else default
  }

  function GetInt(st: Store, ns: string, key: string, default: int): int
  {
    var m := Entries(st, ns);
    if key in m && m[key].IntValue? then m[key].i else default
  }

  function GetFloat(st: Store, ns: string, key: string, default: Float32): Float32
  {
    var m := Entries(st, ns);
    if key in m && m[key].FloatValue? then m[key].f else default
  }

  function GetUChar(st: Store, ns: string, key: string, default: u8): u8
  {
    var m := Entries(st, ns);
    if key in m && m[key].UCharValue? then m[key].c else default
  }
}

=== FILE: gnss_parse.dfy ===
/**
 `parseGNSSData` (gps_handler.cpp): reading a position out of the modem's
 `AT+CGNSINF` report. The report is a comma-separated line
 `+CGNSINF: <run>,<fix>,<datetime>,<lat>,<lon>,<alt>,<speed>,<course>,…`;
 the firmware splits everything after the first colon at commas and line
 breaks, trims each piece, and keeps at most 22 of them.
 */
module GnssParse {
  import opened Text
  import opened GpsFix

  /** Present only in a report of a running receiver with a fix. */
  const FIX_TOKEN: string := "+CGNSINF: 1,1"
  const REPORT_PREFIX: string := "+CGNSINF: "
  const MAX_FIELDS: nat := 22

  predicate IsFieldDelimiter(c: char)
  {
    c == ',' || c == '\n' || c == '\r'
  }

  predicate DelimiterFree(s: string)
  {
    forall i :: 0 <= i < |s| ==> !IsFieldDelimiter(s[i])
  }

  function FirstDelimiter(s: string): (r: int)
    ensures -1 <= r < |s|
  {
    if |s| == 0 then -1
    else if IsFieldDelimiter(s[0]) then 0
    else
      var k := FirstDelimiter(s[1..]);
      if k == -1 then -1 else k + 1
  }

  /** The pieces between delimiters, in order: `n` delimiters give `n + 1`
      pieces, empty ones included. */
  function Split(s: string): (r: seq<string>)
    ensures |r| >= 1
    decreases |s|
  {
    var d := FirstDelimiter(s);
    if d < 0 then [s] else [s[..d]] + Split(s[d + 1..])
  }

  /** Text without delimiters is a single piece. */
  lemma SplitFree(a: string)
    requires DelimiterFree(a)
    ensures Split(a) == [a]
  {
    FirstDelimiterNone(a);
  }

  lemma {:induction false} FirstDelimiterNone(a: string)
    requires DelimiterFree(a)
    ensures FirstDelimiter(a) == -1
    decreases |a|
  {
    if |a| > 0 {
      FirstDelimiterNone(a[1..]);
    }
  }

  /** The first delimiter of `s` is at `k` when `s[..k]` has none. */
  lemma {:induction false} FirstDelimiterAt(s: string, k: nat)
    requires k < |s| && IsFieldDelimiter(s[k])
    requires forall i :: 0 <= i < k ==> !IsFieldDelimiter(s[i])
    ensures FirstDelimiter(s) == k
    decreases k
  {
    if k > 0 {
      FirstDelimiterAt(s[1..], k - 1);
    }
  }

  /** The first delimiter ends the first piece. */
  lemma SplitAt(a: string, d: char, b: string)
    requires DelimiterFree(a) && IsFieldDelimiter(d)
    ensures Split(a + [d] + b) == [a] + Split(b)
  {
    var s := a + [d] + b;
    assert forall i :: 0 <= i < |a| ==> s[i] == a[i];
    FirstDelimiterAt(s, |a|);
    assert s[..|a|] == a && s[|a| + 1..] == b;
  }

  /** The trimmed pieces, at most `MAX_FIELDS` of them: the fields the
      firmware's tokenizer fills. */
  function Fields(s: string): (r: seq<string>)
    ensures |r| <= MAX_FIELDS
  {
    var pieces := Split(s);
    var n := if |pieces| < MAX_FIELDS then |pieces| else MAX_FIELDS;
    seq(n, k requires 0 <= k < n => Trim(pieces[k]))
  }

  /** `fields[k]` of the tokenizer's array, whose unfilled entries are empty. */
  function FieldAt(fields: seq<string>, k: nat): string
  {
    if k < |fields| then fields[k] else ""
  }

  /** Closing the field that starts at `start` at position `i`. */
  lemma CloseField(s: string, start: nat, i: nat)
    requires start <= i <= |s| && DelimiterFree(s[start..i])
    requires i < |s| ==> IsFieldDelimiter(s[i])
    ensures i == |s| ==> Split(s[start..]) == [s[start..i]]
    ensures i < |s| ==> Split(s[start..]) == [s[start..i]] + Split(s[i + 1..])
  {
    if i == |s| {
      assert s[start..] == s[start..i];
      SplitFree(s[start..i]);
    } else {
      assert s[start..] == s[start..i] + [s[i]] + s[i + 1..];
      SplitAt(s[start..i], s[i], s[i + 1..]);
    }
  }

  /** The tokenizer's fields are `Fields` once they are the trimmed leading
      pieces and either all pieces or `MAX_FIELDS` of them. */
  lemma FieldsFromPieces(s: string, pieces: seq<string>, fields: seq<string>)
    requires |fields| == |pieces| <= |Split(s)| && Split(s)[..|pieces|] == pieces
    requires |pieces| == |Split(s)| || |pieces| == MAX_FIELDS
    requires |pieces| <= MAX_FIELDS
    requires forall k :: 0 <= k < |fields| ==> fields[k] == Trim(pieces[k])
    ensures fields == Fields(s)
  {
  }

  /** The tokenizer loop of `parseGNSSData`, one position per step: scan
      positions `0..length` inclusive, close a field at every delimiter and
      at the end, stop once 22 fields are filled. */
  function TokenizeLoop(s: string, i: nat, lastComma: int, fields: seq<string>): seq<string>
    requires i <= |s| + 1 && -1 <= lastComma < i
    decreases |s| + 1 - i
  {
    if i > |s| || |fields| >= MAX_FIELDS then fields
    else if i == |s| || IsFieldDelimiter(s[i]) then
      TokenizeLoop(s, i + 1, i, fields + [Trim(s[lastComma + 1..i])])
    else TokenizeLoop(s, i + 1, lastComma, fields)
  }

  function Tokenize(s: string): seq<string>
  {
    TokenizeLoop(s, 0, -1, [])
  }

  /** A field that has not met a delimiter grows by one character. */
  lemma ExtendField(s: string, start: nat, i: nat)
    requires start <= i < |s| && DelimiterFree(s[start..i]) && !IsFieldDelimiter(s[i])
    ensures DelimiterFree(s[start..i + 1])
  {
    assert s[start..i + 1] == s[start..i] + [s[i]];
  }

  /** The loop invariant: the fields filled so far are the trimmed leading
      pieces of `Split(s)`, and the open field is the next piece's beginning. */
  ghost predicate TokenizeInvariant(s: string, i: nat, lastComma: int, pieces: seq<string>, fields: seq<string>)
  {
    && i <= |s| + 1 && -1 <= lastComma < i
    && |fields| == |pieces| <= MAX_FIELDS
    && (forall k :: 0 <= k < |fields| ==> fields[k] == Trim(pieces[k]))
    && (i <= |s| ==> DelimiterFree(s[lastComma + 1..i]) && Split(s) == pieces + Split(s[lastComma + 1..]))
    && (i == |s| + 1 ==> Split(s) == pieces)
  }

  /** From any state satisfying the invariant the loop ends with `Fields(s)`. */
  lemma {:induction false} TokenizeLoopSpec(s: string, i: nat, lastComma: int, pieces: seq<string>, fields: seq<string>)
    requires TokenizeInvariant(s, i, lastComma, pieces, fields)
    ensures TokenizeLoop(s, i, lastComma, fields) == Fields(s)
    decreases |s| + 1 - i
  {
    if i > |s| || |fields| >= MAX_FIELDS {
      TokenizeStop(s, i, lastComma, pieces, fields);
    } else if i == |s| || IsFieldDelimiter(s[i]) {
      TokenizeCloseStep(s, i, lastComma, pieces, fields);
      TokenizeLoopSpec(s, i + 1, i, pieces + [s[lastComma + 1..i]], fields + [Trim(s[lastComma + 1..i])]);
    } else {
      ExtendField(s, lastComma + 1, i);
      TokenizeLoopSpec(s, i + 1, lastComma, pieces, fields);
    }
  }

  /** Closing a field, at a delimiter or at the end, keeps the invariant. */
  lemma TokenizeCloseStep(s: string, i: nat, lastComma: int, pieces: seq<string>, fields: seq<string>)
    requires TokenizeInvariant(s, i, lastComma, pieces, fields)
    requires i <= |s| && |fields| < MAX_FIELDS && (i == |s| || IsFieldDelimiter(s[i]))
    ensures TokenizeInvariant(s, i + 1, i, pieces + [s[lastComma + 1..i]], fields + [Trim(s[lastComma + 1..i])])
  {
    var piece := s[lastComma + 1..i];
    if i < |s| {
      TokenizeClose(s, i, lastComma, pieces);
    } else {
      assert piece == s[lastComma + 1..];
      TokenizeEnd(s, lastComma, pieces);
    }
  }

  /** The loop stops with the fields it has filled, which are `Fields`. */
  lemma TokenizeStop(s: string, i: nat, lastComma: int, pieces: seq<string>, fields: seq<string>)
    requires TokenizeInvariant(s, i, lastComma, pieces, fields)
    requires i > |s| || |fields| >= MAX_FIELDS
    ensures fields == Fields(s)
  {
    if i <= |s| {
      assert Split(s)[..|pieces|] == pieces;
    }
    FieldsFromPieces(s, pieces, fields);
  }

  /** Closing the open field at a delimiter moves it to the finished pieces
      and opens an empty field after the delimiter. */
  lemma TokenizeClose(s: string, i: nat, lastComma: int, pieces: seq<string>)
    requires i < |s| && -1 <= lastComma < i && IsFieldDelimiter(s[i])
    requires DelimiterFree(s[lastComma + 1..i]) && Split(s) == pieces + Split(s[lastComma + 1..])
    ensures DelimiterFree(s[i + 1..i + 1])
    ensures Split(s) == (pieces + [s[lastComma + 1..i]]) + Split(s[i + 1..])
  {
    var piece := s[lastComma + 1..i];
    CloseField(s, lastComma + 1, i);
    var after := Split(s[i + 1..]);
    assert Split(s[lastComma + 1..]) == [piece] + after;
    assert pieces + ([piece] + after) == (pieces + [piece]) + after;
  }

  /** Closing the open field at the end of the text finishes the pieces. */
  lemma TokenizeEnd(s: string, lastComma: int, pieces: seq<string>)
    requires -1 <= lastComma < |s|
    requires DelimiterFree(s[lastComma + 1..]) && Split(s) == pieces + Split(s[lastComma + 1..])
    ensures Split(s) == pieces + [s[lastComma + 1..]]
  {
    assert s[lastComma + 1..] == s[lastComma + 1..|s|];
    SplitFree(s[lastComma + 1..]);
  }

  /** The firmware's tokenizer computes `Fields`. */
  lemma TokenizeIsFields(s: string)
    ensures Tokenize(s) == Fields(s)
  {
    assert s[0..] == s;
    TokenizeLoopSpec(s, 0, -1, [], []);
  }

  /** The fix token carries a colon. */
  lemma FixTokenHasColon(s: string)
    ensures Contains(s, FIX_TOKEN) ==> ':' in s
  {
    if Contains(s, FIX_TOKEN) {
      ColonBeforeNul(s);
    }
  }

  /** Once the fix token is found, `indexOf(":")`, which stops at the first
      NUL, finds the first colon of the whole response: the token's own
      colon lies before any NUL. */
  lemma ColonBeforeNul(s: string)
    requires Contains(s, FIX_TOKEN)
    ensures ':' in Visible(s) && Find(s, ':') == IndexOfChar(s, ':')
  {
    var v := Visible(s);
    var i :| 0 <= i <= |v| - |FIX_TOKEN| && OccursAt(v, FIX_TOKEN, i);
    assert v[i + 8] == v[i..i + |FIX_TOKEN|][8] == ':';
    var k := Find(s, ':');
    IndexOfCharAt(s, ':', k);
  }

  /** What `parseGNSSData` reports and the record it leaves behind. */
  datatype Parsed = Parsed(ok: bool, data: GpsData)

  /** `parseGNSSData(response, data)`. Without a fix token the record is
      untouched. Otherwise the six text fields are overwritten from fields
      2..7 of the payload (empty when missing), and the result, equal to the
      new validity flag, says whether the coordinates are usable. The
      acquisition time is never touched. */
  function ParseGNSSData(response: string, data: GpsData): (r: Parsed)
    ensures !Contains(response, FIX_TOKEN) ==> r == Parsed(false, data)
    ensures Contains(response, FIX_TOKEN) ==>
      r.ok == r.data.valid && (r.ok <==> CoordinatesValid(r.data.latitude, r.data.longitude))
    ensures r.data.timestamp == data.timestamp
  {
    // With the token present a colon always exists, so the second test,
    // which the firmware makes separately, never decides anything; and the
    // first colon lies before any NUL, so it is where `indexOf(":")` finds
    // it (ColonBeforeNul).
    FixTokenHasColon(response);
    if !Contains(response, FIX_TOKEN) || IndexOfChar(response, ':') + 1 < 1 then Parsed(false, data)
    else
        var start := IndexOfChar(response, ':') + 1;
        FillFromPayload(Trim(response[start..]), data)
  }

  /** The part of `parseGNSSData` after the guards: tokenize the trimmed
      payload, copy fields 2..7 into the record, and judge the coordinates. */
  function FillFromPayload(payload: string, data: GpsData): (r: Parsed)
    ensures r.ok == r.data.valid && (r.ok <==> CoordinatesValid(r.data.latitude, r.data.longitude))
    ensures r.data.timestamp == data.timestamp
  {
    var fields := Tokenize(payload);
    var latitude := FieldAt(fields, 3);
    var longitude := FieldAt(fields, 4);
    var ok := CoordinatesValid(latitude, longitude);
    Parsed(ok, data.(
      datetime := FieldAt(fields, 2),
      latitude := latitude,
      longitude := longitude,
      altitude := FieldAt(fields, 5),
      speed := FieldAt(fields, 6),
      course := FieldAt(fields, 7),
      valid := ok))
  }

  /** Fields 2..7 of the payload, as split by `Fields`, fill the record. */
  lemma FillTakesFields(payload: string, data: GpsData)
    ensures var fields := Fields(payload);
      FillFromPayload(payload, data).data
        == data.(datetime := FieldAt(fields, 2), latitude := FieldAt(fields, 3), longitude := FieldAt(fields, 4),
                 altitude := FieldAt(fields, 5), speed := FieldAt(fields, 6), course := FieldAt(fields, 7),
                 valid := FillFromPayload(payload, data).ok)
  {
    TokenizeIsFields(payload);
  }

  /** With the fix token present, the record's six text fields are fields
      2..7 of the trimmed payload after the first colon, each empty when the
      payload has fewer fields. */
  lemma ParseTakesFields(response: string, data: GpsData)
    requires Contains(response, FIX_TOKEN)
    ensures var payload := Trim(response[IndexOfChar(response, ':') + 1..]);
      var fields := Fields(payload);
      ParseGNSSData(response, data).data
        == data.(datetime := FieldAt(fields, 2), latitude := FieldAt(fields, 3), longitude := FieldAt(fields, 4),
                 altitude := FieldAt(fields, 5), speed := FieldAt(fields, 6), course := FieldAt(fields, 7),
                 valid := ParseGNSSData(response, data).ok)
  {
    FixTokenHasColon(response);
    var payload := Trim(response[IndexOfChar(response, ':') + 1..]);
    assert ParseGNSSData(response, data) == FillFromPayload(payload, data);
    FillTakesFields(payload, data);
  }

  // ---------------------------------------------------------------------------
  // Reading back a well-formed report
  // ---------------------------------------------------------------------------

  /** A field as the modem prints it: no delimiter inside, no surrounding blanks. */
  predicate CleanField(p: string)
  {
    DelimiterFree(p) && (|p| > 0 ==> !IsSpace(p[0]) && !IsSpace(p[|p| - 1]))
  }

  /** The report line for the given fields. */
  function Report(parts: seq<string>): string
  {
    REPORT_PREFIX + Join(parts, ",")
  }

  lemma {:induction false} JoinEndsClean(parts: seq<string>)
    requires |parts| >= 1
    requires forall k :: 0 <= k < |parts| ==> CleanField(parts[k])
    ensures var j := Join(parts, ",");
      |j| == 0 || !IsSpace(j[|j| - 1])
    ensures |parts| >= 2 ==> |Join(parts, ",")| > 0
    decreases |parts|
  {
    if |parts| >= 2 {
      JoinEndsClean(parts[1..]);
    }
  }

  /** Joined delimiter-free fields split back into the same fields. */
  lemma {:induction false} SplitJoin(parts: seq<string>)
    requires |parts| >= 1
    requires forall k :: 0 <= k < |parts| ==> DelimiterFree(parts[k])
    ensures Split(Join(parts, ",")) == parts
    decreases |parts|
  {
    if |parts| == 1 {
      SplitFree(parts[0]);
    } else {
      assert Join(parts, ",") == parts[0] + [','] + Join(parts[1..], ",");
      SplitAt(parts[0], ',', Join(parts[1..], ","));
      SplitJoin(parts[1..]);
      assert parts == [parts[0]] + parts[1..];
    }
  }

  /** The same, with a delimiter and further text after the fields. */
  lemma {:induction false} SplitJoinThen(parts: seq<string>, d: char, rest: string)
    requires |parts| >= 1
    requires forall k :: 0 <= k < |parts| ==> DelimiterFree(parts[k])
    requires IsFieldDelimiter(d)
    ensures Split(Join(parts, ",") + [d] + rest) == parts + Split(rest)
    decreases |parts|
  {
    if |parts| == 1 {
      SplitAt(parts[0], d, rest);
    } else {
      var tail := Join(parts[1..], ",") + [d] + rest;
      assert Join(parts, ",") == parts[0] + "," + Join(parts[1..], ",");
      assert Join(parts, ",") + [d] + rest == parts[0] + [','] + tail;
      SplitAt(parts[0], ',', tail);
      SplitJoinThen(parts[1..], d, rest);
      assert parts == [parts[0]] + parts[1..];
    }
  }

  /** Where the first colon of a response stands when the echoed command has none. */
  lemma ColonAfterEcho(echo: string, rest: string)
    requires ':' !in echo
    ensures IndexOfChar(echo + REPORT_PREFIX + rest, ':') == |echo| + 8
    ensures (echo + REPORT_PREFIX + rest)[|echo| + 9..] == " " + rest
  {
    FirstColonOfReport(echo, rest);
    TextAfterColon(echo, rest);
  }

  lemma FirstColonOfReport(echo: string, rest: string)
    requires ':' !in echo
    ensures IndexOfChar(echo + REPORT_PREFIX + rest, ':') == |echo| + 8
  {
    var s := echo + REPORT_PREFIX + rest;
    assert |REPORT_PREFIX| == 10 && REPORT_PREFIX[8] == ':';
    forall i | 0 <= i < |echo| + 8
      ensures s[i] != ':'
    {
      if i < |echo| {
        assert s[i] == echo[i];
      } else {
        assert s[i] == REPORT_PREFIX[i - |echo|];
      }
    }
    IndexOfCharAt(s, ':', |echo| + 8);
  }

  lemma TextAfterColon(echo: string, rest: string)
    ensures (echo + REPORT_PREFIX + rest)[|echo| + 9..] == " " + rest
  {
    var t := REPORT_PREFIX + rest;
    assert echo + REPORT_PREFIX + rest == echo + t;
    assert REPORT_PREFIX[9..] == " ";
    DropInFirst(REPORT_PREFIX, rest, 9);
    DropPastFirst(echo, t, 9);
  }

  /** A clean report payload loses exactly its surrounding blanks to `trim`. */
  lemma TrimPayload(joined: string, trailer: string)
    requires |joined| > 0 && joined[0] == '1' && !IsSpace(joined[|joined| - 1])
    ensures Trim(" " + joined + trailer) == joined + TrimRight(trailer)
  {
    var payload := " " + joined + trailer;
    assert payload[1..] == joined + trailer;
    assert TrimLeft(payload) == joined + trailer;
    TrimRightAfter(joined, trailer);
  }

  /** A report whose first two fields are `1` carries the fix token. */
  lemma ReportHasFixToken(echo: string, parts: seq<string>, trailer: string)
    requires '\0' !in echo
    requires 3 <= |parts| && parts[0] == "1" && parts[1] == "1"
    ensures Contains(echo + Report(parts) + trailer, FIX_TOKEN)
  {
    var after := "," + Join(parts[2..], ",") + trailer;
    assert parts[1..][1..] == parts[2..];
    assert Join(parts[1..], ",") == "1" + "," + Join(parts[2..], ",");
    assert Join(parts, ",") == "1" + "," + ("1" + "," + Join(parts[2..], ","));
    assert echo + Report(parts) + trailer == echo + FIX_TOKEN + after;
    ContainsInfix(echo, FIX_TOKEN, after);
  }

  /** Where the payload of a well-formed response starts. */
  lemma ReportPayload(echo: string, parts: seq<string>, trailer: string)
    requires ':' !in echo
    ensures var response := echo + Report(parts) + trailer;
      && IndexOfChar(response, ':') == |echo| + 8
      && response[|echo| + 9..] == " " + Join(parts, ",") + trailer
  {
    var joined := Join(parts, ",");
    var rest := joined + trailer;
    assert Report(parts) == REPORT_PREFIX + joined;
    assert echo + (REPORT_PREFIX + joined) + trailer == echo + REPORT_PREFIX + rest;
    ColonAfterEcho(echo, rest);
    assert " " + rest == " " + joined + trailer;
  }

  /** Splitting the trimmed payload gives the report's fields first. */
  lemma PayloadPieces(parts: seq<string>, trailer: string)
    requires 8 <= |parts| && parts[0] == "1"
    requires forall k :: 0 <= k < |parts| ==> CleanField(parts[k])
    requires trailer == "" || IsFieldDelimiter(trailer[0])
    ensures var pieces := Split(Trim(" " + Join(parts, ",") + trailer));
      |pieces| >= |parts| && pieces[..|parts|] == parts
  {
    var joined := Join(parts, ",");
    JoinEndsClean(parts);
    TrimPayload(joined, trailer);
    var tail := TrimRight(trailer);
    TrimRightSpec(trailer);
    if tail == "" {
      assert joined + tail == joined;
      SplitJoin(parts);
    } else {
      assert joined + tail == joined + [trailer[0]] + tail[1..];
      SplitJoinThen(parts, trailer[0], tail[1..]);
    }
  }

  /** The payload of a well-formed report tokenizes into its fields. */
  lemma PayloadFields(parts: seq<string>, trailer: string)
    requires 8 <= |parts| && parts[0] == "1"
    requires forall k :: 0 <= k < |parts| ==> CleanField(parts[k])
    requires trailer == "" || IsFieldDelimiter(trailer[0])
    ensures var fields := Tokenize(Trim(" " + Join(parts, ",") + trailer));
      forall k :: 2 <= k <= 7 ==> FieldAt(fields, k) == parts[k]
  {
    var payload := Trim(" " + Join(parts, ",") + trailer);
    PayloadPieces(parts, trailer);
    TokenizeIsFields(payload);
    LeadingFields(payload, parts);
  }

  /** Text whose first pieces are clean fields has those fields as its
      leading `Fields`. */
  lemma LeadingFields(s: string, parts: seq<string>)
    requires 8 <= |parts| <= |Split(s)| && Split(s)[..|parts|] == parts
    requires forall k :: 0 <= k < |parts| ==> CleanField(parts[k])
    ensures forall k :: 2 <= k <= 7 ==> FieldAt(Fields(s), k) == parts[k]
  {
    var pieces := Split(s);
    var fields := Fields(s);
    assert |fields| >= 8;
    forall k | 2 <= k <= 7
      ensures FieldAt(fields, k) == parts[k]
    {
      assert pieces[k] == pieces[..|parts|][k] == parts[k];
      TrimKeepsTrimmed(parts[k]);
      assert fields[k] == Trim(pieces[k]);
    }
  }

  /** A well-formed fix report, echoed command and trailing lines included,
      is read back field for field: positions 2..7 of the report become the
      record's text fields, and the record is valid exactly when the
      coordinates are. */
  lemma ParseReport(echo: string, parts: seq<string>, trailer: string, data: GpsData)
    requires ':' !in echo && '\0' !in echo
    requires 8 <= |parts| && parts[0] == "1" && parts[1] == "1"
    requires forall k :: 0 <= k < |parts| ==> CleanField(parts[k])
    requires trailer == "" || IsFieldDelimiter(trailer[0])
    ensures var r := ParseGNSSData(echo + Report(parts) + trailer, data);
      && r.data == data.(datetime := parts[2], latitude := parts[3], longitude := parts[4],
                         altitude := parts[5], speed := parts[6], course := parts[7], valid := r.ok)
      && (r.ok <==> CoordinatesValid(parts[3], parts[4]))
  {
    ReportHasFixToken(echo, parts, trailer);
    ReportPayload(echo, parts, trailer);
    PayloadFields(parts, trailer);
  }
}

=== FILE: gps_acquire.dfy ===
/**
 Getting a fix from the modem's GNSS receiver (gps_handler.cpp):
 `requestGNSSInfo`, one `AT+CGNSINF` query, and `acquireGPSFix`, which
 restarts the modem, powers the receiver and queries it until a report
 carries usable coordinates or the attempts run out. A fix is stamped with
 the time it was acquired and saved to flash.

 The reply is polled one byte at a time: the firmware drains whatever has
 arrived before each test, which the per-window model cannot time, so the
 response here ends with the byte that completes the first `OK`.
 */
module GpsAcquire {
  import opened Scalars
  import opened Text
  import opened Flash
  import opened AtLink
  import opened Sim7070g
  import opened GpsFix
  import opened GnssParse
  import opened GpsStore

  /** The line `requestGNSSInfo` writes with `println`. */
  const GNSS_QUERY: string := "AT+CGNSINF\r\n"
  /** `acquireGPSFix`'s default number of attempts. */
  const DEFAULT_FIX_ATTEMPTS: u32 := 60

  /** What `requestGNSSInfo` returns and leaves in its `response` argument. */
  datatype Reply = Reply(ok: bool, response: string)

  /** The first length `n >= k` at which `rx[..n]` contains `t`, or `|rx| + 1`. */
  function FirstHit(rx: string, t: string, k: nat): (n: nat)
    requires k <= |rx| + 1
    ensures k <= n <= |rx| + 1
    decreases |rx| + 1 - k
  {
    if k > |rx| then k
    else if Contains(rx[..k], t) then k
    else FirstHit(rx, t, k + 1)
  }

  /** `FirstHit` finds the shortest prefix from `k` on that contains `t`. */
  lemma {:induction false} FirstHitSpec(rx: string, t: string, k: nat)
    requires k <= |rx| + 1
    ensures var n := FirstHit(rx, t, k);
      && (n <= |rx| ==> Contains(rx[..n], t))
      && forall j :: k <= j < n && j <= |rx| ==> !Contains(rx[..j], t)
    decreases |rx| + 1 - k
  {
    if k <= |rx| && !Contains(rx[..k], t) {
      FirstHitSpec(rx, t, k + 1);
    }
  }

  /** The reply assembled from the bytes `rx` that arrive within the two
      seconds of polling: up to the first `OK`, or everything on a timeout. */
  function ReplyTo(rx: string): Reply
  {
    var n := FirstHit(rx, OK_TOKEN, 0);
    if n <= |rx| then Reply(true, rx[..n]) else Reply(false, rx)
  }

  /** The poll succeeds exactly when `OK` arrives, and then the response is
      the shortest prefix of the input that contains it. */
  lemma ReplyToSpec(rx: string)
    ensures var r := ReplyTo(rx);
      && (r.ok <==> Contains(rx, OK_TOKEN))
      && (r.ok ==>
            && |r.response| <= |rx| && r.response == rx[..|r.response|]
            && Contains(r.response, OK_TOKEN)
            && forall j :: 0 <= j < |r.response| ==> !Contains(r.response[..j], OK_TOKEN))
      && (!r.ok ==> r.response == rx)
  {
    var n := FirstHit(rx, OK_TOKEN, 0);
    FirstHitSpec(rx, OK_TOKEN, 0);
    assert rx[..|rx|] == rx;
    if n <= |rx| {
      ContainsGrows(rx, OK_TOKEN, n, |rx|);
      var response := rx[..n];
      assert forall j :: 0 <= j < n ==> response[..j] == rx[..j];
    }
  }

  /** `requestGNSSInfo`: flush, query, and poll the reply for `OK`. */
  function RequestGNSSInfo(l: Link): (r: Step<Reply>)
    ensures r.value == ReplyTo(WindowAt(l, 0).rx)
    ensures r.link.sent == l.sent + [Raw(GNSS_QUERY)]
    ensures forall j: nat :: WindowAt(r.link, j) == WindowAt(l, j + 1)
  {
    var cleared := ClearSerialBuffer(l);
    var rx := WindowAt(cleared, 0).rx;
    var sent := Write(cleared, GNSS_QUERY);
    var next := Advance(sent);
    forall j: nat
      ensures WindowAt(next, j) == WindowAt(l, j + 1)
    {
      assert WindowAt(next, j) == WindowAt(sent, j + 1);
      assert WindowAt(sent, j + 1) == WindowAt(cleared, j + 1);
    }
    Step(ReplyTo(rx), next)
  }

  /** A reply that completes and parses to usable coordinates. */
  predicate ReplyHasFix(rx: string)
  {
    var reply := ReplyTo(rx);
    reply.ok && ParseGNSSData(reply.response, NO_FIX).ok
  }

  /** Whether a report yields a fix does not depend on the record it is
      parsed into. */
  lemma ParseOkIgnoresRecord(response: string, data: GpsData)
    ensures ParseGNSSData(response, data).ok == ParseGNSSData(response, NO_FIX).ok
  {
  }

  /** The outcome of `acquireGPSFix`: the result, the record passed by
      reference, the flash store and the link. */
  datatype Acquired = Acquired(ok: bool, data: GpsData, store: Store, link: Link)

  /** One attempt's parse: a reply that timed out leaves the record alone. */
  function Attempt(reply: Reply, data: GpsData): (r: Parsed)
    ensures !reply.ok ==> r == Parsed(false, data)
  {
    if reply.ok then ParseGNSSData(reply.response, data) else Parsed(false, data)
  }

  /** The attempt loop of `acquireGPSFix`, `attempts` attempts already made.
      A failed parse still leaves its fields in the record, as the firmware's
      reference argument does. */
  function FixLoop(l: Link, st: Store, data: GpsData, attempts: nat, bound: nat, fixTime: u32): (r: Acquired)
    requires attempts <= bound
    ensures r.ok ==>
      && r.data.valid && CoordinatesValid(r.data.latitude, r.data.longitude)
      && r.data.timestamp == fixTime && r.store == SaveGPSData(st, r.data)
    ensures !r.ok ==> r.store == st && r.data.timestamp == data.timestamp
    decreases bound - attempts
  {
    if attempts >= bound then Acquired(false, data, st, l)
    else
      var request := RequestGNSSInfo(l);
      var parsed := Attempt(request.value, data);
      if parsed.ok then
        var fix := parsed.data.(timestamp := fixTime);
        Acquired(true, fix, SaveGPSData(st, fix), request.link)
      else FixLoop(request.link, st, parsed.data, attempts + 1, bound, fixTime)
  }

  /** One turn of the attempt loop: it stops on this reply exactly when the
      reply yields a fix. */
  lemma FixLoopStep(l: Link, st: Store, data: GpsData, attempts: nat, bound: nat, fixTime: u32)
    requires attempts < bound
    ensures var request := RequestGNSSInfo(l);
      var parsed := Attempt(request.value, data);
      var here := FixLoop(l, st, data, attempts, bound, fixTime);
      var rest := FixLoop(request.link, st, parsed.data, attempts + 1, bound, fixTime);
      && parsed.ok == ReplyHasFix(WindowAt(l, 0).rx)
      && here.ok == (parsed.ok || rest.ok)
      && here.link == (if parsed.ok then request.link else rest.link)
  {
    var request := RequestGNSSInfo(l);
    ParseOkIgnoresRecord(request.value.response, data);
  }

  /** The loop reports a fix exactly when one of the replies within its
      remaining attempts yields one. */
  lemma FixLoopOutcome(l: Link, st: Store, data: GpsData, attempts: nat, bound: nat, fixTime: u32)
    requires attempts <= bound
    ensures FixLoop(l, st, data, attempts, bound, fixTime).ok
      <==> exists j :: 0 <= j < bound - attempts && ReplyHasFix(WindowAt(l, j).rx)
  {
    FixLoopReportsReply(l, st, data, attempts, bound, fixTime);
    if exists j :: 0 <= j < bound - attempts && ReplyHasFix(WindowAt(l, j).rx) {
      var j :| 0 <= j < bound - attempts && ReplyHasFix(WindowAt(l, j).rx);
      FixLoopFindsFix(l, st, data, attempts, bound, fixTime, j);
    }
  }

  /** A reported fix came from one of the replies within the attempts. */
  lemma {:induction false} FixLoopReportsReply(l: Link, st: Store, data: GpsData, attempts: nat, bound: nat, fixTime: u32)
    requires attempts <= bound
    ensures FixLoop(l, st, data, attempts, bound, fixTime).ok
      ==> exists j :: 0 <= j < bound - attempts && ReplyHasFix(WindowAt(l, j).rx)
    decreases bound - attempts
  {
    if attempts < bound {
      var request := RequestGNSSInfo(l);
      var parsed := Attempt(request.value, data);
      FixLoopStep(l, st, data, attempts, bound, fixTime);
      if parsed.ok {
        FixAmongReplies(l, 1, bound - attempts);
      } else {
        FixLoopReportsReply(request.link, st, parsed.data, attempts + 1, bound, fixTime);
        if FixLoop(request.link, st, parsed.data, attempts + 1, bound, fixTime).ok {
          AmongLaterReplies(l, request.link, bound - attempts - 1, ReplyHasFix);
        }
      }
    }
  }

  /** A reply with property `p` among the first `n` after the first is one
      among the first `n + 1`. */
  lemma AmongLaterReplies(l: Link, next: Link, n: nat, p: string -> bool)
    requires forall j: nat :: WindowAt(next, j) == WindowAt(l, j + 1)
    requires exists j :: 0 <= j < n && p(WindowAt(next, j).rx)
    ensures exists j :: 0 <= j < n + 1 && p(WindowAt(l, j).rx)
  {
    var j :| 0 <= j < n && p(WindowAt(next, j).rx);
    assert WindowAt(next, j) == WindowAt(l, j + 1);
    assert 0 <= j + 1 < n + 1 && p(WindowAt(l, j + 1).rx);
  }

  /** Reply `n - 1`, within the first `bound`, witnesses a fix among them. */
  lemma FixAmongReplies(l: Link, n: int, bound: nat)
    requires 1 <= n <= bound && ReplyHasFix(WindowAt(l, n - 1).rx)
    ensures exists j :: 0 <= j < bound && ReplyHasFix(WindowAt(l, j).rx)
  {
  }

  /** A reply with a fix within the remaining attempts is found, by it or
      by an earlier reply. */
  lemma {:induction false} FixLoopFindsFix(l: Link, st: Store, data: GpsData, attempts: nat, bound: nat, fixTime: u32, j: nat)
    requires attempts + j < bound
    requires ReplyHasFix(WindowAt(l, j).rx)
    ensures FixLoop(l, st, data, attempts, bound, fixTime).ok
    decreases j
  {
    var request := RequestGNSSInfo(l);
    var parsed := Attempt(request.value, data);
    FixLoopStep(l, st, data, attempts, bound, fixTime);
    if !parsed.ok {
      assert j > 0;
      assert WindowAt(request.link, j - 1) == WindowAt(l, j);
      FixLoopFindsFix(request.link, st, parsed.data, attempts + 1, bound, fixTime, j - 1);
    }
  }

  /** `after` is `before` followed by nothing but GNSS queries. */
  ghost predicate OnlyQueries(before: seq<Tx>, after: seq<Tx>)
  {
    |before| <= |after| && after[..|before|] == before
    && forall i :: |before| <= i < |after| ==> after[i] == Raw(GNSS_QUERY)
  }

  /** The loop sends one query per attempt, nothing else, and without a
      fix it uses every attempt. */
  lemma {:induction false} FixLoopTraffic(l: Link, st: Store, data: GpsData, attempts: nat, bound: nat, fixTime: u32)
    requires attempts <= bound
    ensures var r := FixLoop(l, st, data, attempts, bound, fixTime);
      && OnlyQueries(l.sent, r.link.sent)
      && |r.link.sent| <= |l.sent| + bound - attempts
      && (!r.ok ==> |r.link.sent| == |l.sent| + bound - attempts)
    decreases bound - attempts
  {
    if attempts < bound {
      var request := RequestGNSSInfo(l);
      var parsed := Attempt(request.value, data);
      FixLoopStep(l, st, data, attempts, bound, fixTime);
      if !parsed.ok {
        var r := FixLoop(request.link, st, parsed.data, attempts + 1, bound, fixTime);
        assert FixLoop(l, st, data, attempts, bound, fixTime).link == r.link;
        FixLoopTraffic(request.link, st, parsed.data, attempts + 1, bound, fixTime);
        QueriesCompose(l.sent, request.link.sent, r.link.sent);
      } else {
        assert FixLoop(l, st, data, attempts, bound, fixTime).link == request.link;
        assert request.link.sent[..|l.sent|] == l.sent;
      }
    }
  }

  /** One query, then only queries. */
  lemma QueriesCompose(before: seq<Tx>, mid: seq<Tx>, after: seq<Tx>)
    requires mid == before + [Raw(GNSS_QUERY)]
    requires OnlyQueries(mid, after)
    ensures OnlyQueries(before, after)
  {
    assert after[..|before|] == after[..|mid|][..|before|];
  }

  /** A successful loop stops at the first reply that yields a fix: the
      query answered by it is the last one sent. */
  lemma {:induction false} FixLoopStopsAtFirstFix(l: Link, st: Store, data: GpsData, attempts: nat, bound: nat, fixTime: u32)
    requires attempts <= bound
    ensures var r := FixLoop(l, st, data, attempts, bound, fixTime);
      var n := |r.link.sent| - |l.sent|;
      r.ok ==>
        && 1 <= n && ReplyHasFix(WindowAt(l, n - 1).rx)
        && forall j :: 0 <= j < n - 1 ==> !ReplyHasFix(WindowAt(l, j).rx)
    decreases bound - attempts
  {
    if attempts < bound {
      var request := RequestGNSSInfo(l);
      var parsed := Attempt(request.value, data);
      FixLoopStep(l, st, data, attempts, bound, fixTime);
      if !parsed.ok {
        FixLoopStopsAtFirstFix(request.link, st, parsed.data, attempts + 1, bound, fixTime);
        var r := FixLoop(request.link, st, parsed.data, attempts + 1, bound, fixTime);
        assert FixLoop(l, st, data, attempts, bound, fixTime) == r;
        if r.ok {
          var m := |r.link.sent| - |request.link.sent|;
          assert |request.link.sent| == |l.sent| + 1;
          assert !ReplyHasFix(WindowAt(l, 0).rx);
          assert 1 <= m && ReplyHasFix(WindowAt(request.link, m - 1).rx);
          FirstFixShift(l, request.link, m);
          assert m + 1 == |r.link.sent| - |l.sent|;
        }
      } else {
        assert FixLoop(l, st, data, attempts, bound, fixTime).link == request.link;
        assert |request.link.sent| == |l.sent| + 1;
      }
    }
  }

  /** The first fix after one failed attempt is one window further on. */
  lemma FirstFixShift(l: Link, next: Link, m: nat)
    requires forall j: nat :: WindowAt(next, j) == WindowAt(l, j + 1)
    requires !ReplyHasFix(WindowAt(l, 0).rx)
    requires 1 <= m && ReplyHasFix(WindowAt(next, m - 1).rx)
    requires forall j :: 0 <= j < m - 1 ==> !ReplyHasFix(WindowAt(next, j).rx)
    ensures ReplyHasFix(WindowAt(l, m).rx)
    ensures forall j :: 0 <= j < m ==> !ReplyHasFix(WindowAt(l, j).rx)
  {
    assert WindowAt(l, m) == WindowAt(next, m - 1);
    forall j | 0 < j < m
      ensures !ReplyHasFix(WindowAt(l, j).rx)
    {
      assert WindowAt(l, j) == WindowAt(next, j - 1);
    }
  }

  /** `acquireGPSFix(data, maxAttempts)`: restart the modem (its outcome is
      only reported), switch the receiver on (giving up if it refuses), then
      try up to `maxAttempts` queries. `fixTime` is `millis()` when the fix
      is taken. */
  function AcquireGPSFix(l: Link, st: Store, data: GpsData, maxAttempts: u32, fixTime: u32): (r: Acquired)
    ensures var power := EnableGNSSPower(ResetModule(l).link);
      && (!power.value ==> !r.ok && r.store == st && r.data == data && r.link == power.link)
      && (r.ok <==> power.value && exists j :: 0 <= j < maxAttempts as int && ReplyHasFix(WindowAt(power.link, j).rx))
    ensures r.ok ==>
      && LoadGPSData(r.store) == (true, r.data) && r.data.timestamp == fixTime
      && CoordinatesValid(r.data.latitude, r.data.longitude)
    ensures !r.ok ==> r.store == st
  {
    var reset := ResetModule(l);
    var power := EnableGNSSPower(reset.link);
    if !power.value then Acquired(false, data, st, power.link)
    else
      var r := FixLoop(power.link, st, data, 0, maxAttempts as nat, fixTime);
      FixLoopOutcome(power.link, st, data, 0, maxAttempts as nat, fixTime);
      LoadAfterSave(st, r.data);
      r
  }

  /** With no attempts allowed no query is sent and no fix is reported. */
  lemma ZeroAttemptsNeverFix(l: Link, st: Store, data: GpsData, fixTime: u32)
    ensures !AcquireGPSFix(l, st, data, 0, fixTime).ok
  {
  }

  /** Every query the acquisition sends is within its budget of attempts, and
      a failed acquisition has spent all of them once the receiver is on. */
  lemma AcquireTraffic(l: Link, st: Store, data: GpsData, maxAttempts: u32, fixTime: u32)
    ensures var power := EnableGNSSPower(ResetModule(l).link);
      var r := AcquireGPSFix(l, st, data, maxAttempts, fixTime);
      var n := |r.link.sent| - |power.link.sent|;
      power.value ==>
        && OnlyQueries(power.link.sent, r.link.sent) && n <= maxAttempts as int
        && (!r.ok ==> n == maxAttempts as int)
  {
    var power := EnableGNSSPower(ResetModule(l).link);
    if power.value {
      FixLoopTraffic(power.link, st, data, 0, maxAttempts as nat, fixTime);
    }
  }
}

=== FILE: gps_fix.dfy ===
/**
 The position record the firmware passes around (`GPSData`, gps_handler.h),
 the rule that decides whether its coordinates describe a fix, and the
 `geo:` URI that leads every outgoing SMS.
 */
module GpsFix {
  import opened Scalars
  import opened Text

  /** `GPSData`: the text fields exactly as the modem reported them, the
      validity flag, and the `millis()` reading when the fix was taken. */
  datatype GpsData = GpsData(
    latitude: string,
    longitude: string,
    datetime: string,
    altitude: string,
    speed: string,
    course: string,
    valid: bool,
    timestamp: u32)

  /** A default-constructed `GPSData` as `loadGPSData` would produce from an
      empty store. */
  const NO_FIX: GpsData := GpsData("", "", "", "", "", "", false, 0)

  /** The coordinate the modem reports before it has a fix. */
  const ZERO_COORDINATE: string := "0.000000"

  /** Both coordinates present, and neither equal to the modem's zero
      placeholder or to the empty literal, compared as `String != "..."`
      compares them. */
  predicate CoordinatesValid(latitude: string, longitude: string)
  {
    && |latitude| > 0 && |longitude| > 0
    && !EqualsLiteral(latitude, ZERO_COORDINATE) && !EqualsLiteral(longitude, ZERO_COORDINATE)
    && !EqualsLiteral(latitude, "") && !EqualsLiteral(longitude, "")
  }

  /** For coordinates without NUL the test is plain: both non-empty and
      neither the zero placeholder. */
  lemma CoordinatesValidWithoutNul(latitude: string, longitude: string)
    requires '\0' !in latitude && '\0' !in longitude
    ensures CoordinatesValid(latitude, longitude)
      <==> |latitude| > 0 && |longitude| > 0 && latitude != ZERO_COORDINATE && longitude != ZERO_COORDINATE
  {
  }

  const GEO_SCHEME: string := "geo:"

  /** `formatGeoURI`: `geo:<lat>,<lon>` for a valid fix, the empty text otherwise. */
  function FormatGeoURI(d: GpsData): (r: string)
    ensures !d.valid <==> r == ""
    ensures d.valid ==> |r| == |GEO_SCHEME| + |d.latitude| + 1 + |d.longitude|
  {
    if !d.valid then "" else GEO_SCHEME + d.latitude + "," + d.longitude
  }

  /** How a maps application reads a `geo:` URI back: the scheme, then the
      latitude up to the first comma, then the longitude. */
  function ReadGeoURI(u: string): Option<(string, string)>
  {
    if |u| < |GEO_SCHEME| || u[..|GEO_SCHEME|] != GEO_SCHEME then None
    else
      var body := u[|GEO_SCHEME|..];
      var k := IndexOfChar(body, ',');
      if k < 0 then None else Some((body[..k], body[k + 1..]))
  }

  /** A valid fix whose latitude has no comma (every latitude the modem
      prints) is read back from its URI unchanged; an invalid one yields no
      URI at all. */
  lemma GeoURIRoundTrip(d: GpsData)
    requires ',' !in d.latitude
    ensures d.valid ==> ReadGeoURI(FormatGeoURI(d)) == Some((d.latitude, d.longitude))
    ensures !d.valid ==> ReadGeoURI(FormatGeoURI(d)) == None
  {
    if d.valid {
      var u := FormatGeoURI(d);
      var body := u[|GEO_SCHEME|..];
      assert u[..|GEO_SCHEME|] == GEO_SCHEME;
      assert body == d.latitude + "," + d.longitude;
      assert body[..|d.latitude|] == d.latitude;
      assert body[|d.latitude|] == ',';
      assert forall i :: 0 <= i < |d.latitude| ==> body[i] == d.latitude[i];
      IndexOfCharAt(body, ',', |d.latitude|);
    }
  }
}

=== FILE: gps_history_json.dfy ===
/**
 `getGPSHistoryJSON` (gps_handler.cpp): the most recent logged points as a
 JSON document for the phone,
 `{"history":[{"lat":…,"lon":…,"time":…,"src":…},…],"count":<n>}`.
 Floats are rendered by `String(f, 6)`, which is outside this model and
 passed in as `formatFloat`.
 */
module GpsHistoryJson {
  import opened Scalars
  import opened Text
  import opened GpsLog

  const DEFAULT_MAX_POINTS: int := 10
  const JSON_HEAD: string := "{\"history\":["

  /** One history object. */
  function RenderEntry(e: LogEntry, formatFloat: Float32 -> string): string
  {
    "{" + "\"lat\":" + formatFloat(e.lat) + "," + "\"lon\":" + formatFloat(e.lon) + ","
    + "\"time\":" + NatToString(e.timestamp) + "," + "\"src\":" + NatToString(e.source) + "}"
  }

  function RenderAll(entries: seq<LogEntry>, formatFloat: Float32 -> string): (r: seq<string>)
    ensures |r| == |entries|
  {
    seq(|entries|, k requires 0 <= k < |entries| => RenderEntry(entries[k], formatFloat))
  }

  /** The whole document for the rendered entries and the reported count. */
  function JsonDocument(objects: seq<string>, count: int): string
  {
    JSON_HEAD + Join(objects, ",") + "],\"count\":" + IntToString(count) + "}"
  }

  /** The first logical index listed: `max(0, count - min(maxPoints, count))`. */
  function WindowStart(count: int, maxPoints: int): (start: int)
    ensures 0 <= start
    ensures 0 <= maxPoints && 0 <= count ==> start == count - (if maxPoints < count then maxPoints else count)
  {
    var pointsToSend := if maxPoints < count then maxPoints else count;
    if count - pointsToSend > 0 then count - pointsToSend else 0
  }

  /** The entries `getGPSLogEntry` yields for logical indices `lo..hi-1`,
      skipping those it refuses (every index from `logCount` on). */
  function Listed(log: Log, lo: int, hi: int): (r: seq<LogEntry>)
    requires 0 <= lo
  {
    var end := if hi < log.cursor.count then hi else log.cursor.count;
    if end <= lo then []
    else seq(end - lo, k requires 0 <= k < end - lo => GetGPSLogEntry(log, lo + k).value)
  }

  /** The comma-separated objects for logical indices `lo..hi-1`. */
  function ListedObjects(log: Log, lo: int, hi: int, formatFloat: Float32 -> string): string
    requires 0 <= lo
  {
    Join(RenderAll(Listed(log, lo, hi), formatFloat), ",")
  }

  /** One step of the rendering loop: an existing entry is appended, after a
      comma unless it is the first index of the window; a refused index
      changes nothing. */
  lemma {:induction false} ListedStep(log: Log, lo: int, i: int, formatFloat: Float32 -> string)
    requires 0 <= lo <= i
    ensures var entry := GetGPSLogEntry(log, i);
      && (entry.None? ==> ListedObjects(log, lo, i + 1, formatFloat) == ListedObjects(log, lo, i, formatFloat))
      && (entry.Some? ==>
            ListedObjects(log, lo, i + 1, formatFloat)
            == (if i > lo then ListedObjects(log, lo, i, formatFloat) + "," else "") + RenderEntry(entry.value, formatFloat))
  {
    var entry := GetGPSLogEntry(log, i);
    var before := Listed(log, lo, i);
    if entry.Some? {
      assert Listed(log, lo, i + 1) == before + [entry.value];
      assert |before| == i - lo;
      var objects := RenderAll(before, formatFloat);
      assert RenderAll(before + [entry.value], formatFloat) == objects + [RenderEntry(entry.value, formatFloat)];
      if i > lo {
        JoinAppend(objects, RenderEntry(entry.value, formatFloat), ",");
      } else {
        assert objects + [RenderEntry(entry.value, formatFloat)] == [RenderEntry(entry.value, formatFloat)];
      }
    } else {
      assert Listed(log, lo, i + 1) == before;
    }
  }

  /** `getGPSHistoryJSON(maxPoints)`: the entries from `WindowStart` up to
      the count stored in flash, rendered in order and comma-separated, then
      that count. */
  method GetGPSHistoryJSON(log: Log, maxPoints: int, formatFloat: Float32 -> string) returns (json: string)
    ensures var count := GetGPSHistoryCount(log.store);
      json == JsonDocument(RenderAll(Listed(log, WindowStart(count, maxPoints), count), formatFloat), count)
  {
    var count := GetGPSHistoryCount(log.store);
    var pointsToSend := if maxPoints < count then maxPoints else count;
    var startIdx := if count - pointsToSend > 0 then count - pointsToSend else 0;
    var objects := RenderWindow(log, startIdx, count, formatFloat);
    json := JSON_HEAD + objects + "],\"count\":" + IntToString(count) + "}";
  }

  /** The loop of `getGPSHistoryJSON` over logical indices `lo..hi-1`. */
  method RenderWindow(log: Log, lo: int, hi: int, formatFloat: Float32 -> string) returns (objects: string)
    requires 0 <= lo
    ensures objects == ListedObjects(log, lo, hi, formatFloat)
  {
    objects := "";
    var i := lo;
    while i < hi
      invariant lo <= i && (i <= hi || i == lo)
      invariant objects == ListedObjects(log, lo, i, formatFloat)
      invariant i == lo ==> objects == ""
    {
      var entry := GetGPSLogEntry(log, i);
      ListedStep(log, lo, i, formatFloat);
      ghost var next := ListedObjects(log, lo, i + 1, formatFloat);
      if entry.Some? {
        var rendered := RenderEntry(entry.value, formatFloat);
        if i > lo {
          objects := objects + "," + rendered;
        } else {
          objects := rendered;
        }
      }
      assert objects == next;
      i := i + 1;
    }
    if i != hi {
      assert Listed(log, lo, i) == [] == Listed(log, lo, hi);
    }
  }

  /** Against the appended points: the document lists the most recent
      `min(maxPoints, count)` points, oldest first, and reports the count of
      points held (at most 50). */
  lemma {:induction false} HistoryListsRecentPoints(log: Log, hist: seq<LogEntry>, maxPoints: int)
    requires Represents(log, hist)
    ensures var count := GetGPSHistoryCount(log.store);
      var shown := if maxPoints < 0 then 0 else if maxPoints < count then maxPoints else count;
      && count == (if |hist| < MAX_GPS_HISTORY then |hist| else MAX_GPS_HISTORY)
      && Listed(log, WindowStart(count, maxPoints), count) == hist[|hist| - shown..]
  {
    RestartRecoversCursor(log, hist);
    forall i | 0 <= i < log.cursor.count
      ensures GetGPSLogEntry(log, i) == Some(hist[|hist| - log.cursor.count + i])
    {
      EntryIsRecentPoint(log, hist, i);
    }
    WindowIsSuffix(log, hist, maxPoints);
  }

  /** The window of the last `min(maxPoints, count)` logical entries, when
      logical entry `i` is point `|hist| - count + i`. */
  lemma WindowIsSuffix(log: Log, hist: seq<LogEntry>, maxPoints: int)
    requires 0 <= log.cursor.count <= |hist|
    requires forall i :: 0 <= i < log.cursor.count ==> GetGPSLogEntry(log, i) == Some(hist[|hist| - log.cursor.count + i])
    ensures var count := log.cursor.count;
      var shown := if maxPoints < 0 then 0 else if maxPoints < count then maxPoints else count;
      Listed(log, WindowStart(count, maxPoints), count) == hist[|hist| - shown..]
  {
    var count := log.cursor.count;
    var shown := if maxPoints < 0 then 0 else if maxPoints < count then maxPoints else count;
    var start := WindowStart(count, maxPoints);
    if maxPoints < 0 {
      assert Listed(log, start, count) == [];
    } else {
      var want := hist[|hist| - shown..];
      forall k | 0 <= k < shown
        ensures GetGPSLogEntry(log, start + k) == Some(want[k])
      {
        assert GetGPSLogEntry(log, start + k) == Some(hist[|hist| - count + (start + k)]);
      }
      ListedMatches(log, start, count, want);
    }
  }

  /** The listed entries are the ones the getter yields, index by index. */
  lemma ListedMatches(log: Log, lo: int, hi: int, want: seq<LogEntry>)
    requires 0 <= lo <= hi <= log.cursor.count && |want| == hi - lo
    requires forall k :: 0 <= k < |want| ==> GetGPSLogEntry(log, lo + k) == Some(want[k])
    ensures Listed(log, lo, hi) == want
  {
  }
}

=== FILE: gps_log.dfy ===
/**
 The GPS history log (gps_handler.cpp): a 50-slot circular buffer in the
 `gps-log` flash namespace. Slot `k` is stored under the keys `lat_k`,
 `lon_k`, `time_k` and `src_k`; the write position and the number of valid
 slots live in RAM (`logIndex`, `logCount`) and are mirrored in flash under
 `logIndex` and `logCount`.
 */
module GpsLog {
  import opened Scalars
  import opened Text
  import opened Flash
  import opened GpsFix

  const MAX_GPS_HISTORY: nat := 50
  const GPS_LOG_NAMESPACE: string := "gps-log"
  const INDEX_KEY: string := "logIndex"
  const COUNT_KEY: string := "logCount"

  const LAT_PREFIX: string := "lat_"
  const LON_PREFIX: string := "lon_"
  const TIME_PREFIX: string := "time_"
  const SRC_PREFIX: string := "src_"

  /** `GPSLogEntry`: coordinates as stored floats, the `millis()` reading at
      logging time, and the source (0 = phone, 1 = SIM7070G). */
  datatype LogEntry = LogEntry(lat: Float32, lon: Float32, timestamp: u32, source: u8)

  /** The RAM copies `logIndex` (next slot to write) and `logCount`. They are
      plain `int`s, so nothing but the firmware's own discipline keeps them
      in range. */
  datatype LogCursor = LogCursor(index: int, count: int)

  /** The RAM cursor together with the flash store. */
  datatype Log = Log(cursor: LogCursor, store: Store)

  /** The flash key of one field of one slot, `prefix + String(slot)`. */
  function SlotKey(prefix: string, slot: int): string
  {
    prefix + IntToString(slot)
  }

  predicate IsSlotPrefix(p: string)
  {
    p == LAT_PREFIX || p == LON_PREFIX || p == TIME_PREFIX || p == SRC_PREFIX
  }

  /** Different fields or different slots never share a key. */
  lemma SlotKeysDistinct(p: string, q: string, a: int, b: int)
    requires IsSlotPrefix(p) && IsSlotPrefix(q)
    requires p != q || a != b
    ensures SlotKey(p, a) != SlotKey(q, b)
  {
    if p == q && SlotKey(p, a) == SlotKey(q, b) {
      assert IntToString(a) == SlotKey(p, a)[|p|..];
      assert IntToString(b) == SlotKey(q, b)[|q|..];
      IntToStringInjective(a, b);
    } else if p != q {
      var x := SlotKey(p, a);
      var y := SlotKey(q, b);
      assert x[0] == p[0] && x[1] == p[1] && y[0] == q[0] && y[1] == q[1];
      assert p[0] != q[0] || p[1] != q[1];
    }
  }

  /** No slot key is one of the two cursor keys. */
  lemma SlotKeysAreNotCursorKeys(p: string, a: int)
    requires IsSlotPrefix(p)
    ensures SlotKey(p, a) != INDEX_KEY && SlotKey(p, a) != COUNT_KEY
  {
    var x := SlotKey(p, a);
    assert x[0] == p[0] && x[1] == p[1] && x[2] == p[2];
    assert INDEX_KEY[..3] == COUNT_KEY[..3] == "log";
  }

  /** The four fields of one slot as `getGPSLogEntry` reads them, each
      defaulting to zero. */
  function ReadSlot(st: Store, slot: int): LogEntry
  {
    LogEntry(
      GetFloat(st, GPS_LOG_NAMESPACE, SlotKey(LAT_PREFIX, slot), FLOAT_ZERO),
      GetFloat(st, GPS_LOG_NAMESPACE, SlotKey(LON_PREFIX, slot), FLOAT_ZERO),
      GetULong(st, GPS_LOG_NAMESPACE, SlotKey(TIME_PREFIX, slot), 0),
      GetUChar(st, GPS_LOG_NAMESPACE, SlotKey(SRC_PREFIX, slot), 0))
  }

  /** The cursor discipline `logGPSPoint` keeps: both values in range, and
      until the buffer is full the next slot is the first unused one. */
  predicate CursorOk(c: LogCursor)
  {
    0 <= c.index < MAX_GPS_HISTORY && 0 <= c.count <= MAX_GPS_HISTORY
    && (c.count < MAX_GPS_HISTORY ==> c.index == c.count)
  }

  /** `initGPSHistory`: reload the cursor from flash, 0 for what is missing.
      An empty (fresh or cleared) log restarts at slot 0 with nothing in it,
      and the count agrees with `getGPSHistoryCount`. */
  function InitGPSHistory(st: Store): (r: LogCursor)
    ensures Entries(st, GPS_LOG_NAMESPACE) == map[] ==> r == LogCursor(0, 0)
    ensures r.count == GetGPSHistoryCount(st)
  {
    LogCursor(GetInt(st, GPS_LOG_NAMESPACE, INDEX_KEY, 0), GetInt(st, GPS_LOG_NAMESPACE, COUNT_KEY, 0))
  }

  /** The cursor update of `logGPSPoint`: C's `(logIndex + 1) % 50`, and a
      count that saturates at 50. */
  function AdvanceCursor(c: LogCursor): (r: LogCursor)
    ensures CursorOk(c) ==> CursorOk(r)
    ensures c.count < MAX_GPS_HISTORY ==> r.count == c.count + 1
    ensures c.count >= MAX_GPS_HISTORY ==> r.count == c.count
    ensures 0 <= c.index ==> r.index == (c.index + 1) % MAX_GPS_HISTORY
  {
    LogCursor(CRem(c.index + 1, MAX_GPS_HISTORY), if c.count < MAX_GPS_HISTORY then c.count + 1 else c.count)
  }

  /** The six keys one append writes. */
  function AppendEntries(c: LogCursor, e: LogEntry): Namespace
  {
    var next := AdvanceCursor(c);
    map[
      SlotKey(LAT_PREFIX, c.index) := FloatValue(e.lat),
      SlotKey(LON_PREFIX, c.index) := FloatValue(e.lon),
      SlotKey(TIME_PREFIX, c.index) := ULongValue(e.timestamp),
      SlotKey(SRC_PREFIX, c.index) := UCharValue(e.source),
      INDEX_KEY := IntValue(next.index),
      COUNT_KEY := IntValue(next.count)]
  }

  /** The store after an append's six puts. */
  function AppendToStore(st: Store, c: LogCursor, e: LogEntry): Store
  {
    st[GPS_LOG_NAMESPACE := Entries(st, GPS_LOG_NAMESPACE) + AppendEntries(c, e)]
  }

  /** The six keys one append writes are distinct, so each holds its own value. */
  lemma AppendEntriesValues(c: LogCursor, e: LogEntry)
    ensures var m := AppendEntries(c, e);
      var next := AdvanceCursor(c);
      && SlotKey(LAT_PREFIX, c.index) in m && m[SlotKey(LAT_PREFIX, c.index)] == FloatValue(e.lat)
      && SlotKey(LON_PREFIX, c.index) in m && m[SlotKey(LON_PREFIX, c.index)] == FloatValue(e.lon)
      && SlotKey(TIME_PREFIX, c.index) in m && m[SlotKey(TIME_PREFIX, c.index)] == ULongValue(e.timestamp)
      && SlotKey(SRC_PREFIX, c.index) in m && m[SlotKey(SRC_PREFIX, c.index)] == UCharValue(e.source)
      && INDEX_KEY in m && m[INDEX_KEY] == IntValue(next.index)
      && COUNT_KEY in m && m[COUNT_KEY] == IntValue(next.count)
  {
    SlotKeysAreNotCursorKeys(LAT_PREFIX, c.index);
    SlotKeysAreNotCursorKeys(LON_PREFIX, c.index);
    SlotKeysAreNotCursorKeys(TIME_PREFIX, c.index);
    SlotKeysAreNotCursorKeys(SRC_PREFIX, c.index);
    SlotKeysDistinct(LAT_PREFIX, LON_PREFIX, c.index, c.index);
    SlotKeysDistinct(LAT_PREFIX, TIME_PREFIX, c.index, c.index);
    SlotKeysDistinct(LAT_PREFIX, SRC_PREFIX, c.index, c.index);
    SlotKeysDistinct(LON_PREFIX, TIME_PREFIX, c.index, c.index);
    SlotKeysDistinct(LON_PREFIX, SRC_PREFIX, c.index, c.index);
    SlotKeysDistinct(TIME_PREFIX, SRC_PREFIX, c.index, c.index);
  }

  /** What an append writes is read back: the entry from its slot and the
      advanced cursor from the two cursor keys. */
  lemma AppendReadsBack(st: Store, c: LogCursor, e: LogEntry)
    ensures ReadSlot(AppendToStore(st, c, e), c.index) == e
    ensures InitGPSHistory(AppendToStore(st, c, e)) == AdvanceCursor(c)
  {
    AppendEntriesValues(c, e);
    var m := AppendEntries(c, e);
    assert Entries(AppendToStore(st, c, e), GPS_LOG_NAMESPACE) == Entries(st, GPS_LOG_NAMESPACE) + m;
  }

  /** An append writes none of the keys of another slot. */
  lemma UntouchedSlot(c: LogCursor, e: LogEntry, slot: int)
    requires slot != c.index
    ensures forall p :: IsSlotPrefix(p) ==> SlotKey(p, slot) !in AppendEntries(c, e)
  {
    forall p | IsSlotPrefix(p)
      ensures SlotKey(p, slot) !in AppendEntries(c, e)
    {
      SlotKeysAreNotCursorKeys(p, slot);
      SlotKeysDistinct(p, LAT_PREFIX, slot, c.index);
      SlotKeysDistinct(p, LON_PREFIX, slot, c.index);
      SlotKeysDistinct(p, TIME_PREFIX, slot, c.index);
      SlotKeysDistinct(p, SRC_PREFIX, slot, c.index);
    }
  }

  /** An append leaves every other slot as it was. */
  lemma AppendKeepsOtherSlots(st: Store, c: LogCursor, e: LogEntry)
    ensures forall slot :: slot != c.index ==> ReadSlot(AppendToStore(st, c, e), slot) == ReadSlot(st, slot)
  {
    forall slot | slot != c.index
      ensures ReadSlot(AppendToStore(st, c, e), slot) == ReadSlot(st, slot)
    {
      UntouchedSlot(c, e, slot);
    }
  }

  /** `logGPSPoint(lat, lon, source)` at time `now`: store the point in slot
      `logIndex`, advance the cursor and mirror it in flash. The slot is read
      back as the new point, every other slot and every other namespace is
      left alone. */
  function LogGPSPoint(log: Log, lat: Float32, lon: Float32, source: u8, now: u32): (r: Log)
    ensures r.cursor == AdvanceCursor(log.cursor)
    ensures ReadSlot(r.store, log.cursor.index) == LogEntry(lat, lon, now, source)
    ensures InitGPSHistory(r.store) == r.cursor
    ensures forall ns :: ns != GPS_LOG_NAMESPACE ==> Entries(r.store, ns) == Entries(log.store, ns)
    ensures forall slot :: slot != log.cursor.index ==> ReadSlot(r.store, slot) == ReadSlot(log.store, slot)
  {
    var e := LogEntry(lat, lon, now, source);
    AppendReadsBack(log.store, log.cursor, e);
    AppendKeepsOtherSlots(log.store, log.cursor, e);
    Log(AdvanceCursor(log.cursor), AppendToStore(log.store, log.cursor, e))
  }

  /** `logGPSPoint(data, source)`: an invalid fix is refused and nothing
      changes; a valid one is logged with its text coordinates converted by
      `toFloat` (`String::toFloat`, outside this model). */
  function LogGPSData(log: Log, d: GpsData, source: u8, now: u32, toFloat: string -> Float32): (r: (bool, Log))
    ensures !d.valid ==> r == (false, log)
    ensures d.valid ==> r.0 && ReadSlot(r.1.store, log.cursor.index) == LogEntry(toFloat(d.latitude), toFloat(d.longitude), now, source)
    ensures d.valid ==> r.1.cursor == AdvanceCursor(log.cursor)
  {
    if !d.valid then (false, log)
    else (true, LogGPSPoint(log, toFloat(d.latitude), toFloat(d.longitude), source, now))
  }

  /** `getGPSHistoryCount`: the count as mirrored in flash, 0 for an empty log. */
  function GetGPSHistoryCount(st: Store): (r: int)
    ensures Entries(st, GPS_LOG_NAMESPACE) == map[] ==> r == 0
  {
    GetInt(st, GPS_LOG_NAMESPACE, COUNT_KEY, 0)
  }

  /** The slot holding logical entry `i` (0 = oldest): `i` itself until the
      buffer is full, then counted from the oldest slot, which is the one
      about to be overwritten. */
  function PhysicalSlot(c: LogCursor, i: int): (slot: int)
    ensures CursorOk(c) && 0 <= i < c.count ==> 0 <= slot < MAX_GPS_HISTORY
    ensures CursorOk(c) && 0 < c.count && i == c.count - 1 ==> slot == (c.index + MAX_GPS_HISTORY - 1) % MAX_GPS_HISTORY
  {
    if c.count < MAX_GPS_HISTORY then i
    else CRem(c.index - c.count + i + MAX_GPS_HISTORY, MAX_GPS_HISTORY)
  }

  /** `getGPSLogEntry(i, entry)`: no entry outside `0 <= i < logCount`;
      otherwise the four fields of the mapped slot. */
  function GetGPSLogEntry(log: Log, i: int): (r: Option<LogEntry>)
    ensures r.None? <==> i < 0 || i >= log.cursor.count
    ensures 0 <= i < log.cursor.count < MAX_GPS_HISTORY ==> r == Some(ReadSlot(log.store, i))
  {
    if i < 0 || i >= log.cursor.count then None
    else Some(ReadSlot(log.store, PhysicalSlot(log.cursor, i)))
  }

  /** `clearGPSHistory`: the namespace emptied and the cursor reset; no
      entry can be read any more. */
  function ClearGPSHistory(log: Log): (r: Log)
    ensures r.cursor == LogCursor(0, 0) && CursorOk(r.cursor)
    ensures forall i :: GetGPSLogEntry(r, i) == None
    ensures Entries(r.store, GPS_LOG_NAMESPACE) == map[]
    ensures forall ns :: ns != GPS_LOG_NAMESPACE ==> Entries(r.store, ns) == Entries(log.store, ns)
  {
    Log(LogCursor(0, 0), Clear(log.store, GPS_LOG_NAMESPACE))
  }

  // ---------------------------------------------------------------------------
  // The log against the sequence of every point ever appended
  // ---------------------------------------------------------------------------

  /** The log represents `hist`, all points appended since it was last
      cleared, oldest first: the cursor follows the number of appends, the
      flash mirror agrees with RAM, and the last `count` points sit in the
      slots their append position maps to. */
  ghost predicate Represents(log: Log, hist: seq<LogEntry>)
  {
    var c := log.cursor;
    && CursorOk(c)
    && c.count == (if |hist| < MAX_GPS_HISTORY then |hist| else MAX_GPS_HISTORY)
    && c.index == |hist| % MAX_GPS_HISTORY
    && InitGPSHistory(log.store) == c
    && forall p :: |hist| - c.count <= p < |hist| ==> ReadSlot(log.store, p % MAX_GPS_HISTORY) == hist[p]
  }

  /** A cleared log represents no points. */
  lemma ClearedRepresentsNothing(log: Log)
    ensures Represents(ClearGPSHistory(log), [])
  {
  }

  /** Two append positions less than 50 apart use different slots. */
  lemma DistinctSlots(p: int, q: int)
    requires 0 <= q < p < q + MAX_GPS_HISTORY
    ensures p % MAX_GPS_HISTORY != q % MAX_GPS_HISTORY
  {
  }

  /** Slot numbers repeat every `MAX_GPS_HISTORY` appends. */
  lemma SlotPeriodic(m: nat)
    ensures (m + MAX_GPS_HISTORY) % MAX_GPS_HISTORY == m % MAX_GPS_HISTORY
  {
    var q := m / MAX_GPS_HISTORY;
    var r := m % MAX_GPS_HISTORY;
    assert m + MAX_GPS_HISTORY == (q + 1) * MAX_GPS_HISTORY + r;
  }

  /** The next append position's slot follows the current one's. */
  lemma NextSlot(n: nat)
    ensures (n % MAX_GPS_HISTORY + 1) % MAX_GPS_HISTORY == (n + 1) % MAX_GPS_HISTORY
  {
    var q := n / MAX_GPS_HISTORY;
    var r := n % MAX_GPS_HISTORY;
    assert n + 1 == q * MAX_GPS_HISTORY + (r + 1);
    if r + 1 == MAX_GPS_HISTORY {
      assert n + 1 == (q + 1) * MAX_GPS_HISTORY;
    }
  }

  /** Appending a point keeps the log representing the points, with the
      new one last: the only slot overwritten is the one of the point that
      falls out of the 50-point window. */
  lemma {:induction false} AppendRepresents(log: Log, hist: seq<LogEntry>, lat: Float32, lon: Float32, source: u8, now: u32)
    requires Represents(log, hist)
    ensures Represents(LogGPSPoint(log, lat, lon, source, now), hist + [LogEntry(lat, lon, now, source)])
  {
    var e := LogEntry(lat, lon, now, source);
    var r := LogGPSPoint(log, lat, lon, source, now);
    var h := hist + [e];
    var c := r.cursor;
    NextSlot(|hist|);
    assert c.index == |h| % MAX_GPS_HISTORY;
    assert InitGPSHistory(r.store) == c;
    forall p | |h| - c.count <= p < |h|
      ensures ReadSlot(r.store, p % MAX_GPS_HISTORY) == h[p]
    {
      if p < |hist| {
        DistinctSlots(|hist|, p);
        assert p % MAX_GPS_HISTORY != log.cursor.index;
      }
    }
  }

  /** Restarting the firmware recovers the RAM cursor from flash. */
  lemma RestartRecoversCursor(log: Log, hist: seq<LogEntry>)
    requires Represents(log, hist)
    ensures InitGPSHistory(log.store) == log.cursor
    ensures GetGPSHistoryCount(log.store) == log.cursor.count
  {
  }

  /** Logical entry `i` is the `i`-th oldest of the last `count` points;
      in particular the last logical entry is the most recent append. */
  lemma {:induction false} EntryIsRecentPoint(log: Log, hist: seq<LogEntry>, i: int)
    requires Represents(log, hist)
    requires 0 <= i < log.cursor.count
    ensures GetGPSLogEntry(log, i) == Some(hist[|hist| - log.cursor.count + i])
    ensures GetGPSLogEntry(log, log.cursor.count - 1) == Some(hist[|hist| - 1])
  {
    SlotOfEntry(log.cursor, |hist|, i);
    SlotOfEntry(log.cursor, |hist|, log.cursor.count - 1);
  }

  /** The slot arithmetic behind `EntryIsRecentPoint`. */
  lemma SlotOfEntry(c: LogCursor, n: nat, i: int)
    requires CursorOk(c)
    requires c.count == (if n < MAX_GPS_HISTORY then n else MAX_GPS_HISTORY)
    requires c.index == n % MAX_GPS_HISTORY
    requires 0 <= i < c.count
    ensures PhysicalSlot(c, i) == (n - c.count + i) % MAX_GPS_HISTORY
  {
    if c.count == MAX_GPS_HISTORY {
      assert c.index - c.count + i + MAX_GPS_HISTORY == n % MAX_GPS_HISTORY + i;
      assert (n % MAX_GPS_HISTORY + i) % MAX_GPS_HISTORY == (n + i) % MAX_GPS_HISTORY;
      SlotPeriodic(n - MAX_GPS_HISTORY + i);
    }
  }

  /** The cursor after `n` appends to a cleared log. */
  function CursorAfter(n: nat): LogCursor
  {
    if n == 0 then LogCursor(0, 0) else AdvanceCursor(CursorAfter(n - 1))
  }

  lemma {:induction false} CursorAfterAppends(n: nat)
    ensures CursorAfter(n) == LogCursor(n % MAX_GPS_HISTORY, if n < MAX_GPS_HISTORY then n else MAX_GPS_HISTORY)
  {
    if n > 0 {
      CursorAfterAppends(n - 1);
      var before := CursorAfter(n - 1);
      var slot := (n - 1) % MAX_GPS_HISTORY;
      assert before == LogCursor(slot, if n - 1 < MAX_GPS_HISTORY then n - 1 else MAX_GPS_HISTORY);
      SlotSuccessor(n - 1);
      AdvanceFrom(slot, before.count);
    }
  }

  /** The slot after append position `n`, without division. */
  lemma SlotSuccessor(n: nat)
    ensures 0 <= n % MAX_GPS_HISTORY < MAX_GPS_HISTORY
    ensures (n + 1) % MAX_GPS_HISTORY
      == if n % MAX_GPS_HISTORY == MAX_GPS_HISTORY - 1 then 0 else n % MAX_GPS_HISTORY + 1
  {
    NextSlot(n);
  }

  /** `AdvanceCursor` from a slot number, without division. */
  lemma AdvanceFrom(k: int, count: int)
    requires 0 <= k < MAX_GPS_HISTORY
    ensures AdvanceCursor(LogCursor(k, count))
      == LogCursor(if k == MAX_GPS_HISTORY - 1 then 0 else k + 1, if count < MAX_GPS_HISTORY then count + 1 else count)
  {
    WrapSmall(k);
  }

  /** `(k + 1) % 50` for a slot number `k`. */
  lemma WrapSmall(k: int)
    requires 0 <= k < MAX_GPS_HISTORY
    ensures (k + 1) % MAX_GPS_HISTORY == if k == MAX_GPS_HISTORY - 1 then 0 else k + 1
  {
  }

  /** Once more than 50 points were appended, the oldest ones are gone:
      logical entry 0 lives in slot `n mod 50` (slot 1 after 51 appends)
      and the newest, logical 49, in the slot written last. */
  lemma OldestSlotWhenFull(n: nat)
    requires n >= MAX_GPS_HISTORY
    ensures CursorAfter(n).count == MAX_GPS_HISTORY
    ensures PhysicalSlot(CursorAfter(n), 0) == n % MAX_GPS_HISTORY
    ensures PhysicalSlot(CursorAfter(n), MAX_GPS_HISTORY - 1) == (n - 1) % MAX_GPS_HISTORY
  {
    CursorAfterAppends(n);
    OldestSlot(n);
    NewestSlot(n);
  }

  lemma OldestSlot(n: nat)
    requires n >= MAX_GPS_HISTORY
    requires CursorAfter(n) == LogCursor(n % MAX_GPS_HISTORY, MAX_GPS_HISTORY)
    ensures PhysicalSlot(CursorAfter(n), 0) == n % MAX_GPS_HISTORY
  {
    SlotOfEntry(CursorAfter(n), n, 0);
    SlotPeriodic(n - MAX_GPS_HISTORY);
  }

  lemma NewestSlot(n: nat)
    requires n >= MAX_GPS_HISTORY
    requires CursorAfter(n) == LogCursor(n % MAX_GPS_HISTORY, MAX_GPS_HISTORY)
    ensures PhysicalSlot(CursorAfter(n), MAX_GPS_HISTORY - 1) == (n - 1) % MAX_GPS_HISTORY
  {
    SlotOfEntry(CursorAfter(n), n, MAX_GPS_HISTORY - 1);
  }
}

=== FILE: gps_store.dfy ===
/**
 The "last fix" record in flash (`saveGPSData`, `loadGPSData`,
 `hasValidStoredGPS`, gps_handler.cpp): one key per field of `GPSData` in
 the `gps-data` namespace.
 */
module GpsStore {
  import opened Flash
  import opened GpsFix

  const GPS_DATA_NAMESPACE: string := "gps-data"

  /** The eight keys `saveGPSData` writes, one per field. */
  function RecordEntries(d: GpsData): Namespace
  {
    map[
      "lat" := StringValue(d.latitude),
      "lon" := StringValue(d.longitude),
      "datetime" := StringValue(d.datetime),
      "alt" := StringValue(d.altitude),
      "speed" := StringValue(d.speed),
      "course" := StringValue(d.course),
      "valid" := BoolValue(d.valid),
      "timestamp" := ULongValue(d.timestamp)]
  }

  /** `saveGPSData`: the eight puts into the `gps-data` namespace, which
      leave every other key and namespace as it was. */
  function SaveGPSData(st: Store, d: GpsData): (r: Store)
    ensures forall ns :: ns != GPS_DATA_NAMESPACE ==> Entries(r, ns) == Entries(st, ns)
    ensures forall key :: key !in RecordEntries(d) && key in Entries(st, GPS_DATA_NAMESPACE) ==>
      key in Entries(r, GPS_DATA_NAMESPACE) && Entries(r, GPS_DATA_NAMESPACE)[key] == Entries(st, GPS_DATA_NAMESPACE)[key]
  {
    st[GPS_DATA_NAMESPACE := Entries(st, GPS_DATA_NAMESPACE) + RecordEntries(d)]
  }

  /** `loadGPSData`: the stored record (empty text, `false` and 0 for what
      is missing) and its validity flag as the result. */
  function LoadGPSData(st: Store): (r: (bool, GpsData))
    ensures r.0 == r.1.valid
    ensures GPS_DATA_NAMESPACE !in st ==> r == (false, NO_FIX)
  {
    var d := GpsData(
      GetString(st, GPS_DATA_NAMESPACE, "lat", ""),
      GetString(st, GPS_DATA_NAMESPACE, "lon", ""),
      GetString(st, GPS_DATA_NAMESPACE, "datetime", ""),
      GetString(st, GPS_DATA_NAMESPACE, "alt", ""),
      GetString(st, GPS_DATA_NAMESPACE, "speed", ""),
      GetString(st, GPS_DATA_NAMESPACE, "course", ""),
      GetBool(st, GPS_DATA_NAMESPACE, "valid", false),
      GetULong(st, GPS_DATA_NAMESPACE, "timestamp", 0));
    (d.valid, d)
  }

  /** `hasValidStoredGPS`: the validity flag of the stored record, false
      when nothing was ever saved. */
  function HasValidStoredGPS(st: Store): (r: bool)
    ensures r == LoadGPSData(st).1.valid
    ensures GPS_DATA_NAMESPACE !in st ==> !r
  {
    LoadGPSData(st).0
  }

  /** Loading what was saved gives back the whole record, and its validity
      as the result, whatever the store held before. */
  lemma LoadAfterSave(st: Store, d: GpsData)
    ensures LoadGPSData(SaveGPSData(st, d)) == (d.valid, d)
    ensures HasValidStoredGPS(SaveGPSData(st, d)) == d.valid
  {
  }

  /** Saving one record and then another leaves only the second. */
  lemma SaveOverwrites(st: Store, d1: GpsData, d2: GpsData)
    ensures LoadGPSData(SaveGPSData(SaveGPSData(st, d1), d2)) == (d2.valid, d2)
  {
    LoadAfterSave(SaveGPSData(st, d1), d2);
  }
}

=== FILE: scalars.dfy ===
/**
 Fixed-width integer types of the ESP32 target (where `unsigned long` is
 32 bits wide), C's truncating remainder, and an opaque single-precision float.
 */
module Scalars {

  const TWO_TO_32: int := 0x1_0000_0000

  type u8 = x: int | 0 <= x < 0x100
  type u16 = x: int | 0 <= x < 0x1_0000
  type u32 = x: int | 0 <= x < 0x1_0000_0000

  /** An IEEE-754 single-precision value, kept as its bit pattern and never
      interpreted: the model does no floating-point arithmetic. */
  datatype Float32 = Float32(bits: u32)

  /** The bit pattern of 0.0f, the default the history reader falls back to. */
  const FLOAT_ZERO: Float32 := Float32(0)

  /** Unsigned 32-bit wrap-around, as C performs it on `unsigned long`. */
  function Wrap32(x: int): (r: u32)
    ensures 0 <= x < TWO_TO_32 ==> r == x
    ensures (r - x) % TWO_TO_32 == 0
  {
    x % TWO_TO_32
  }

  /** C's `a % b` for a positive divisor: the remainder takes the sign of `a`
      (Dafny's own `%` is Euclidean and never negative). */
  function CRem(a: int, b: int): (r: int)
    requires b > 0
    ensures a >= 0 ==> 0 <= r < b && r == a % b
    ensures a < 0 ==> -b < r <= 0
  {
    if a >= 0 then a % b else -((-a) % b)
  }

  /** An optional value, for lookups the firmware reports with a `bool`. */
  datatype Option<T> = None | Some(value: T)
}

=== FILE: sim7070g.dfy ===
/**
 The modem lifecycle of the main firmware revision (sim7070g.cpp):
 start-up liveness check, restart, network-registration polling, readiness
 probe, GNSS power switching and the free-running response reader.

 Every retry loop is a recursive function mirroring the source loop, and its
 contract states which replies decide the outcome: the attempt bounds,
 including their off-by-one shapes, are facts about window positions.
 */
module Sim7070g {
  import opened Text
  import opened AtLink

  const LIVENESS_ATTEMPTS: nat := 5
  const RESTART_PROBE_ATTEMPTS: nat := 10
  const REGISTRATION_ROUNDS: nat := 30
  /** Budget of `AT+CFUN=1,1`, the full-functionality restart. */
  const RESTART_TIMEOUT: nat := 10000
  /** Budget of the readiness probe `isModuleReady`. */
  const READY_TIMEOUT: nat := 1000
  /** Budget of the GNSS power switch `AT+CGNSPWR`. */
  const GNSS_POWER_TIMEOUT: nat := 5000

  const OK_TOKEN: string := "OK"
  const HOME_TOKEN: string := "0,1"
  const ROAMING_TOKEN: string := "0,5"

  /** The `j`-th upcoming reply would make a transaction waiting for `OK` succeed. */
  ghost predicate AnsweredOk(l: Link, j: nat)
  {
    Accepts(OK_TOKEN, WindowAt(l, j).rx)
  }

  /** The `j`-th upcoming reply would satisfy the registration query issued at
      that position: rounds send `0,1` then `0,5`, so even positions are
      tested for home registration and odd ones for roaming. */
  ghost predicate AnsweredRegistered(l: Link, j: nat)
  {
    Accepts(RegistrationToken(j), WindowAt(l, j).rx)
  }

  function RegistrationToken(j: nat): string
  {
    if j % 2 == 0 then HOME_TOKEN else ROAMING_TOKEN
  }

  /** `n` liveness probes `AT` were appended to the log. */
  ghost predicate ProbesSent(before: seq<Tx>, after: seq<Tx>, n: nat)
  {
    |after| == |before| + n && after[..|before|] == before
    && forall i :: |before| <= i < |after| ==> after[i] == Command("AT", OK_TOKEN, DEFAULT_TIMEOUT)
  }

  /** `while (!sendATCommand("AT", "OK") && attempts < bound) attempts++;`
      and the final value of `attempts`. The loop probes once more after
      `bound` failures, and a success on that extra probe still leaves
      `attempts == bound`. */
  function ProbeLoop(l: Link, attempts: nat, bound: nat): (r: Step<nat>)
    requires attempts <= bound
    ensures attempts <= r.value <= bound
    decreases bound - attempts
  {
    var probe := SendATCommand(l, "AT", OK_TOKEN, DEFAULT_TIMEOUT);
    if probe.value || attempts >= bound then Step(attempts, probe.link)
    else ProbeLoop(probe.link, attempts + 1, bound)
  }

  /** The loop ends before the bound exactly when one of the first
      `bound - attempts` probes is answered. */
  lemma ProbeLoopOutcome(l: Link, attempts: nat, bound: nat)
    requires attempts <= bound
    ensures ProbeLoop(l, attempts, bound).value < bound
      <==> exists j :: 0 <= j < bound - attempts && AnsweredOk(l, j)
  {
    var r := ProbeLoop(l, attempts, bound);
    ProbeLoopTraffic(l, attempts, bound);
    if r.value < bound {
      assert AnsweredOk(l, r.value - attempts);
    }
  }

  /** How many probes `ProbeLoop` sends: it stops at the first answered probe,
      or after `bound - attempts + 1` probes. */
  lemma ProbeLoopTraffic(l: Link, attempts: nat, bound: nat)
    requires attempts <= bound
    ensures var r := ProbeLoop(l, attempts, bound);
      && (forall j :: 0 <= j < r.value - attempts ==> !AnsweredOk(l, j))
      && (r.value < bound ==> AnsweredOk(l, r.value - attempts))
      && ProbesSent(l.sent, r.link.sent, r.value - attempts + 1)
      && forall j: nat :: WindowAt(r.link, j) == WindowAt(l, j + r.value - attempts + 1)
  {
    ProbeLoopReplies(l, attempts, bound);
    ProbeLoopLog(l, attempts, bound);
  }

  /** The replies behind `ProbeLoop`'s count: unanswered probes, then the
      answered one unless the bound was reached. */
  lemma {:induction false} ProbeLoopReplies(l: Link, attempts: nat, bound: nat)
    requires attempts <= bound
    ensures var r := ProbeLoop(l, attempts, bound);
      && (forall j :: 0 <= j < r.value - attempts ==> !AnsweredOk(l, j))
      && (r.value < bound ==> AnsweredOk(l, r.value - attempts))
    decreases bound - attempts
  {
    var probe := SendATCommand(l, "AT", OK_TOKEN, DEFAULT_TIMEOUT);
    if !probe.value && attempts < bound {
      var r := ProbeLoop(probe.link, attempts + 1, bound);
      assert ProbeLoop(l, attempts, bound) == r;
      var n := r.value - attempts - 1;
      ProbeLoopReplies(probe.link, attempts + 1, bound);
      ProbeShift(l, probe.link, n);
      if r.value < bound {
        assert AnsweredOk(probe.link, n);
        assert AnsweredOk(l, r.value - attempts);
      }
    } else {
      assert ProbeLoop(l, attempts, bound) == Step(attempts, probe.link);
      assert probe.value == AnsweredOk(l, 0);
    }
  }

  /** The probes `ProbeLoop` appends to the log, one per reply window it consumes. */
  lemma {:induction false} ProbeLoopLog(l: Link, attempts: nat, bound: nat)
    requires attempts <= bound
    ensures var r := ProbeLoop(l, attempts, bound);
      && ProbesSent(l.sent, r.link.sent, r.value - attempts + 1)
      && forall j: nat :: WindowAt(r.link, j) == WindowAt(l, j + r.value - attempts + 1)
    decreases bound - attempts
  {
    var probe := SendATCommand(l, "AT", OK_TOKEN, DEFAULT_TIMEOUT);
    if !probe.value && attempts < bound {
      var r := ProbeLoop(probe.link, attempts + 1, bound);
      assert ProbeLoop(l, attempts, bound) == r;
      ProbeLoopLog(probe.link, attempts + 1, bound);
      ProbesCompose(l.sent, probe.link.sent, r.link.sent, r.value - attempts);
      WindowsCompose(l, probe.link, r.link, r.value - (attempts + 1) + 1);
    } else {
      assert ProbeLoop(l, attempts, bound) == Step(attempts, probe.link);
      assert probe.link.sent[..|l.sent|] == l.sent;
    }
  }

  /** One probe followed by `n` more is `n + 1` probes. */
  lemma ProbesCompose(before: seq<Tx>, mid: seq<Tx>, after: seq<Tx>, n: nat)
    requires mid == before + [Command("AT", OK_TOKEN, DEFAULT_TIMEOUT)]
    requires ProbesSent(mid, after, n)
    ensures ProbesSent(before, after, n + 1)
  {
    assert after[..|before|] == mid[..|mid|][..|before|];
  }

  /** One transaction, then a shift by `k`, is a shift by `k + 1`. */
  lemma WindowsCompose(l: Link, mid: Link, r: Link, k: nat)
    requires forall j: nat :: WindowAt(mid, j) == WindowAt(l, j + 1)
    requires forall j: nat :: WindowAt(r, j) == WindowAt(mid, j + k)
    ensures forall j: nat :: WindowAt(r, j) == WindowAt(l, j + k + 1)
  {
    forall j: nat
      ensures WindowAt(r, j) == WindowAt(l, j + k + 1)
    {
      assert WindowAt(r, j) == WindowAt(mid, j + k);
    }
  }

  /** After one failed probe, upcoming reply `j` is the reply `j + 1` of before. */
  lemma ProbeShift(l: Link, next: Link, m: nat)
    requires forall j: nat :: WindowAt(next, j) == WindowAt(l, j + 1)
    requires !AnsweredOk(l, 0)
    requires forall j :: 0 <= j < m ==> !AnsweredOk(next, j)
    ensures forall j: nat :: AnsweredOk(next, j) == AnsweredOk(l, j + 1)
    ensures forall j :: 0 <= j < m + 1 ==> !AnsweredOk(l, j)
  {
    forall j | 0 <= j < m + 1
      ensures !AnsweredOk(l, j)
    {
      if j > 0 {
        assert WindowAt(next, j - 1) == WindowAt(l, j);
        assert !AnsweredOk(next, j - 1);
      }
    }
  }

  /** `initializeSIM7070G` (main revision): succeeds exactly when one of the
      first five `AT` probes is answered; after five failures a sixth probe
      is still sent, and its answer is ignored. Once liveness passes, the
      restart, signal-quality and SMS-configuration replies do not matter. */
  function InitializeSIM7070G(l: Link): (r: Step<bool>)
    ensures r.value <==> exists j :: 0 <= j < LIVENESS_ATTEMPTS && AnsweredOk(l, j)
    ensures !r.value ==> ProbesSent(l.sent, r.link.sent, LIVENESS_ATTEMPTS + 1)
  {
    var live := ProbeLoop(l, 0, LIVENESS_ATTEMPTS);
    ProbeLoopTraffic(l, 0, LIVENESS_ATTEMPTS);
    ProbeLoopOutcome(l, 0, LIVENESS_ATTEMPTS);
    if live.value >= LIVENESS_ATTEMPTS then Step(false, live.link)
    else
      var restart := SendATCommand(live.link, "AT+CFUN=1,1", OK_TOKEN, RESTART_TIMEOUT);
      var ready := ProbeLoop(restart.link, 0, RESTART_PROBE_ATTEMPTS);
      var csq := SendATCommand(ready.link, "AT+CSQ", OK_TOKEN, NETWORK_TIMEOUT);
      var textMode := SendATCommand(csq.link, "AT+CMGF=1", OK_TOKEN, DEFAULT_TIMEOUT);
      var smsParams := SendATCommand(textMode.link, "AT+CSMP=17,167,0,0", OK_TOKEN, DEFAULT_TIMEOUT);
      Step(true, smsParams.link)
  }

  /** `count` registration queries `AT+CREG?` were appended to the log. */
  ghost predicate RegistrationQueriesSent(before: seq<Tx>, after: seq<Tx>, count: nat)
  {
    |after| == |before| + count && after[..|before|] == before
    && forall i :: |before| <= i < |after| ==> after[i].Command? && after[i].line == "AT+CREG?"
  }

  /** The registration polling loop shared by `checkNetworkRegistration`
      (30 rounds of 5 s queries, then `AT+COPS?` on success) and the test
      revision's `enableRF` (10 rounds of 2 s queries, no operator query).
      A round asks for home registration and, only if that fails, roaming. */
  function RegistrationLoop(l: Link, attempts: nat, bound: nat, waitMs: nat, queryOperator: bool): (r: Step<bool>)
    requires attempts <= bound
    decreases bound - attempts
  {
    if attempts >= bound then Step(false, l)
    else
      var home := SendATCommand(l, "AT+CREG?", HOME_TOKEN, waitMs);
      if home.value then
        if queryOperator then Step(true, SendATCommand(home.link, "AT+COPS?", OK_TOKEN, NETWORK_TIMEOUT).link)
        else Step(true, home.link)
      else
        var roaming := SendATCommand(home.link, "AT+CREG?", ROAMING_TOKEN, waitMs);
        if roaming.value then
          if queryOperator then Step(true, SendATCommand(roaming.link, "AT+COPS?", OK_TOKEN, NETWORK_TIMEOUT).link)
          else Step(true, roaming.link)
        else RegistrationLoop(roaming.link, attempts + 1, bound, waitMs, queryOperator)
  }

  /** The loop reports registration exactly when one of the replies to its
      `2 * (bound - attempts)` queries reports it at its position. */
  lemma {:induction false} RegistrationLoopOutcome(l: Link, attempts: nat, bound: nat, waitMs: nat, queryOperator: bool)
    requires attempts <= bound
    ensures RegistrationLoop(l, attempts, bound, waitMs, queryOperator).value
      <==> exists j :: 0 <= j < 2 * (bound - attempts) && AnsweredRegistered(l, j)
    decreases bound - attempts
  {
    if attempts < bound {
      var home := SendATCommand(l, "AT+CREG?", HOME_TOKEN, waitMs);
      assert home.value == AnsweredRegistered(l, 0);
      if !home.value {
        var roaming := SendATCommand(home.link, "AT+CREG?", ROAMING_TOKEN, waitMs);
        assert roaming.value == AnsweredRegistered(l, 1);
        if !roaming.value {
          var r := RegistrationLoop(roaming.link, attempts + 1, bound, waitMs, queryOperator);
          assert RegistrationLoop(l, attempts, bound, waitMs, queryOperator) == r;
          RegistrationLoopOutcome(roaming.link, attempts + 1, bound, waitMs, queryOperator);
          RegistrationRoundFails(l, roaming.link, 2 * (bound - attempts));
        }
      }
    }
  }

  /** Traffic of the registration loop: on failure exactly two queries per
      round; on success at most that many plus the operator query. */
  lemma {:induction false} RegistrationLoopTraffic(l: Link, attempts: nat, bound: nat, waitMs: nat, queryOperator: bool)
    requires attempts <= bound
    ensures var r := RegistrationLoop(l, attempts, bound, waitMs, queryOperator);
      && (!r.value ==> RegistrationQueriesSent(l.sent, r.link.sent, 2 * (bound - attempts)))
      && |l.sent| <= |r.link.sent| <= |l.sent| + 2 * (bound - attempts) + 1
      && r.link.sent[..|l.sent|] == l.sent
    decreases bound - attempts
  {
    if attempts < bound {
      var home := SendATCommand(l, "AT+CREG?", HOME_TOKEN, waitMs);
      if !home.value {
        var roaming := SendATCommand(home.link, "AT+CREG?", ROAMING_TOKEN, waitMs);
        if !roaming.value {
          RegistrationLoopTraffic(roaming.link, attempts + 1, bound, waitMs, queryOperator);
          var r := RegistrationLoop(roaming.link, attempts + 1, bound, waitMs, queryOperator);
          assert RegistrationLoop(l, attempts, bound, waitMs, queryOperator) == r;
          PrefixCompose(l.sent, roaming.link.sent, r.link.sent);
          if !r.value {
            QueriesCompose(l.sent, roaming.link.sent, r.link.sent, 2 * (bound - attempts - 1));
          }
        }
      }
    }
  }

  /** At most `max` registration queries `AT+CREG?`, and nothing else, were
      appended to the log. */
  ghost predicate RegistrationQueriesWithin(before: seq<Tx>, after: seq<Tx>, max: nat)
  {
    |before| <= |after| <= |before| + max && after[..|before|] == before
    && forall i :: |before| <= i < |after| ==> after[i].Command? && after[i].line == "AT+CREG?"
  }

  /** Without the operator query the polling loop sends registration queries
      only, at most two per round. */
  lemma {:induction false} SilentRegistrationLoopTraffic(l: Link, attempts: nat, bound: nat, waitMs: nat)
    requires attempts <= bound
    ensures RegistrationQueriesWithin(l.sent, RegistrationLoop(l, attempts, bound, waitMs, false).link.sent, 2 * (bound - attempts))
    decreases bound - attempts
  {
    if attempts < bound {
      var home := SendATCommand(l, "AT+CREG?", HOME_TOKEN, waitMs);
      if !home.value {
        var roaming := SendATCommand(home.link, "AT+CREG?", ROAMING_TOKEN, waitMs);
        assert roaming.link.sent == l.sent + [Command("AT+CREG?", HOME_TOKEN, waitMs), Command("AT+CREG?", ROAMING_TOKEN, waitMs)];
        if !roaming.value {
          SilentRegistrationLoopTraffic(roaming.link, attempts + 1, bound, waitMs);
          var r := RegistrationLoop(roaming.link, attempts + 1, bound, waitMs, false);
          assert RegistrationLoop(l, attempts, bound, waitMs, false) == r;
          QueriesWithinCompose(l.sent, roaming.link.sent, r.link.sent, 2 * (bound - attempts - 1));
        }
      }
    }
  }

  /** The two queries of a failed round, then at most `max` more. */
  lemma QueriesWithinCompose(before: seq<Tx>, mid: seq<Tx>, after: seq<Tx>, max: nat)
    requires RegistrationQueriesSent(before, mid, 2)
    requires RegistrationQueriesWithin(mid, after, max)
    ensures RegistrationQueriesWithin(before, after, max + 2)
  {
    PrefixCompose(before, mid, after);
    forall i | |before| <= i < |after|
      ensures after[i].Command? && after[i].line == "AT+CREG?"
    {
      if i < |mid| {
        assert after[i] == after[..|mid|][i] == mid[i];
      }
    }
  }

  /** A prefix of a prefix. */
  lemma PrefixCompose(a: seq<Tx>, b: seq<Tx>, c: seq<Tx>)
    requires |a| <= |b| <= |c| && b[..|a|] == a && c[..|b|] == b
    ensures c[..|a|] == a
  {
    assert c[..|a|] == c[..|b|][..|a|];
  }

  /** The two queries of a failed round, then `count` more. */
  lemma QueriesCompose(before: seq<Tx>, mid: seq<Tx>, after: seq<Tx>, count: nat)
    requires RegistrationQueriesSent(before, mid, 2)
    requires RegistrationQueriesSent(mid, after, count)
    ensures RegistrationQueriesSent(before, after, count + 2)
  {
    PrefixCompose(before, mid, after);
    forall i | |before| <= i < |after|
      ensures after[i].Command? && after[i].line == "AT+CREG?"
    {
      if i < |mid| {
        assert after[i] == after[..|mid|][i] == mid[i];
      }
    }
  }

  /** After a round, reply `j` is tested for the token reply `j + 2` was. */
  lemma RoundShift(l: Link, next: Link, j: nat)
    requires WindowAt(next, j) == WindowAt(l, j + 2)
    ensures AnsweredRegistered(next, j) == AnsweredRegistered(l, j + 2)
  {
    assert (j + 2) % 2 == j % 2;
  }

  /** A failed round consumes the two replies it tested: what the rest of the
      loop sees at position `j` is what the round saw at `j + 2`. */
  lemma RegistrationRoundFails(l: Link, next: Link, n: nat)
    requires n >= 2
    requires !AnsweredRegistered(l, 0) && !AnsweredRegistered(l, 1)
    requires forall j: nat :: WindowAt(next, j) == WindowAt(l, j + 2)
    ensures (exists j :: 0 <= j < n - 2 && AnsweredRegistered(next, j))
        <==> (exists j :: 0 <= j < n && AnsweredRegistered(l, j))
  {
    if exists j :: 0 <= j < n - 2 && AnsweredRegistered(next, j) {
      var j :| 0 <= j < n - 2 && AnsweredRegistered(next, j);
      RoundShift(l, next, j);
      assert 0 <= j + 2 < n && AnsweredRegistered(l, j + 2);
    }
    if exists j :: 0 <= j < n && AnsweredRegistered(l, j) {
      var j :| 0 <= j < n && AnsweredRegistered(l, j);
      assert j != 0 && j != 1;
      RoundShift(l, next, j - 2);
      assert 0 <= j - 2 < n - 2 && AnsweredRegistered(next, j - 2);
    }
  }

  /** `checkNetworkRegistration`: registered exactly when one of the first 60
      query replies (30 rounds of two) reports home or roaming registration
      at its position. */
  function CheckNetworkRegistration(l: Link): (r: Step<bool>)
    ensures r.value <==> exists j :: 0 <= j < 2 * REGISTRATION_ROUNDS && AnsweredRegistered(l, j)
    ensures !r.value ==> RegistrationQueriesSent(l.sent, r.link.sent, 2 * REGISTRATION_ROUNDS)
  {
    RegistrationLoopTraffic(l, 0, REGISTRATION_ROUNDS, NETWORK_TIMEOUT, true);
    RegistrationLoopOutcome(l, 0, REGISTRATION_ROUNDS, NETWORK_TIMEOUT, true);
    RegistrationLoop(l, 0, REGISTRATION_ROUNDS, NETWORK_TIMEOUT, true)
  }

  /** `isModuleReady`: one `AT` probe with a 1 s budget. */
  function IsModuleReady(l: Link): (r: Step<bool>)
    ensures r.value <==> AnsweredOk(l, 0)
    ensures r.link.sent == l.sent + [Command("AT", OK_TOKEN, READY_TIMEOUT)]
    ensures forall j: nat :: WindowAt(r.link, j) == WindowAt(l, j + 1)
  {
    SendATCommand(l, "AT", OK_TOKEN, READY_TIMEOUT)
  }

  function EnableGNSSPower(l: Link): (r: Step<bool>)
    ensures r.value <==> AnsweredOk(l, 0)
    ensures r.link.sent == l.sent + [Command("AT+CGNSPWR=1", OK_TOKEN, GNSS_POWER_TIMEOUT)]
    ensures forall j: nat :: WindowAt(r.link, j) == WindowAt(l, j + 1)
  {
    SendATCommand(l, "AT+CGNSPWR=1", OK_TOKEN, GNSS_POWER_TIMEOUT)
  }

  function DisableGNSSPower(l: Link): (r: Step<bool>)
    ensures r.value <==> AnsweredOk(l, 0)
    ensures r.link.sent == l.sent + [Command("AT+CGNSPWR=0", OK_TOKEN, GNSS_POWER_TIMEOUT)]
    ensures forall j: nat :: WindowAt(r.link, j) == WindowAt(l, j + 1)
  {
    SendATCommand(l, "AT+CGNSPWR=0", OK_TOKEN, GNSS_POWER_TIMEOUT)
  }

  /** `resetModule`: the restart command must be acknowledged, then one of
      the next ten `AT` probes must be answered (an eleventh is sent after
      ten failures, and ignored). */
  function ResetModule(l: Link): (r: Step<bool>)
    ensures r.value <==> AnsweredOk(l, 0) && exists j :: 1 <= j <= RESTART_PROBE_ATTEMPTS && AnsweredOk(l, j)
    ensures !AnsweredOk(l, 0) ==> r.link.sent == l.sent + [Command("AT+CFUN=1,1", OK_TOKEN, RESTART_TIMEOUT)]
  {
    var restart := SendATCommand(l, "AT+CFUN=1,1", OK_TOKEN, RESTART_TIMEOUT);
    if restart.value then
      var ready := ProbeLoop(restart.link, 0, RESTART_PROBE_ATTEMPTS);
      ProbeLoopOutcome(restart.link, 0, RESTART_PROBE_ATTEMPTS);
      assert forall j: nat :: AnsweredOk(restart.link, j) == AnsweredOk(l, j + 1);
      assert (exists j :: 0 <= j < RESTART_PROBE_ATTEMPTS && AnsweredOk(restart.link, j))
        <==> (exists j :: 1 <= j <= RESTART_PROBE_ATTEMPTS && AnsweredOk(l, j)) by {
        if exists j :: 1 <= j <= RESTART_PROBE_ATTEMPTS && AnsweredOk(l, j) {
          var j :| 1 <= j <= RESTART_PROBE_ATTEMPTS && AnsweredOk(l, j);
          assert AnsweredOk(restart.link, j - 1);
        }
      }
      Step(ready.value < RESTART_PROBE_ATTEMPTS, ready.link)
    else Step(false, restart.link)
  }

  /** `readResponse` stops once the text read so far is non-empty and holds
      `OK` or `ERROR`. */
  predicate ResponseComplete(text: string)
  {
    |text| > 0 && (Contains(text, OK_TOKEN) || Contains(text, ERROR_TOKEN))
  }

  /** The polling loop of `readResponse`: the first poll takes everything
      already buffered, later polls one arriving character each. */
  function ReadLoop(buffered: string, rx: string, k: nat): (text: string)
    requires k <= |rx|
    decreases |rx| - k
  {
    var text := buffered + rx[..k];
    if ResponseComplete(text) || k == |rx| then text else ReadLoop(buffered, rx, k + 1)
  }

  /** `readResponse`: reads without flushing, and returns exactly the text
      accumulated up to the first point where it is complete, or everything
      when the budget runs out first. */
  function ReadResponse(l: Link): (r: Step<string>)
    ensures var w := WindowAt(l, 0);
      && |w.stale| <= |r.value| <= |w.stale + w.rx|
      && r.value == (w.stale + w.rx)[..|r.value|]
      && (ResponseComplete(r.value) || r.value == w.stale + w.rx)
      && forall n :: |w.stale| <= n < |r.value| ==> !ResponseComplete((w.stale + w.rx)[..n])
    ensures r.link.sent == l.sent
  {
    var w := WindowAt(l, 0);
    ReadLoopSpec(w.stale, w.rx, 0);
    Step(ReadLoop(w.stale, w.rx, 0), Advance(l))
  }

  lemma {:induction false} ReadLoopSpec(buffered: string, rx: string, k: nat)
    requires k <= |rx|
    requires forall n :: |buffered| <= n < |buffered| + k ==> !ResponseComplete((buffered + rx)[..n])
    ensures var text := ReadLoop(buffered, rx, k);
      && |buffered| + k <= |text| <= |buffered + rx|
      && text == (buffered + rx)[..|text|]
      && (ResponseComplete(text) || text == buffered + rx)
      && forall n :: |buffered| <= n < |text| ==> !ResponseComplete((buffered + rx)[..n])
    decreases |rx| - k
  {
    var text := buffered + rx[..k];
    assert text == (buffered + rx)[..|buffered| + k];
    if k == |rx| {
      assert text == buffered + rx;
    }
    if !ResponseComplete(text) && k < |rx| {
      ReadLoopSpec(buffered, rx, k + 1);
    }
  }
}

=== FILE: sim7070g_test_revision.dfy ===
/**
 The later revision of the modem driver (test_codes/Test/sim7070g.cpp).
 Its transaction, registration, readiness, GNSS-power and reset functions
 are textual copies of the main revision and are modelled once, in
 `Sim7070g`. What is new here is the one-shot initialisation flag, a start-up
 handshake without the restart, and switching the radio off and on.
 */
module Sim7070gTestRevision {
  import opened AtLink
  import opened Sim7070g

  const RF_ON_ROUNDS: nat := 10
  /** Budget of each registration query while the radio comes back up. */
  const RF_ON_QUERY_TIMEOUT: nat := 2000
  /** Budget of `AT+CFUN=0`, switching the radio off. */
  const RF_OFF_TIMEOUT: nat := 5000

  /** The result of `initializeSIM7070G` and the `sim7070gInitialized` flag after it. */
  datatype InitResult = InitResult(ok: bool, initialized: bool, link: Link)

  /** `initializeSIM7070G` (test revision). With the flag already set it
      reports success and sends nothing. Otherwise liveness decides, as in the
      main revision, and the flag is set exactly on success. */
  function InitializeSIM7070G(initialized: bool, l: Link): (r: InitResult)
    ensures initialized ==> r == InitResult(true, true, l)
    ensures !initialized ==> (r.ok <==> exists j :: 0 <= j < LIVENESS_ATTEMPTS && AnsweredOk(l, j))
    ensures r.initialized <==> initialized || r.ok
    ensures !initialized && !r.ok ==> ProbesSent(l.sent, r.link.sent, LIVENESS_ATTEMPTS + 1)
  {
    if initialized then InitResult(true, true, l)
    else
      var live := ProbeLoop(l, 0, LIVENESS_ATTEMPTS);
      ProbeLoopTraffic(l, 0, LIVENESS_ATTEMPTS);
      ProbeLoopOutcome(l, 0, LIVENESS_ATTEMPTS);
      if live.value >= LIVENESS_ATTEMPTS then InitResult(false, false, live.link)
      else
        var csq := SendATCommand(live.link, "AT+CSQ", OK_TOKEN, NETWORK_TIMEOUT);
        var textMode := SendATCommand(csq.link, "AT+CMGF=1", OK_TOKEN, DEFAULT_TIMEOUT);
        var smsParams := SendATCommand(textMode.link, "AT+CSMP=17,167,0,0", OK_TOKEN, DEFAULT_TIMEOUT);
        InitResult(true, true, smsParams.link)
  }

  /** `isSIM7070GInitialized`: reports the flag. */
  function IsSIM7070GInitialized(initialized: bool): (r: bool)
    ensures r == initialized
  {
    initialized
  }

  /** Initialising twice in a row performs the handshake once: after a
      successful first call the second sends nothing and succeeds. */
  lemma SecondInitializeIsSilent(l: Link)
    ensures var first := InitializeSIM7070G(false, l);
      first.ok ==> InitializeSIM7070G(first.initialized, first.link) == InitResult(true, true, first.link)
  {
  }

  /** A failed first call leaves the flag clear, so the next call runs the
      liveness handshake again, on the replies that follow. */
  lemma FailedInitializeRetries(l: Link)
    ensures var first := InitializeSIM7070G(false, l);
      !first.ok ==>
        && !IsSIM7070GInitialized(first.initialized)
        && (InitializeSIM7070G(first.initialized, first.link).ok
            <==> exists j :: 0 <= j < LIVENESS_ATTEMPTS && AnsweredOk(first.link, j))
  {
  }

  /** `disableRF`: the result of the single `AT+CFUN=0` transaction. */
  function DisableRF(l: Link): (r: Step<bool>)
    ensures r.value <==> AnsweredOk(l, 0)
    ensures r.link.sent == l.sent + [Command("AT+CFUN=0", OK_TOKEN, RF_OFF_TIMEOUT)]
  {
    SendATCommand(l, "AT+CFUN=0", OK_TOKEN, RF_OFF_TIMEOUT)
  }

  /** `AT+CFUN=1`, the switch-on that `enableRF` starts with. */
  function SwitchOn(l: Link): (r: Step<bool>)
    ensures r.value <==> AnsweredOk(l, 0)
  {
    SendATCommand(l, "AT+CFUN=1", OK_TOKEN, RESTART_TIMEOUT)
  }

  /** One of the replies to the ten polling rounds after the switch-on
      reports registration at its position. */
  ghost predicate RegisteredAfterSwitchOn(l: Link)
  {
    exists j :: 0 <= j < 2 * RF_ON_ROUNDS && AnsweredRegistered(SwitchOn(l).link, j)
  }

  /** `enableRF`: the result of `AT+CFUN=1`, whatever the registration polling
      that follows it reports. Polling happens only when the radio was
      switched on, and sends nothing but `AT+CREG?`: at most two per round,
      and all twenty when no reply reports registration. */
  function EnableRF(l: Link): (r: Step<bool>)
    ensures r.value <==> AnsweredOk(l, 0)
    ensures !r.value ==> r.link.sent == l.sent + [Command("AT+CFUN=1", OK_TOKEN, RESTART_TIMEOUT)]
    ensures r.value ==> RegistrationQueriesWithin(l.sent + [Command("AT+CFUN=1", OK_TOKEN, RESTART_TIMEOUT)], r.link.sent, 2 * RF_ON_ROUNDS)
    ensures r.value && !RegisteredAfterSwitchOn(l) ==>
      RegistrationQueriesSent(l.sent + [Command("AT+CFUN=1", OK_TOKEN, RESTART_TIMEOUT)], r.link.sent, 2 * RF_ON_ROUNDS)
  {
    var rf := SwitchOn(l);
    if rf.value then
      SilentRegistrationLoopTraffic(rf.link, 0, RF_ON_ROUNDS, RF_ON_QUERY_TIMEOUT);
      RegistrationLoopTraffic(rf.link, 0, RF_ON_ROUNDS, RF_ON_QUERY_TIMEOUT, false);
      RegistrationLoopOutcome(rf.link, 0, RF_ON_ROUNDS, RF_ON_QUERY_TIMEOUT, false);
      Step(rf.value, RegistrationLoop(rf.link, 0, RF_ON_ROUNDS, RF_ON_QUERY_TIMEOUT, false).link)
    else rf
  }
}

=== FILE: sms_send.dfy ===
/**
 Sending SMS through the modem in text mode (sms_handler.cpp): the guards
 every send passes (module alive, network registered, text mode), the
 `AT+CMGS` submission and its `>` prompt, the message body ended by Ctrl-Z,
 and the confirmation. `sendSMSPair` sends two messages over one guard
 check and succeeds once the first is confirmed.

 Each wait consumes one window of the link. The prompt and confirmation
 waits do not flush, so they read the window's stale bytes before the fresh
 ones; what arrives after the prompt stays buffered for the confirmation.
 The clock reading at which a send is stamped is a parameter.
 */
module SmsSend {
  import opened Scalars
  import opened Text
  import opened AtLink
  import opened Sim7070g
  import opened GpsFix
  import opened SmsText
  import opened SmsThrottle

  const PROMPT: char := '>'
  const CMGS_TOKEN: string := "+CMGS:"
  const CMS_ERROR_TOKEN: string := "+CMS ERROR"
  const TEXT_MODE: string := "AT+CMGF=1"

  /** The submission line, written with `print` and ended by `println()`. */
  function SubmitLine(phoneNumber: string): string
  {
    "AT+CMGS=\"" + phoneNumber + "\""
  }

  /** Everything a non-flushing wait reads from a window, in order. */
  function Input(w: Window): string
  {
    w.stale + w.rx
  }

  // ---------------------------------------------------------------------------
  // The confirmation after Ctrl-Z
  // ---------------------------------------------------------------------------

  datatype Confirmation = Confirmed | Rejected | TimedOut

  /** The success test: the reply holds both `+CMGS:` and `OK`. */
  predicate Succeeded(s: string)
  {
    Contains(s, CMGS_TOKEN) && Contains(s, OK_TOKEN)
  }

  /** The failure test: `ERROR` or `+CMS ERROR`. */
  predicate Errored(s: string)
  {
    Contains(s, ERROR_TOKEN) || Contains(s, CMS_ERROR_TOKEN)
  }

  /** `+CMS ERROR` contains `ERROR`, so the second half of the failure test
      never decides anything on its own. */
  lemma CmsErrorIsError(s: string)
    ensures Errored(s) <==> Contains(s, ERROR_TOKEN)
  {
    if Contains(s, CMS_ERROR_TOKEN) {
      var v := Visible(s);
      var i :| 0 <= i <= |v| - |CMS_ERROR_TOKEN| && OccursAt(v, CMS_ERROR_TOKEN, i);
      assert v[i + 5..i + 10] == v[i..i + 10][5..10] == ERROR_TOKEN;
      assert OccursAt(v, ERROR_TOKEN, i + 5);
    }
  }

  /** The confirmation loop after `k` characters: the success test first,
      then the failure test, until the input runs out. */
  function ConfirmScan(input: string, k: nat): Confirmation
    requires 1 <= k
    decreases |input| + 1 - k
  {
    if k > |input| then TimedOut
    else if Succeeded(input[..k]) then Confirmed
    else if Errored(input[..k]) then Rejected
    else ConfirmScan(input, k + 1)
  }

  /** Confirmed: some prefix shows success while the one before it showed no error. */
  ghost predicate ConfirmedBy(input: string)
  {
    exists k :: 1 <= k <= |input| && Succeeded(input[..k]) && !Errored(input[..k - 1])
  }

  /** Rejected: some prefix shows an error but not yet success. */
  ghost predicate RejectedBy(input: string)
  {
    exists k :: 1 <= k <= |input| && Errored(input[..k]) && !Succeeded(input[..k])
  }

  lemma SucceededGrows(input: string, j: nat, k: nat)
    requires j <= k <= |input|
    requires Succeeded(input[..j])
    ensures Succeeded(input[..k])
  {
    ContainsGrows(input, CMGS_TOKEN, j, k);
    ContainsGrows(input, OK_TOKEN, j, k);
  }

  lemma ErroredGrows(input: string, j: nat, k: nat)
    requires j <= k <= |input|
    requires Errored(input[..j])
    ensures Errored(input[..k])
  {
    if Contains(input[..j], ERROR_TOKEN) {
      ContainsGrows(input, ERROR_TOKEN, j, k);
    } else {
      ContainsGrows(input, CMS_ERROR_TOKEN, j, k);
    }
  }

  /** The loop decides `ConfirmedBy` and `RejectedBy`, given that nothing was
      decided on the first `k - 1` characters. */
  lemma {:induction false} ConfirmScanDecides(input: string, k: nat)
    requires 1 <= k <= |input| + 1
    requires !Succeeded(input[..k - 1]) && !Errored(input[..k - 1])
    ensures ConfirmScan(input, k) == Confirmed <==> ConfirmedBy(input)
    ensures ConfirmScan(input, k) == Rejected <==> RejectedBy(input)
    decreases |input| + 1 - k
  {
    if k <= |input| && !Succeeded(input[..k]) && !Errored(input[..k]) {
      ConfirmScanDecides(input, k + 1);
    } else {
      NothingDecidedBefore(input, k);
      if k <= |input| && Succeeded(input[..k]) {
        assert ConfirmedBy(input);
      } else if k <= |input| {
        assert RejectedBy(input);
      }
    }
  }

  /** Where the loop stops, it stops for the only verdict the input allows. */
  lemma NothingDecidedBefore(input: string, k: nat)
    requires 1 <= k <= |input| + 1
    requires !Succeeded(input[..k - 1]) && !Errored(input[..k - 1])
    requires k <= |input| ==> Succeeded(input[..k]) || Errored(input[..k])
    ensures k <= |input| && Succeeded(input[..k]) ==> !RejectedBy(input)
    ensures k <= |input| && !Succeeded(input[..k]) ==> !ConfirmedBy(input)
    ensures k > |input| ==> !ConfirmedBy(input) && !RejectedBy(input)
  {
    forall m | 1 <= m <= |input| && Succeeded(input[..m]) && !Errored(input[..m - 1])
      ensures k <= |input| && Succeeded(input[..k])
    {
      if m <= k - 1 {
        SucceededGrows(input, m, k - 1);
      } else if k <= |input| && !Succeeded(input[..k]) {
        if m <= k {
          SucceededGrows(input, m, k);
        } else {
          ErroredGrows(input, k, m - 1);
        }
      }
    }
    forall m | 1 <= m <= |input| && Errored(input[..m]) && !Succeeded(input[..m])
      ensures k <= |input| && !Succeeded(input[..k])
    {
      if m <= k - 1 {
        ErroredGrows(input, m, k - 1);
      } else if k <= |input| && Succeeded(input[..k]) {
        SucceededGrows(input, k, m);
      }
    }
  }

  /** Waiting up to 30 s for the confirmation, reading without a flush. */
  function AwaitConfirmation(l: Link): (r: Step<Confirmation>)
    ensures r.value == Confirmed <==> ConfirmedBy(Input(WindowAt(l, 0)))
    ensures r.value == Rejected <==> RejectedBy(Input(WindowAt(l, 0)))
    ensures r.link.sent == l.sent
    ensures forall j: nat :: WindowAt(r.link, j) == WindowAt(l, j + 1)
  {
    var input := Input(WindowAt(l, 0));
    assert input[..0] == "";
    ConfirmScanDecides(input, 1);
    Step(ConfirmScan(input, 1), Advance(l))
  }

  // ---------------------------------------------------------------------------
  // The prompt
  // ---------------------------------------------------------------------------

  /** What a window delivered after its first `>`. */
  function AfterPrompt(input: string): string
  {
    var k := IndexOfChar(input, PROMPT);
    if k < 0 then "" else input[k + 1..]
  }

  /** A prompt splits the input into text without `>`, the prompt, and what
      follows it. */
  lemma AfterPromptSpec(input: string)
    requires PROMPT in input
    ensures exists before :: PROMPT !in before && input == before + [PROMPT] + AfterPrompt(input)
  {
    var k := IndexOfChar(input, PROMPT);
    assert input == input[..k] + [PROMPT] + input[k + 1..];
  }

  /** Waiting up to 5 s for `>`, reading without a flush. Seen: the bytes
      after it stay buffered. Not seen: ESC cancels the submission and the
      buffer is flushed. */
  function AwaitPrompt(l: Link): (r: Step<bool>)
    ensures r.value <==> PROMPT in Input(WindowAt(l, 0))
    ensures r.value ==> r.link.sent == l.sent
    ensures r.value ==> WindowAt(r.link, 0).stale == AfterPrompt(Input(WindowAt(l, 0))) + WindowAt(l, 1).stale
    ensures !r.value ==> r.link.sent == l.sent + [Raw([ESC])] && WindowAt(r.link, 0).stale == ""
    ensures WindowAt(r.link, 0).rx == WindowAt(l, 1).rx
    ensures forall j: nat :: j > 0 ==> WindowAt(r.link, j) == WindowAt(l, j + 1)
  {
    var input := Input(WindowAt(l, 0));
    if PROMPT in input then Step(true, Carry(l, AfterPrompt(input)))
    else
      var cancelled := Write(Advance(l), [ESC]);
      assert forall j: nat :: WindowAt(cancelled, j) == WindowAt(l, j + 1);
      Step(false, ClearSerialBuffer(cancelled))
  }

  /** `print(cmd); println();`. */
  function Submit(l: Link, phoneNumber: string): (r: Link)
    ensures r.script == l.script
    ensures r.sent == l.sent + [Raw(SubmitLine(phoneNumber)), Raw(CRLF)]
  {
    Write(Write(l, SubmitLine(phoneNumber)), CRLF)
  }

  /** `print(message); write(26);`. */
  function Deliver(l: Link, message: string): (r: Link)
    ensures r.script == l.script
    ensures r.sent == l.sent + [Raw(message), Raw([CTRL_Z])]
  {
    Write(Write(l, message), [CTRL_Z])
  }

  // ---------------------------------------------------------------------------
  // The guards and the first submission
  // ---------------------------------------------------------------------------

  /** How far the opening sequence got. */
  datatype Stage = NotReady | NotRegistered | NoTextMode | NoPrompt | Prompted

  /** Registered within the 30 rounds of `checkNetworkRegistration`. */
  ghost predicate Registered(l: Link)
  {
    exists j :: 0 <= j < 2 * REGISTRATION_ROUNDS && AnsweredRegistered(l, j)
  }

  /** After the flush and the ESC that cancels any pending prompt. */
  function Flushed(l: Link): (r: Link)
    ensures r.sent == l.sent + [Raw([ESC])]
    ensures forall j: nat :: WindowAt(r, j).rx == WindowAt(l, j).rx
  {
    Write(ClearSerialBuffer(l), [ESC])
  }

  /** After the liveness probe. */
  function AfterProbe(l: Link): Link
  {
    IsModuleReady(Flushed(l)).link
  }

  /** After the registration check. */
  function AfterRegistration(l: Link): Link
  {
    CheckNetworkRegistration(AfterProbe(l)).link
  }

  /** After `AT+CMGF=1`. */
  function AfterTextMode(l: Link): Link
  {
    SendATCommand(AfterRegistration(l), TEXT_MODE, OK_TOKEN, DEFAULT_TIMEOUT).link
  }

  /** The opening both `sendSMS` and `sendSMSPair` share: flush, ESC, then
      stop at the first guard that fails, else submit the recipient and
      wait for the prompt. A module that does not answer the probe gets
      nothing after it. */
  function Handshake(l: Link, phoneNumber: string): (r: Step<Stage>)
    ensures r.value == NotReady <==> !AnsweredOk(l, 0)
    ensures r.value == NotReady ==> r.link.sent == l.sent + [Raw([ESC]), Command("AT", OK_TOKEN, READY_TIMEOUT)]
  {
    var ready := IsModuleReady(Flushed(l));
    if !ready.value then Step(NotReady, ready.link)
    else
      var registration := CheckNetworkRegistration(ready.link);
      if !registration.value then Step(NotRegistered, registration.link)
      else
        var mode := SendATCommand(registration.link, TEXT_MODE, OK_TOKEN, DEFAULT_TIMEOUT);
        if !mode.value then Step(NoTextMode, mode.link)
        else
          var prompt := AwaitPrompt(Submit(mode.link, phoneNumber));
          Step(if prompt.value then Prompted else NoPrompt, prompt.link)
  }

  /** Each guard is reached only when the ones before it passed, and the
      recipient is submitted only when all of them did; the prompt is then
      looked for in the window after the text-mode reply. */
  lemma HandshakeStages(l: Link, phoneNumber: string)
    ensures var r := Handshake(l, phoneNumber);
      && (r.value == NotRegistered <==> AnsweredOk(l, 0) && !Registered(AfterProbe(l)))
      && (r.value == NoTextMode <==>
            AnsweredOk(l, 0) && Registered(AfterProbe(l)) && !AnsweredOk(AfterRegistration(l), 0))
      && (r.value == Prompted <==>
            && AnsweredOk(l, 0) && Registered(AfterProbe(l)) && AnsweredOk(AfterRegistration(l), 0)
            && PROMPT in Input(WindowAt(AfterTextMode(l), 0)))
  {
  }

  /** `after` continues the log `before`. */
  ghost predicate Extends(before: seq<Tx>, after: seq<Tx>)
  {
    |before| <= |after| && after[..|before|] == before
  }

  /** What was appended after `a` stays in place as the log grows. */
  lemma ExtendsKeepsLast(a: seq<Tx>, b: seq<Tx>, c: seq<Tx>)
    requires |b| == |a| + 1 && b[..|a|] == a && Extends(b, c)
    ensures |c| > |a| && c[|a|] == b[|a|]
  {
    assert c[|a|] == c[..|b|][|a|];
  }

  lemma ExtendsTransitive(a: seq<Tx>, b: seq<Tx>, c: seq<Tx>)
    requires Extends(a, b) && Extends(b, c)
    ensures Extends(a, c)
  {
    assert c[..|a|] == c[..|b|][..|a|];
  }

  /** The opening only appends to the log, and once the guards pass it has
      written the submission line. */
  lemma HandshakeExtends(l: Link, phoneNumber: string)
    ensures var r := Handshake(l, phoneNumber);
      && Extends(l.sent, r.link.sent)
      && (r.value in {NoPrompt, Prompted} ==>
            Extends(AfterTextMode(l).sent + [Raw(SubmitLine(phoneNumber)), Raw(CRLF)], r.link.sent))
  {
    var ready := IsModuleReady(Flushed(l));
    ExtendsTransitive(l.sent, Flushed(l).sent, ready.link.sent);
    if ready.value {
      var registration := CheckNetworkRegistration(ready.link);
      RegistrationLoopTraffic(ready.link, 0, REGISTRATION_ROUNDS, NETWORK_TIMEOUT, true);
      ExtendsTransitive(l.sent, ready.link.sent, registration.link.sent);
      if registration.value {
        var mode := SendATCommand(registration.link, TEXT_MODE, OK_TOKEN, DEFAULT_TIMEOUT);
        ExtendsTransitive(l.sent, registration.link.sent, mode.link.sent);
        var submitted := Submit(mode.link, phoneNumber);
        ExtendsTransitive(l.sent, mode.link.sent, submitted.sent);
        var prompt := AwaitPrompt(submitted);
        ExtendsTransitive(l.sent, submitted.sent, prompt.link.sent);
      }
    }
  }

  // ---------------------------------------------------------------------------
  // The senders
  // ---------------------------------------------------------------------------

  /** A send's result, the throttle after it, the message bodies written to
      the modem in order, and the link. */
  datatype SmsOutcome = SmsOutcome(ok: bool, throttle: Throttle, delivered: seq<string>, link: Link)

  /** `sendSMS(phoneNumber, message)`, stamped at `now` on success. */
  function SendSMS(l: Link, t: Throttle, phoneNumber: string, message: string, now: u32): (r: SmsOutcome)
    ensures var h := Handshake(l, phoneNumber);
      && (r.ok <==> h.value == Prompted && ConfirmedBy(Input(WindowAt(h.link, 0))))
      && (r.delivered == if h.value == Prompted then [message] else [])
    ensures r.throttle == if r.ok then UpdateLastSMSTime(t, now) else t
  {
    var h := Handshake(l, phoneNumber);
    if h.value != Prompted then SmsOutcome(false, t, [], h.link)
    else
      var confirmation := AwaitConfirmation(Deliver(h.link, message));
      if confirmation.value == Confirmed then SmsOutcome(true, UpdateLastSMSTime(t, now), [message], confirmation.link)
      else SmsOutcome(false, t, [message], confirmation.link)
  }

  /** The second half of `sendSMSPair`, entered once the first message is
      confirmed: flush, text mode again (its answer ignored), submit, and
      deliver on a prompt. Stamped whenever the second body was delivered,
      whatever its confirmation says; a missing prompt is not stamped. */
  function SecondMessage(l: Link, t: Throttle, phoneNumber: string, first: string, second: string, now: u32): (r: SmsOutcome)
    ensures r.ok
    ensures var mode := SendATCommand(ClearSerialBuffer(l), TEXT_MODE, OK_TOKEN, DEFAULT_TIMEOUT);
      var promptSeen := PROMPT in Input(WindowAt(mode.link, 0));
      && (r.delivered == if promptSeen then [first, second] else [first])
      && (r.throttle == if promptSeen then UpdateLastSMSTime(t, now) else t)
  {
    var mode := SendATCommand(ClearSerialBuffer(l), TEXT_MODE, OK_TOKEN, DEFAULT_TIMEOUT);
    var prompt := AwaitPrompt(Submit(mode.link, phoneNumber));
    if !prompt.value then SmsOutcome(true, t, [first], prompt.link)
    else
      var confirmation := AwaitConfirmation(Deliver(prompt.link, second));
      SmsOutcome(true, UpdateLastSMSTime(t, now), [first, second], confirmation.link)
  }

  /** `sendSMSPair(phoneNumber, firstMsg, secondMsg)`. One guard check for
      both messages; false unless the first is confirmed, true once it is. */
  function SendSMSPair(l: Link, t: Throttle, phoneNumber: string, first: string, second: string, now: u32): (r: SmsOutcome)
    ensures var h := Handshake(l, phoneNumber);
      && (r.ok <==> h.value == Prompted && ConfirmedBy(Input(WindowAt(h.link, 0))))
      && (r.delivered == [] <==> h.value != Prompted)
    ensures !r.ok ==> r.throttle == t && |r.delivered| <= 1
    ensures 1 <= |r.delivered| <= 2 ==> r.delivered[0] == first
    ensures |r.delivered| <= 2
    ensures |r.delivered| == 2 ==> r.ok && r.delivered[1] == second
    ensures r.throttle == if |r.delivered| == 2 then UpdateLastSMSTime(t, now) else t
  {
    var h := Handshake(l, phoneNumber);
    if h.value != Prompted then SmsOutcome(false, t, [], h.link)
    else
      var confirmation := AwaitConfirmation(Deliver(h.link, first));
      if confirmation.value != Confirmed then SmsOutcome(false, t, [first], confirmation.link)
      else SecondMessage(confirmation.link, t, phoneNumber, first, second, now)
  }

  /** `sendSMS` succeeds exactly when `sendSMSPair` would, given the same
      replies: the pair's result depends on its first message only. */
  lemma SendSMSAgreesWithPair(l: Link, t: Throttle, phoneNumber: string, first: string, second: string, now: u32)
    ensures SendSMS(l, t, phoneNumber, first, now).ok == SendSMSPair(l, t, phoneNumber, first, second, now).ok
    ensures SendSMS(l, t, phoneNumber, first, now).ok ==>
      SendSMS(l, t, phoneNumber, first, now).throttle == UpdateLastSMSTime(t, now)
  {
  }

  /** With the module silent from the start, no body is ever written and
      nothing is stamped. */
  lemma SilentModuleSendsNothing(t: Throttle, sent: seq<Tx>, phoneNumber: string, first: string, second: string, now: u32)
    ensures var r := SendSMSPair(Link([], sent), t, phoneNumber, first, second, now);
      && !r.ok && r.delivered == [] && r.throttle == t
      && r.link.sent == sent + [Raw([ESC]), Command("AT", OK_TOKEN, READY_TIMEOUT)]
  {
    var l := Link([], sent);
    assert !Accepts(OK_TOKEN, WindowAt(l, 0).rx);
  }

  // ---------------------------------------------------------------------------
  // Location messages
  // ---------------------------------------------------------------------------

  /** `sendLocationSMS(phoneNumber, gpsData, type)`: nothing at all without a
      valid fix; otherwise the receiver is switched off (it shares the RF
      path) and the pair is sent, the URI first. */
  function SendLocationSMS(l: Link, t: Throttle, phoneNumber: string, d: GpsData, alert: AlertType, now: u32): (r: SmsOutcome)
    ensures !d.valid ==> r == SmsOutcome(false, t, [], l)
    ensures d.valid ==> |r.link.sent| > |l.sent| && r.link.sent[|l.sent|] == Command("AT+CGNSPWR=0", OK_TOKEN, GNSS_POWER_TIMEOUT)
    ensures |r.delivered| >= 1 ==> d.valid && r.delivered[0] == FormatGeoURI(d)
    ensures |r.delivered| == 2 ==> r.delivered[1] == LocationInstructions(d, alert)
    ensures d.valid ==> var h := Handshake(DisableGNSSPower(l).link, phoneNumber);
      r.ok <==> h.value == Prompted && ConfirmedBy(Input(WindowAt(h.link, 0)))
    ensures r.throttle == if |r.delivered| == 2 then UpdateLastSMSTime(t, now) else t
  {
    if !d.valid then SmsOutcome(false, t, [], l)
    else
      var off := DisableGNSSPower(l);
      var r := SendSMSPair(off.link, t, phoneNumber, GeoText(d), LocationInstructions(d, alert), now);
      SentKeepsPrefix(off.link, t, phoneNumber, GeoText(d), LocationInstructions(d, alert), now);
      ExtendsKeepsLast(l.sent, off.link.sent, r.link.sent);
      r
  }

  /** `sendDisconnectSMS(phoneNumber, gpsData, userPresent, updateInterval)`:
      as `sendLocationSMS`, with the device-status text second. */
  function SendDisconnectSMS(l: Link, t: Throttle, phoneNumber: string, d: GpsData, userPresent: bool, updateInterval: u16, now: u32): (r: SmsOutcome)
    ensures !d.valid ==> r == SmsOutcome(false, t, [], l)
    ensures d.valid ==> |r.link.sent| > |l.sent| && r.link.sent[|l.sent|] == Command("AT+CGNSPWR=0", OK_TOKEN, GNSS_POWER_TIMEOUT)
    ensures |r.delivered| >= 1 ==> d.valid && r.delivered[0] == FormatGeoURI(d)
    ensures |r.delivered| == 2 ==> r.delivered[1] == DisconnectStatus(d, userPresent, updateInterval)
    ensures d.valid ==> var h := Handshake(DisableGNSSPower(l).link, phoneNumber);
      r.ok <==> h.value == Prompted && ConfirmedBy(Input(WindowAt(h.link, 0)))
    ensures r.throttle == if |r.delivered| == 2 then UpdateLastSMSTime(t, now) else t
  {
    if !d.valid then SmsOutcome(false, t, [], l)
    else
      var off := DisableGNSSPower(l);
      var second := DisconnectStatus(d, userPresent, updateInterval);
      var r := SendSMSPair(off.link, t, phoneNumber, GeoText(d), second, now);
      SentKeepsPrefix(off.link, t, phoneNumber, GeoText(d), second, now);
      ExtendsKeepsLast(l.sent, off.link.sent, r.link.sent);
      r
  }

  /** `sendTestSMS(phoneNumber)`: the test text composed at `composedAt`,
      sent as a single message and stamped at `now`. */
  function SendTestSMS(l: Link, t: Throttle, phoneNumber: string, composedAt: u32, now: u32): (r: SmsOutcome)
    ensures var h := Handshake(l, phoneNumber);
      && (r.ok <==> h.value == Prompted && ConfirmedBy(Input(WindowAt(h.link, 0))))
      && (r.delivered == if h.value == Prompted then [TestMessage(composedAt)] else [])
    ensures r.throttle == if r.ok then UpdateLastSMSTime(t, now) else t
  {
    SendSMS(l, t, phoneNumber, TestMessage(composedAt), now)
  }

  /** A pair only appends to the log. */
  lemma SentKeepsPrefix(l: Link, t: Throttle, phoneNumber: string, first: string, second: string, now: u32)
    ensures Extends(l.sent, SendSMSPair(l, t, phoneNumber, first, second, now).link.sent)
  {
    var h := Handshake(l, phoneNumber);
    HandshakeExtends(l, phoneNumber);
    if h.value == Prompted {
      var delivered := Deliver(h.link, first);
      ExtendsTransitive(l.sent, h.link.sent, delivered.sent);
      var confirmation := AwaitConfirmation(delivered);
      if confirmation.value == Confirmed {
        var r := SecondMessage(confirmation.link, t, phoneNumber, first, second, now);
        assert SendSMSPair(l, t, phoneNumber, first, second, now) == r;
        SecondMessageExtends(confirmation.link, t, phoneNumber, first, second, now);
        ExtendsTransitive(l.sent, confirmation.link.sent, r.link.sent);
      }
    }
  }

  /** The second message only appends to the log. */
  lemma SecondMessageExtends(l: Link, t: Throttle, phoneNumber: string, first: string, second: string, now: u32)
    ensures Extends(l.sent, SecondMessage(l, t, phoneNumber, first, second, now).link.sent)
  {
    var mode := SendATCommand(ClearSerialBuffer(l), TEXT_MODE, OK_TOKEN, DEFAULT_TIMEOUT);
    ExtendsTransitive(l.sent, l.sent, mode.link.sent);
    var submitted := Submit(mode.link, phoneNumber);
    ExtendsTransitive(l.sent, mode.link.sent, submitted.sent);
    var prompt := AwaitPrompt(submitted);
    ExtendsTransitive(l.sent, submitted.sent, prompt.link.sent);
    if prompt.value {
      ExtendsTransitive(l.sent, prompt.link.sent, Deliver(prompt.link, second).sent);
    }
  }
}

=== FILE: sms_text.dfy ===
/**
 The SMS texts (sms_handler.cpp). Every composer puts the `geo:` URI of the
 fix alone on the first line, so that a phone turns it into a map link.
 */
module SmsText {
  import opened Scalars
  import opened Text
  import opened GpsFix

  /** `AlertType` (sms_handler.h). A C++ enum can also hold a value outside
      its enumerators, which reaches the `default` branch of a `switch`;
      `UnlistedAlert` stands for any such value. */
  datatype AlertType =
    | AlertLocationUpdate
    | AlertLowBattery
    | AlertTest
    | AlertBleDisconnect
    | UnlistedAlert

  /** `"geo:" + latitude + "," + longitude`, which every composer starts with. */
  function GeoText(d: GpsData): string
  {
    GEO_SCHEME + d.latitude + "," + d.longitude
  }

  /** The title `formatAlertMessage` picks for an alert type. */
  function AlertTitle(t: AlertType): string
  {
    match t
    case AlertLocationUpdate => "Location Update"
    case AlertLowBattery => "Low Battery Alert"
    case AlertTest => "Test Alert"
    case AlertBleDisconnect => "BLE Disconnected Alert"
    case UnlistedAlert => "Location Alert"
  }

  /** The header line: the title and its line break. */
  function AlertHeader(t: AlertType): string
  {
    AlertTitle(t) + "\n"
  }

  /** The trailing block both composers end with. */
  function CoordinateBlock(d: GpsData): string
  {
    "Coordinates:\n" + "Lat: " + d.latitude + "\n" + "Lon: " + d.longitude
  }

  /** `formatAlertMessage`: URI line, blank line, header, blank line,
      coordinates. */
  function FormatAlertMessage(d: GpsData, t: AlertType): (r: string)
    ensures |GeoText(d)| + 2 <= |r| && r[..|GeoText(d)| + 2] == GeoText(d) + "\n\n"
  {
    GeoText(d) + "\n\n" + AlertHeader(t) + "\n" + CoordinateBlock(d)
  }

  /** `formatSimpleLocationMessage`: as an alert, with the fixed title
      "Bike Location". */
  function FormatSimpleLocationMessage(d: GpsData): (r: string)
    ensures |GeoText(d)| + 2 <= |r| && r[..|GeoText(d)| + 2] == GeoText(d) + "\n\n"
  {
    GeoText(d) + "\n\n" + "Bike Location\n\n" + CoordinateBlock(d)
  }

  /** The text up to the first line break. */
  function FirstLine(s: string): string
  {
    var k := IndexOfChar(s, '\n');
    if k < 0 then s else s[..k]
  }

  /** For coordinates without a line break, the first line of a message
      that starts with the URI line is exactly the URI of the fix, and it
      reads back as the fix's coordinates. */
  lemma FirstLineIsGeoURI(d: GpsData, rest: string)
    requires d.valid && '\n' !in d.latitude + d.longitude && ',' !in d.latitude
    ensures FirstLine(GeoText(d) + "\n\n" + rest) == FormatGeoURI(d)
    ensures ReadGeoURI(FirstLine(GeoText(d) + "\n\n" + rest)) == Some((d.latitude, d.longitude))
  {
    var g := GeoText(d);
    var s := g + "\n\n" + rest;
    assert forall i :: 0 <= i < |d.latitude| ==> g[|GEO_SCHEME| + i] == d.latitude[i];
    assert forall i :: 0 <= i < |d.longitude| ==> g[|GEO_SCHEME| + |d.latitude| + 1 + i] == d.longitude[i];
    assert forall i :: 0 <= i < |g| ==> g[i] != '\n';
    assert forall i :: 0 <= i < |g| ==> s[i] == g[i];
    IndexOfCharAt(s, '\n', |g|);
    assert s[..|g|] == g;
    GeoURIRoundTrip(d);
  }

  /** `formatAlertMessage` starts with the URI line of the fix. */
  lemma AlertMessageStartsWithGeoURI(d: GpsData, t: AlertType)
    requires d.valid && '\n' !in d.latitude + d.longitude && ',' !in d.latitude
    ensures FirstLine(FormatAlertMessage(d, t)) == FormatGeoURI(d)
  {
    var rest := AlertHeader(t) + "\n" + CoordinateBlock(d);
    assert FormatAlertMessage(d, t) == GeoText(d) + "\n\n" + rest;
    FirstLineIsGeoURI(d, rest);
  }

  /** `formatSimpleLocationMessage` starts with the URI line of the fix. */
  lemma SimpleMessageStartsWithGeoURI(d: GpsData)
    requires d.valid && '\n' !in d.latitude + d.longitude && ',' !in d.latitude
    ensures FirstLine(FormatSimpleLocationMessage(d)) == FormatGeoURI(d)
  {
    var rest := "Bike Location\n\n" + CoordinateBlock(d);
    assert FormatSimpleLocationMessage(d) == GeoText(d) + "\n\n" + rest;
    FirstLineIsGeoURI(d, rest);
  }

  /** The alert type can be read off the message: two messages for the same
      fix are equal only when their headers are, and the four enumerators
      have distinct headers, the out-of-range value reading "Location Alert". */
  lemma AlertMessageNamesType(d: GpsData, t1: AlertType, t2: AlertType)
    requires FormatAlertMessage(d, t1) == FormatAlertMessage(d, t2)
    ensures AlertHeader(t1) == AlertHeader(t2)
    ensures t1 == t2
  {
    var g := GeoText(d) + "\n\n";
    var tail := "\n" + CoordinateBlock(d);
    assert FormatAlertMessage(d, t1) == g + (AlertHeader(t1) + tail) by {
      AlertMessageSplits(d, t1);
    }
    assert FormatAlertMessage(d, t2) == g + (AlertHeader(t2) + tail) by {
      AlertMessageSplits(d, t2);
    }
    SameRest(g, AlertHeader(t1) + tail, AlertHeader(t2) + tail);
    HeadersDistinct(t1, t2, tail);
  }

  /** An alert is its URI line and blank line, then the header, then the
      rest. */
  lemma AlertMessageSplits(d: GpsData, t: AlertType)
    ensures FormatAlertMessage(d, t)
      == (GeoText(d) + "\n\n") + (AlertHeader(t) + ("\n" + CoordinateBlock(d)))
  {
  }

  /** Texts that agree after a common start are equal. */
  lemma SameRest(g: string, x: string, y: string)
    requires g + x == g + y
    ensures x == y
  {
    assert x == (g + x)[|g|..];
    assert y == (g + y)[|g|..];
  }

  /** Distinct alert types start their header with different text. */
  lemma HeadersDistinct(t1: AlertType, t2: AlertType, tail: string)
    requires AlertHeader(t1) + tail == AlertHeader(t2) + tail
    ensures t1 == t2
  {
    var h1 := AlertHeader(t1);
    var h2 := AlertHeader(t2);
    assert |h1| == |h2|;
    assert h1 == (h1 + tail)[..|h1|] == (h2 + tail)[..|h2|] == h2;
    assert h1[0] == h2[0] && h1[1] == h2[1];
  }

  /** Every composed message, read line by line: the URI, a blank line, the
      title, a blank line, then the coordinate block. Coordinates come from
      the parser's fields, which never hold a line break. */
  lemma MessageLines(d: GpsData, title: string)
    requires '\n' !in d.latitude && '\n' !in d.longitude && '\n' !in title
    ensures Lines(GeoText(d) + "\n\n" + title + "\n\n" + CoordinateBlock(d))
      == [GeoText(d), "", title, "", "Coordinates:", "Lat: " + d.latitude, "Lon: " + d.longitude]
  {
    CoordinateLines(d);
    BlankSeparated(GeoText(d), title, "Coordinates:", "Lat: " + d.latitude, "Lon: " + d.longitude);
  }

  /** The coordinate block is three lines, and for coordinates without a line
      break neither it nor the URI line holds a stray one. */
  lemma CoordinateLines(d: GpsData)
    requires '\n' !in d.latitude && '\n' !in d.longitude
    ensures CoordinateBlock(d) == "Coordinates:" + "\n" + ("Lat: " + d.latitude) + "\n" + ("Lon: " + d.longitude)
    ensures '\n' !in GeoText(d) && '\n' !in "Coordinates:"
    ensures '\n' !in "Lat: " + d.latitude && '\n' !in "Lon: " + d.longitude
  {
    assert "Coordinates:\n" == "Coordinates:" + "\n";
  }

  /** Five lines, the first two followed by a blank line, read back. */
  lemma BlankSeparated(a: string, b: string, c: string, e: string, f: string)
    requires '\n' !in a && '\n' !in b && '\n' !in c && '\n' !in e && '\n' !in f
    ensures Lines(a + "\n\n" + b + "\n\n" + (c + "\n" + e + "\n" + f)) == [a, "", b, "", c, e, f]
  {
    var nl := "\n";
    var r4 := c + nl + (e + nl + f);
    var r3 := "" + nl + r4;
    var r2 := b + nl + r3;
    var r1 := "" + nl + r2;
    assert a + "\n\n" + b + "\n\n" + (c + "\n" + e + "\n" + f) == a + nl + r1;
    LinesCons(e, f);
    LinesCons(c, e + nl + f);
    LinesCons("", r4);
    LinesCons(b, r3);
    LinesCons("", r2);
    LinesCons(a, r1);
    assert Lines(a + nl + r1) == [a] + ([""] + ([b] + ([""] + ([c] + ([e] + [f])))));
    SevenLines(a, b, c, e, f);
  }

  /** The nested form of the seven lines is their display. */
  lemma SevenLines(a: string, b: string, c: string, e: string, f: string)
    ensures [a] + ([""] + ([b] + ([""] + ([c] + ([e] + [f]))))) == [a, "", b, "", c, e, f]
  {
  }

  /** `formatAlertMessage` read line by line: its third line is the title
      of the alert type, which reads "Location Alert" exactly for a value
      outside the enumerators, and it ends with the latitude and longitude
      lines. */
  lemma AlertMessageLines(d: GpsData, t: AlertType)
    requires '\n' !in d.latitude && '\n' !in d.longitude
    ensures Lines(FormatAlertMessage(d, t))
      == [GeoText(d), "", AlertTitle(t), "", "Coordinates:", "Lat: " + d.latitude, "Lon: " + d.longitude]
    ensures AlertTitle(t) == "Location Alert" <==> t == UnlistedAlert
  {
    var title := AlertTitle(t);
    TitleIsOneLine(t);
    assert FormatAlertMessage(d, t) == GeoText(d) + "\n\n" + title + "\n\n" + CoordinateBlock(d);
    MessageLines(d, title);
  }

  /** Every alert title fits on one line. */
  lemma TitleIsOneLine(t: AlertType)
    ensures '\n' !in AlertTitle(t)
  {
  }

  /** `formatSimpleLocationMessage` read line by line: the title is
      "Bike Location". */
  lemma SimpleMessageLines(d: GpsData)
    requires '\n' !in d.latitude && '\n' !in d.longitude
    ensures Lines(FormatSimpleLocationMessage(d))
      == [GeoText(d), "", "Bike Location", "", "Coordinates:", "Lat: " + d.latitude, "Lon: " + d.longitude]
  {
    assert FormatSimpleLocationMessage(d) == GeoText(d) + "\n\n" + "Bike Location" + "\n\n" + CoordinateBlock(d);
    MessageLines(d, "Bike Location");
  }

  /** The first line of `sendLocationSMS`'s second message. */
  const LOCATION_HINT: string :=
    "If the map did not load, " + "Please Copy and Paste " + "the Lat and Long " + "to your Map application."

  lemma LocationHintIsOneLine()
    ensures '\n' !in LOCATION_HINT
  {
    var a, b, c, e := "If the map did not load, ", "Please Copy and Paste ", "the Lat and Long ", "to your Map application.";
    assert '\n' !in a && '\n' !in b;
    assert '\n' !in c && '\n' !in e;
    assert LOCATION_HINT == a + b + c + e;
  }

  /** What `sendLocationSMS` appends for the alert type: a line naming it,
      nothing for a value outside the enumerators. */
  function AlertTag(t: AlertType): string
  {
    match t
    case AlertLocationUpdate => "\n" + "Location Update"
    case AlertTest => "\n" + "Test Alert"
    case AlertLowBattery => "\n" + "Low Battery Alert"
    case AlertBleDisconnect => "\n" + "BLE Disconnected Alert"
    case UnlistedAlert => ""
  }

  /** The second message of `sendLocationSMS`: the hint, then the
      coordinates separated by a space, then the alert-type line. */
  function LocationInstructions(d: GpsData, t: AlertType): string
  {
    var location := "Location: " + d.latitude + " " + d.longitude;
    LOCATION_HINT + "\n" + location + AlertTag(t)
  }

  /** The type line names an enumerator with the title `formatAlertMessage`
      gives it. */
  lemma AlertTagIsTitle(t: AlertType)
    ensures AlertTag(t) == if t == UnlistedAlert then "" else "\n" + AlertTitle(t)
  {
  }

  /** A text without line breaks is a single line. */
  lemma OneLine(s: string)
    requires '\n' !in s
    ensures Lines(s) == [s]
  {
  }

  /** `sendLocationSMS`'s second message read line by line: the hint, the
      coordinates line, and the alert title except for a value outside the
      enumerators. */
  lemma LocationInstructionsLines(d: GpsData, t: AlertType)
    requires '\n' !in d.latitude && '\n' !in d.longitude
    ensures var coordinates := "Location: " + d.latitude + " " + d.longitude;
      Lines(LocationInstructions(d, t))
        == if t == UnlistedAlert then [LOCATION_HINT, coordinates]
           else [LOCATION_HINT, coordinates, AlertTitle(t)]
  {
    var h := LOCATION_HINT;
    var c := "Location: " + d.latitude + " " + d.longitude;
    var w := h + "\n" + c;
    assert Lines(w) == [h] + [c] by {
      LocationHintIsOneLine();
      assert '\n' !in c;
      OneLine(h);
      LinesSnoc(h, c);
    }
    if t == UnlistedAlert {
      assert LocationInstructions(d, t) == w by {
        AlertTagIsTitle(t);
      }
      ShortLines(h, c, "");
    } else {
      var title := AlertTitle(t);
      assert LocationInstructions(d, t) == w + "\n" + title by {
        AlertTagIsTitle(t);
        assert w + ("\n" + title) == w + "\n" + title;
      }
      TitleIsOneLine(t);
      LinesSnoc(w, title);
      ShortLines(h, c, title);
    }
  }

  /** The nested forms of two and three lines are their displays. */
  lemma ShortLines(a: string, b: string, c: string)
    ensures [a] + [b] == [a, b]
    ensures [a] + [b] + [c] == [a, b, c]
  {
  }

  /** The first line of `sendDisconnectSMS`'s second message. */
  const DISCONNECT_HINT: string := "If map did not load, " + "copy coordinates " + "to your map app"

  lemma DisconnectHintIsOneLine()
    ensures '\n' !in DISCONNECT_HINT
  {
    assert '\n' !in "If map did not load, ";
    assert '\n' !in "copy coordinates ";
    assert '\n' !in "to your map app";
  }

  /** The second message of `sendDisconnectSMS`: the hint, the coordinates,
      a blank line, then the device status: whether the owner's phone is
      near, and the SMS interval in seconds. */
  function DisconnectStatus(d: GpsData, userPresent: bool, updateInterval: u16): string
  {
    var location := "Location: " + d.latitude + "," + d.longitude;
    var user := "User: " + (if userPresent then "Present" else "Away");
    var interval := "SMS Interval: " + NatToString(updateInterval) + " sec";
    DISCONNECT_HINT + "\n" + location + "\n" + "\n" + "Device Status" + "\n" + user + "\n" + interval
  }

  /** A decimal rendering never holds a line break. */
  lemma NumberIsOneLine(n: nat)
    ensures '\n' !in NatToString(n)
  {
    var s := NatToString(n);
    assert forall i :: 0 <= i < |s| ==> IsDigit(s[i]);
  }

  /** `sendDisconnectSMS`'s second message read line by line: six lines,
      the third blank, and the interval line carries the interval's decimal
      digits, which read back as the interval. */
  lemma DisconnectStatusLines(d: GpsData, userPresent: bool, updateInterval: u16)
    requires '\n' !in d.latitude && '\n' !in d.longitude
    ensures var digits := NatToString(updateInterval);
      && Lines(DisconnectStatus(d, userPresent, updateInterval))
        == [DISCONNECT_HINT, "Location: " + d.latitude + "," + d.longitude, "", "Device Status",
            "User: " + (if userPresent then "Present" else "Away"), "SMS Interval: " + digits + " sec"]
      && DecimalValue(digits) == updateInterval as int
  {
    var digits := NatToString(updateInterval);
    NumberIsOneLine(updateInterval);
    var a, b, e := DISCONNECT_HINT, "Location: " + d.latitude + "," + d.longitude, "Device Status";
    var f, g := "User: " + (if userPresent then "Present" else "Away"), "SMS Interval: " + digits + " sec";
    StatusLinesAreSingle(d, userPresent, digits);
    SixLinesOf(a, b, e, f, g);
    assert DisconnectStatus(d, userPresent, updateInterval)
      == a + "\n" + b + "\n" + "\n" + e + "\n" + f + "\n" + g;
    assert DecimalValue(digits) == updateInterval as int by {
      DecimalRoundTrip(updateInterval as nat);
    }
  }

  /** None of the device-status lines holds a line break. */
  lemma StatusLinesAreSingle(d: GpsData, userPresent: bool, digits: string)
    requires '\n' !in d.latitude && '\n' !in d.longitude && '\n' !in digits
    ensures '\n' !in DISCONNECT_HINT && '\n' !in "Location: " + d.latitude + "," + d.longitude
    ensures '\n' !in "Device Status" && '\n' !in "User: " + (if userPresent then "Present" else "Away")
    ensures '\n' !in "SMS Interval: " + digits + " sec"
  {
    DisconnectHintIsOneLine();
  }

  /** Two lines, a blank line and three more, joined by line breaks, read
      back. */
  lemma SixLinesOf(a: string, b: string, e: string, f: string, g: string)
    requires '\n' !in a && '\n' !in b && '\n' !in e && '\n' !in f && '\n' !in g
    ensures Lines(a + "\n" + b + "\n" + "\n" + e + "\n" + f + "\n" + g) == [a, b, "", e, f, g]
  {
    var nl := "\n";
    var w := a + nl + b;
    var blank := w + nl + "";
    var y := blank + nl + e;
    var z := y + nl + f;
    assert blank == w + nl;
    OneLine(a);
    LinesSnoc(a, b);
    LinesSnoc(w, "");
    LinesSnoc(blank, e);
    LinesSnoc(y, f);
    LinesSnoc(z, g);
    SixLines(a, b, e, f, g);
  }

  /** The nested form of the six lines is their display. */
  lemma SixLines(a: string, b: string, e: string, f: string, g: string)
    ensures [a] + [b] + [""] + [e] + [f] + [g] == [a, b, "", e, f, g]
  {
  }

  /** `sendTestSMS`'s text, with the whole seconds since boot. */
  function TestMessage(now: u32): string
  {
    var time := "Time: " + NatToString(now as nat / 1000) + " seconds since boot";
    "Bike Tracker Test SMS" + "\n" + "System operational" + "\n" + time
  }

  /** The test text read line by line: three lines, the last carrying the
      whole seconds since boot, which read back as such. */
  lemma TestMessageLines(now: u32)
    ensures var digits := NatToString(now as nat / 1000);
      && Lines(TestMessage(now))
        == ["Bike Tracker Test SMS", "System operational", "Time: " + digits + " seconds since boot"]
      && DecimalValue(digits) == now as int / 1000
  {
    var digits := NatToString(now as nat / 1000);
    NumberIsOneLine(now as nat / 1000);
    ThreeLines("Bike Tracker Test SMS", "System operational", "Time: " + digits + " seconds since boot");
    DecimalRoundTrip(now as nat / 1000);
  }

  /** Three lines joined by line breaks read back. */
  lemma ThreeLines(a: string, b: string, c: string)
    requires '\n' !in a && '\n' !in b && '\n' !in c
    ensures Lines(a + "\n" + b + "\n" + c) == [a, b, c]
  {
    OneLine(a);
    LinesSnoc(a, b);
    LinesSnoc(a + "\n" + b, c);
    ShortLines(a, b, c);
  }
}

=== FILE: sms_throttle.dfy ===
/**
 SMS throttling (sms_handler.cpp): the time of the last sent SMS, kept in RAM
 and mirrored to flash, and the two readings the firmware takes of it. All
 arithmetic is on 32-bit `unsigned long`, and `millis()` wraps about every
 49.7 days; the clock reading is a parameter.
 */
module SmsThrottle {
  import opened Scalars
  import opened Flash

  const SMS_NAMESPACE: string := "sms-data"
  const LAST_SMS_KEY: string := "lastSMS"
  const MILLIS_PER_SECOND: nat := 1000
  /** The largest interval, in seconds, whose conversion to milliseconds
      does not wrap around. */
  const MAX_EXACT_INTERVAL: nat := 4294967

  /** The `lastSMSTime` static and the flash store it is mirrored to. */
  datatype Throttle = Throttle(lastSMSTime: u32, store: Store)

  /** `updateLastSMSTime` at clock reading `now`: remembered in RAM and
      persisted under `sms-data`/`lastSMS`; nothing else in flash changes. */
  function UpdateLastSMSTime(t: Throttle, now: u32): (r: Throttle)
    ensures r.lastSMSTime == now
    ensures GetULong(r.store, SMS_NAMESPACE, LAST_SMS_KEY, 0) == now
    ensures forall k :: k != LAST_SMS_KEY && k in Entries(t.store, SMS_NAMESPACE) ==>
      k in Entries(r.store, SMS_NAMESPACE) && Entries(r.store, SMS_NAMESPACE)[k] == Entries(t.store, SMS_NAMESPACE)[k]
    ensures forall ns :: ns != SMS_NAMESPACE ==> Entries(r.store, ns) == Entries(t.store, ns)
  {
    Throttle(now, Put(t.store, SMS_NAMESPACE, LAST_SMS_KEY, ULongValue(now)))
  }

  /** `shouldSendSMS(intervalSeconds)` at clock reading `now`. A clock that
      reads earlier than the last send (it wrapped) first resets the last
      send to 0; the interval is converted to milliseconds in 32 bits. The
      result and the throttle after the call. */
  function ShouldSendSMS(t: Throttle, intervalSeconds: u32, now: u32): (r: (bool, Throttle))
    ensures r.1.store == t.store
    ensures r.1.lastSMSTime == if now < t.lastSMSTime then 0 else t.lastSMSTime
    ensures r.0 <==> now - r.1.lastSMSTime >= Wrap32(intervalSeconds * MILLIS_PER_SECOND)
  {
    var intervalMillis := Wrap32(intervalSeconds * MILLIS_PER_SECOND);
    var last := if now < t.lastSMSTime then 0 else t.lastSMSTime;
    (Wrap32(now - last) >= intervalMillis, t.(lastSMSTime := last))
  }

  /** `getTimeSinceLastSMS` at clock reading `now`: whole seconds since the
      last send, or 0 when the clock reads earlier than it. */
  function GetTimeSinceLastSMS(t: Throttle, now: u32): (r: u32)
    ensures now < t.lastSMSTime ==> r == 0
    ensures now >= t.lastSMSTime ==>
      r * MILLIS_PER_SECOND <= now - t.lastSMSTime < (r + 1) * MILLIS_PER_SECOND
  {
    if now < t.lastSMSTime then 0 else Wrap32(now - t.lastSMSTime) / MILLIS_PER_SECOND
  }

  /** For every interval that fits in 32 bits once converted, and a clock
      that has not wrapped since the last send, the throttle opens exactly
      when the whole seconds elapsed reach the interval. */
  lemma ShouldSendAgreesWithElapsed(t: Throttle, intervalSeconds: u32, now: u32)
    requires intervalSeconds <= MAX_EXACT_INTERVAL
    requires t.lastSMSTime <= now
    ensures ShouldSendSMS(t, intervalSeconds, now).0 <==> GetTimeSinceLastSMS(t, now) >= intervalSeconds
  {
    var r := GetTimeSinceLastSMS(t, now);
    assert intervalSeconds * MILLIS_PER_SECOND < TWO_TO_32;
    if r >= intervalSeconds {
      assert r * MILLIS_PER_SECOND >= intervalSeconds * MILLIS_PER_SECOND;
    } else {
      assert (r + 1) * MILLIS_PER_SECOND <= intervalSeconds * MILLIS_PER_SECOND;
    }
  }

  /** Right after a send at `sent`, the throttle stays closed until a full
      interval has passed on the clock. */
  lemma ClosedForOneInterval(t: Throttle, sent: u32, intervalSeconds: u32, now: u32)
    requires intervalSeconds <= MAX_EXACT_INTERVAL
    requires sent <= now
    ensures ShouldSendSMS(UpdateLastSMSTime(t, sent), intervalSeconds, now).0
      <==> now - sent >= intervalSeconds * MILLIS_PER_SECOND
  {
    assert intervalSeconds * MILLIS_PER_SECOND < TWO_TO_32;
  }

  /** Once the clock has wrapped past the last send, the throttle measures
      from 0 rather than from the send: `shouldSendSMS` forgets the send,
      and `getTimeSinceLastSMS` reports no time at all. */
  lemma WrappedClockForgetsLastSend(t: Throttle, intervalSeconds: u32, now: u32)
    requires now < t.lastSMSTime
    ensures var r := ShouldSendSMS(t, intervalSeconds, now);
      && r.1.lastSMSTime == 0
      && (r.0 <==> now >= Wrap32(intervalSeconds * MILLIS_PER_SECOND))
      && GetTimeSinceLastSMS(t, now) == 0
  {
  }

  /** An interval too long for 32 bits wraps: asking for 4294968 seconds
      lets an SMS through 704 ms after the last one. */
  lemma LongIntervalWraps(t: Throttle)
    requires t.lastSMSTime == 0
    ensures ShouldSendSMS(t, MAX_EXACT_INTERVAL + 1, 704).0
    ensures !ShouldSendSMS(t, MAX_EXACT_INTERVAL + 1, 703).0
  {
    assert (MAX_EXACT_INTERVAL + 1) * MILLIS_PER_SECOND == TWO_TO_32 + 704;
  }
}

=== FILE: text.dfy ===
/**
 The string operations the firmware relies on, in the meaning Arduino's
 `String` class gives them: substring search, character search, comparison
 with a literal, whitespace trimming, decimal rendering of integers, and
 joining with a separator.

 A `String` may hold NUL characters: `+=` stores one read from the UART and
 counts it in `length()`. Searching (`strstr`, `strchr`) and comparing with a
 literal (`strcmp`) work on the NUL-terminated buffer, so they see only the
 text before the first NUL; `trim`, `substring` and indexing see it all.
 */
module Text {

  /** True when `t` occurs in `s` starting at position `i`. */
  predicate OccursAt(s: string, t: string, i: int)
  {
    0 <= i && i + |t| <= |s| && s[i..i + |t|] == t
  }

  /** `t` occurs somewhere in `s`. */
  predicate Occurs(s: string, t: string)
  {
    exists i :: 0 <= i <= |s| - |t| && OccursAt(s, t, i)
  }

  /** What the C string functions see of a buffer: the text before its
      first NUL. */
  function Visible(s: string): string
  {
    if |s| == 0 || s[0] == '\0' then "" else [s[0]] + Visible(s[1..])
  }

  /** The visible part is the longest prefix without NUL, which is where
      `IndexOfChar` finds the first NUL. */
  lemma {:induction false} VisibleSpec(s: string)
    ensures var r := Visible(s);
      && r <= s && '\0' !in r
      && (|r| < |s| ==> s[|r|] == '\0')
      && r == (var k := IndexOfChar(s, '\0'); if k < 0 then s else s[..k])
    decreases |s|
  {
    if |s| > 0 && s[0] != '\0' {
      VisibleSpec(s[1..]);
    }
  }

  /** `s.indexOf(t) != -1`: `strstr` finds `t` before the first NUL of `s`.
      The firmware searches only for literal tokens, which hold no NUL. */
  predicate Contains(s: string, t: string)
  {
    Occurs(Visible(s), t)
  }

  /** `s.indexOf(c)`: `strchr`, the first position of `c` before the first
      NUL, or -1. */
  function Find(s: string, c: char): (r: int)
    ensures -1 <= r < |s|
    ensures r == -1 <==> c !in Visible(s)
    ensures 0 <= r ==> s[r] == c && c !in s[..r]
  {
    var v := Visible(s);
    VisibleSpec(s);
    var r := IndexOfChar(v, c);
    assert 0 <= r ==> v[..r] == s[..r];
    r
  }

  /** `s == lit` for a `String` and a C literal: an empty `String` equals
      only the empty literal, any other is compared with `strcmp`. */
  predicate EqualsLiteral(s: string, lit: string)
  {
    if |s| == 0 then lit == "" else lit <= s && (|lit| == |s| || s[|lit|] == '\0')
  }

  /** Nothing after a NUL is ever searched: whatever follows it, the text
      contains `t` exactly when the part before it does. */
  lemma NulEndsSearch(s: string, rest: string, t: string)
    ensures Contains(s + "\0" + rest, t) <==> Contains(s, t)
  {
    var x := s + "\0" + rest;
    VisibleSpec(x);
    VisibleSpec(s);
    if '\0' in s {
      var p := IndexOfChar(s, '\0');
      IndexOfCharAt(x, '\0', p);
      assert x[..p] == s[..p];
    } else {
      IndexOfCharAt(x, '\0', |s|);
      assert x[..|s|] == s;
    }
  }

  /** The visible part of a prefix is a prefix of the visible part of any
      longer prefix. */
  lemma VisibleGrows(s: string, j: int, k: int)
    requires 0 <= j <= k <= |s|
    ensures Visible(s[..j]) <= Visible(s[..k])
  {
    var a, b := s[..j], s[..k];
    VisibleSpec(a);
    VisibleSpec(b);
    if '\0' in a {
      var p := IndexOfChar(a, '\0');
      assert forall i :: 0 <= i < p ==> b[i] == a[..p][i];
      IndexOfCharAt(b, '\0', p);
      assert a[..p] == b[..p];
    } else {
      var w := Visible(b);
      assert forall i :: 0 <= i < j ==> b[i] == a[i];
      assert w[..j] == a;
    }
  }

  /** An occurrence in a text is one in every text extending it. */
  lemma OccursExtends(v: string, w: string, t: string)
    requires v <= w && Occurs(v, t)
    ensures Occurs(w, t)
  {
    var i :| 0 <= i <= |v| - |t| && OccursAt(v, t, i);
    assert w[i..i + |t|] == v[i..i + |t|];
    assert OccursAt(w, t, i);
  }

  /** A prefix that contains `t` keeps containing it when it grows. */
  lemma ContainsGrows(s: string, t: string, j: int, k: int)
    requires 0 <= j <= k <= |s|
    requires Contains(s[..j], t)
    ensures Contains(s[..k], t)
  {
    VisibleGrows(s, j, k);
    OccursExtends(Visible(s[..j]), Visible(s[..k]), t);
  }

  /** `t` is found in any text that has it as an infix with no NUL before it. */
  lemma ContainsInfix(a: string, t: string, b: string)
    requires '\0' !in a && '\0' !in t
    ensures Contains(a + t + b, t)
  {
    var s := a + t + b;
    var w := Visible(s);
    VisibleSpec(s);
    assert forall i :: 0 <= i < |a| + |t| ==> s[i] == (a + t)[i];
    assert w[|a|..|a| + |t|] == s[|a|..|a| + |t|] == t;
    assert OccursAt(w, t, |a|);
  }

  /** Dropping a prefix of a concatenation, within its first part. */
  lemma DropInFirst<T>(a: seq<T>, b: seq<T>, n: nat)
    requires n <= |a|
    ensures (a + b)[n..] == a[n..] + b
  {
  }

  /** Dropping a prefix of a concatenation that covers its first part. */
  lemma DropPastFirst<T>(a: seq<T>, b: seq<T>, n: nat)
    requires n <= |b|
    ensures (a + b)[|a| + n..] == b[n..]
  {
  }

  /** `s.indexOf(c)`: the first position of `c`, or -1. */
  function IndexOfChar(s: string, c: char): (r: int)
    ensures -1 <= r < |s|
    ensures r == -1 <==> c !in s
    ensures 0 <= r ==> s[r] == c && c !in s[..r]
  {
    if |s| == 0 then -1
    else if s[0] == c then 0
    else
      var k := IndexOfChar(s[1..], c);
      if k == -1 then -1 else k + 1
  }

  /** The first position holding `c` is what `IndexOfChar` finds. */
  lemma {:induction false} IndexOfCharAt(s: string, c: char, k: nat)
    requires k < |s| && s[k] == c
    requires forall i :: 0 <= i < k ==> s[i] != c
    ensures IndexOfChar(s, c) == k
    decreases k
  {
    if k > 0 {
      IndexOfCharAt(s[1..], c, k - 1);
    }
  }

  /** C's `isspace`, which Arduino's `String::trim` uses. */
  predicate IsSpace(c: char)
  {
    c == ' ' || c == '\t' || c == '\n' || c == '\r' || c == 11 as char || c == 12 as char
  }

  function TrimLeft(s: string): string
  {
    if |s| > 0 && IsSpace(s[0]) then TrimLeft(s[1..]) else s
  }

  function TrimRight(s: string): string
  {
    if |s| > 0 && IsSpace(s[|s| - 1]) then TrimRight(s[..|s| - 1]) else s
  }

  /** `String::trim`: drop leading and trailing whitespace. */
  function Trim(s: string): string
  {
    TrimRight(TrimLeft(s))
  }

  /** `TrimLeft` removes exactly the leading run of whitespace. */
  lemma {:induction false} TrimLeftSpec(s: string)
    ensures var r := TrimLeft(s);
      && |r| <= |s| && r == s[|s| - |r|..]
      && (|r| > 0 ==> !IsSpace(r[0]))
      && forall i :: 0 <= i < |s| - |r| ==> IsSpace(s[i])
    decreases |s|
  {
    if |s| > 0 && IsSpace(s[0]) {
      TrimLeftSpec(s[1..]);
    }
  }

  /** `TrimRight` removes exactly the trailing run of whitespace. */
  lemma {:induction false} TrimRightSpec(s: string)
    ensures var r := TrimRight(s);
      && |r| <= |s| && r == s[..|r|]
      && (|r| > 0 ==> !IsSpace(r[|r| - 1]))
      && forall i :: |r| <= i < |s| ==> IsSpace(s[i])
    decreases |s|
  {
    if |s| > 0 && IsSpace(s[|s| - 1]) {
      TrimRightSpec(s[..|s| - 1]);
    }
  }

  /** `Trim` keeps an infix of its input that neither starts nor ends with
      whitespace, and everything it drops is whitespace. */
  lemma TrimSpec(s: string)
    ensures var r := Trim(s);
      var lead := |s| - |TrimLeft(s)|;
      && 0 <= lead && lead + |r| <= |s| && r == s[lead..lead + |r|]
      && (|r| > 0 ==> !IsSpace(r[0]) && !IsSpace(r[|r| - 1]))
      && (forall i :: 0 <= i < lead ==> IsSpace(s[i]))
      && (forall i :: lead + |r| <= i < |s| ==> IsSpace(s[i]))
  {
    var left := TrimLeft(s);
    TrimLeftSpec(s);
    TrimRightSpec(left);
    var lead := |s| - |left|;
    var r := Trim(s);
    assert r == left[..|r|];
    assert forall i :: lead + |r| <= i < |s| ==> s[i] == left[i - lead];
  }

  /** Text without leading or trailing whitespace is left alone by `Trim`. */
  lemma TrimKeepsTrimmed(s: string)
    requires |s| > 0 ==> !IsSpace(s[0]) && !IsSpace(s[|s| - 1])
    ensures Trim(s) == s
  {
  }

  /** Trailing whitespace after a non-space character is all `TrimRight` removes. */
  lemma {:induction false} TrimRightAfter(x: string, y: string)
    requires |x| > 0 && !IsSpace(x[|x| - 1])
    ensures TrimRight(x + y) == x + TrimRight(y)
    decreases |y|
  {
    if |y| > 0 && IsSpace(y[|y| - 1]) {
      assert (x + y)[..|x + y| - 1] == x + y[..|y| - 1];
      TrimRightAfter(x, y[..|y| - 1]);
    } else if |y| == 0 {
      assert x + y == x;
    }
  }

  // ---------------------------------------------------------------------------
  // Decimal rendering: Arduino's String(n) for integers
  // ---------------------------------------------------------------------------

  predicate IsDigit(c: char)
  {
    '0' <= c <= '9'
  }

  function DigitChar(d: nat): (c: char)
    requires d < 10
    ensures IsDigit(c) && c as int - '0' as int == d
  {
    ('0' as int + d) as char
  }

  /** `String(n)` for an unsigned value: decimal digits, no leading zero. */
  function NatToString(n: nat): (s: string)
    ensures |s| >= 1
    ensures forall i :: 0 <= i < |s| ==> IsDigit(s[i])
    ensures s[0] == '0' ==> n == 0
    decreases n
  {
    if n < 10 then [DigitChar(n)] else NatToString(n / 10) + [DigitChar(n % 10)]
  }

  function DigitValue(c: char): (d: nat)
    requires IsDigit(c)
    ensures d < 10
  {
    c as int - '0' as int
  }

  /** The value a digit string denotes. */
  function DecimalValue(s: string): nat
    requires forall i :: 0 <= i < |s| ==> IsDigit(s[i])
  {
    if |s| == 0 then 0
    else DecimalValue(s[..|s| - 1]) * 10 + DigitValue(s[|s| - 1])
  }

  /** Reading back a rendered number gives the number. */
  lemma {:induction false} DecimalRoundTrip(n: nat)
    ensures DecimalValue(NatToString(n)) == n
    decreases n
  {
    if n >= 10 {
      var s := NatToString(n);
      assert s[..|s| - 1] == NatToString(n / 10);
      DecimalRoundTrip(n / 10);
    }
  }

  lemma NatToStringInjective(a: nat, b: nat)
    requires NatToString(a) == NatToString(b)
    ensures a == b
  {
    DecimalRoundTrip(a);
    DecimalRoundTrip(b);
  }

  /** `String(n)` for a signed value. */
  function IntToString(n: int): (s: string)
    ensures |s| >= 1
    ensures n >= 0 <==> IsDigit(s[0])
  {
    if n < 0 then "-" + NatToString(-n) else NatToString(n)
  }

  /** Distinct integers render to distinct strings. */
  lemma IntToStringInjective(a: int, b: int)
    requires IntToString(a) == IntToString(b)
    ensures a == b
  {
    if a < 0 && b < 0 {
      assert NatToString(-a) == IntToString(a)[1..];
      assert NatToString(-b) == IntToString(b)[1..];
      NatToStringInjective(-a, -b);
    } else if a >= 0 && b >= 0 {
      NatToStringInjective(a, b);
    }
  }

  // ---------------------------------------------------------------------------
  // Joining
  // ---------------------------------------------------------------------------

  /** The parts separated by `sep`; the empty sequence joins to "". */
  function Join(parts: seq<string>, sep: string): (r: string)
  {
    if |parts| == 0 then ""
    else if |parts| == 1 then parts[0]
    else parts[0] + sep + Join(parts[1..], sep)
  }

  /** Appending a part adds one separator and the part at the end, which is
      how the firmware builds joined text in a loop. */
  lemma {:induction false} JoinAppend(parts: seq<string>, last: string, sep: string)
    requires |parts| > 0
    ensures Join(parts + [last], sep) == Join(parts, sep) + sep + last
    decreases |parts|
  {
    if |parts| > 1 {
      assert (parts + [last])[1..] == parts[1..] + [last];
      JoinAppend(parts[1..], last, sep);
    }
  }

  /** The lines of a text: the pieces between line breaks, the last one
      running to the end. */
  function Lines(s: string): (r: seq<string>)
    ensures |r| > 0
    decreases |s|
  {
    var k := IndexOfChar(s, '\n');
    if k < 0 then [s] else [s[..k]] + Lines(s[k + 1..])
  }

  /** A line without a line break, followed by a line break, is the first
      line and the rest are the lines after it. */
  lemma LinesCons(a: string, b: string)
    requires '\n' !in a
    ensures Lines(a + "\n" + b) == [a] + Lines(b)
  {
    var s := a + "\n" + b;
    assert forall i :: 0 <= i < |a| ==> s[i] == a[i];
    IndexOfCharAt(s, '\n', |a|);
    assert s[..|a|] == a;
    assert s[|a| + 1..] == b;
  }

  /** A line break followed by a last line without one adds that line at
      the end. */
  lemma {:induction false} LinesSnoc(a: string, b: string)
    requires '\n' !in b
    ensures Lines(a + "\n" + b) == Lines(a) + [b]
    decreases |a|
  {
    var s := a + "\n" + b;
    if '\n' !in a {
      LinesCons(a, b);
      assert Lines(b) == [b];
    } else {
      var k := IndexOfChar(a, '\n');
      assert forall i :: 0 <= i < k ==> s[i] == a[i];
      IndexOfCharAt(s, '\n', k);
      assert s[..k] == a[..k];
      assert s[k + 1..] == a[k + 1..] + "\n" + b;
      LinesSnoc(a[k + 1..], b);
      var head, rest := [a[..k]], Lines(a[k + 1..]);
      assert Lines(s) == head + (rest + [b]);
      assert Lines(a) == head + rest;
      assert head + (rest + [b]) == head + rest + [b];
    }
  }
}
